=== FILE: README.md ===
# 77.uz marketplace core in Dafny

A model of the logic that the 77.uz classified-ads backend (Django and
Django REST framework) puts on top of its database, with proofs about it.
The database is an immutable value: tables are sequences of records in
primary-key order, and a counter table is a map. Every operation is a pure
transition from one such state to the next. The model covers:

- the store models: slug allocation for ads and categories, view and
  search counters, the category tree walk, the live-ad count, and the
  main-photo machinery of `AdPhoto.save` with its post-save and post-delete
  handlers;
- the store serializers: the address line, `is_liked`, ad create and update
  with their photo lists, single photo upload, and the create methods that
  bind the requesting user;
- the store views: `category_ids` parsing, the active-only lookups, the
  view-counting detail view, search and autocomplete, the favourite
  create/delete guards, and `search_count_increase`;
- the store permissions and the store admin: price formatting, price range,
  `user_or_device`, and the bulk actions;
- the account models and manager: the phone validator, defaults,
  `create_user` and `create_superuser`;
- the account serializers: customer and seller registration, login,
  profile update, and token refresh/verify;
- the account admin: `clean_password2`, and approving or rejecting pending
  sellers;
- the `custom_response` envelope decorator.

Library calls are function parameters with no assumed behaviour:

- `slugify`;
- `authenticate`;
- `validate_password`;
- decoding JWTs;
- `icontains` matching.

Modules, one per file:

- `Wrappers`: Option and Result.
- `Text`: strip, split/join, integer parsing and printing, thousands
  grouping, upper case.
- `Tables`: filter, update, count, keyed lookup, save and slicing on a table.
- `Slugs`: the slug probe.
- `Catalog`: store models.
- `Photos`: main-photo rules.
- `Http`: requesters and methods.
- `Permissions`.
- `StoreAdmin`.
- `AdSerializers`.
- `StoreViews`.
- `Users`: account models and manager.
- `AccountSerializers`.
- `AccountAdmin`.
- `Envelope`.

Where the documented behaviour and the code differ, the model follows the
code. Where the code evidently fails its own intent, the model holds both
a member for the code as written and a corrected member, which the rest of
the model uses; the five such places are listed under "Findings". One more
difference is the account-disabled login error. The code raises it only when
`authenticate` returns an inactive user, and Django's default backend never
does, so with the default backend an inactive user gets "Invalid phone
number or password". `authenticate` is a parameter here, so the model keeps
the serializer's own check as written.

## Model

| member | source | states |
|---|---|---|
| Slugs.CandidatesDistinct | apps/store/models.py:115-124 | different probe steps give different candidates (`base`, `base-1`, `base-2`, …) |
| Slugs.TakenBound | apps/store/models.py:120-122 | if the first n candidates are all taken, at least n slugs exist, so the probe stops within `\|taken\| + 1` tries |
| Slugs.ProbeFrom | apps/store/models.py:120-122 | the probe stops at a free candidate, every earlier candidate is taken, and the step is at most the number of taken slugs |
| Slugs.UniqueSlug | apps/store/models.py:115-124 | the slug is held by no ad; it is `slugify(name)` itself when that is free, otherwise `base-k` for the least free k ≥ 1 |
| Catalog.AssignAdSlug | apps/store/models.py:110-113 | a non-empty slug is kept; an empty one becomes a fresh slug, equal to `slugify(name)` when that is free; no other field changes |
| Catalog.SaveAd | apps/store/models.py:110-113 | saving an ad without a slug always succeeds (the slug column's width is not modelled), the row with its assigned slug is in the table, and rows with other ids are unchanged |
| Catalog.SaveCategory | apps/store/models.py:31-34 | a category slug is `slugify(name)` only when empty; a duplicate slug is refused; a new category gets a search counter, and updating an existing one leaves the counters alone |
| Catalog.CreateSearchCount | apps/store/signals.py:6-9 | afterwards the category has a counter: the existing one when present, else a new one at 0; other counters are kept |
| Catalog.IncrementViewCount | apps/store/models.py:134-136 | the ad with the id gets exactly one more view; no other ad and no other column changes |
| Catalog.IncrementSearchCount | apps/store/models.py:252-254 | the category's counter goes up by one, the key set and other counters stay |
| Catalog.IncrementPopular | apps/store/models.py:273-275 | `search_count` goes up by one and no other field changes |
| Catalog.DescendantsSound | apps/store/models.py:40-45 | everything the bounded walk returns is a category lying below the start |
| Catalog.DescendantsComplete | apps/store/models.py:40-45 | every category lying below the start within the bound is returned |
| Catalog.ExpandHas | apps/store/models.py:42-44 | every child and every descendant of a child is in the concatenated result |
| Catalog.GetAllChildren | apps/store/models.py:40-45 | exactly the descendants of the category are returned, and on an acyclic tree the category itself is not among them |
| Catalog.ProductCount | apps/store/models.py:36-38 | the count is zero exactly when the category has no active ad, and never exceeds the number of ads |
| Catalog.ProductCountSnoc | apps/store/models.py:36-38 | the count row by row: an empty table counts 0, and appending an ad adds 1 exactly when it is active and in the category, which fixes the value on every table |
| Catalog.ProductCountSetStatus | apps/store/models.py:36-38 | activating an inactive ad of the category adds one, deactivating an active one removes one, any other status change keeps the count |
| Photos.FirstOf | apps/store/models.py:150 | `.first()` under the ordering `-is_main, order`: a photo of the ad that no other photo of the ad precedes; none only for an ad without photos |
| Photos.ClearMains | apps/store/models.py:155-158 | every main photo of the ad except the kept one is demoted, and nothing else changes |
| Photos.SavePhoto | apps/store/models.py:155-158 | a photo saved as main is the only main photo of its ad; a non-main photo saved next to a main photo changes no flag; with no main photo, the first photo by order is promoted |
| Photos.PromoteAfterSave | apps/store/signals.py:19-24 | when a non-main photo is saved into an ad without a main photo, the handler marks the first photo by order main and changes nothing else |
| Photos.SavedMainIsOnlyMain | apps/store/signals.py:13-18 | after saving a main photo, no other photo of its ad is main |
| Photos.SaveLeavesOtherAds | apps/store/signals.py:15-16 | rows of other ads are untouched by a save |
| Photos.DeletePhoto | apps/store/signals.py:27-33 | on any table with unique ids: an unknown id changes nothing; deleting a non-main photo removes only that row; deleting a main photo removes it, and the first remaining photo of the ad, if any, becomes main while the ad's other photos lose the flag |
| Photos.PromoteFirstRows | apps/store/signals.py:30-33 | saving the ad's first photo as main marks it main, demotes every other photo of the ad and leaves other rows alone |
| Photos.SavePreservesInvariant | apps/store/signals.py:12-24 | "unique ids, at most one main photo per ad, and one whenever the ad has photos" survives every save that keeps a photo with its ad |
| Photos.DeletePreservesInvariant | apps/store/signals.py:27-33 | the same invariant survives every delete |
| Permissions.OwnerOrReadOnly | apps/store/permissions.py:7-11 | safe methods are always allowed; other methods exactly when the requester is the seller |
| Permissions.OwnerOrAuthenticated | apps/store/permissions.py:16-17 | allowed exactly when the requester is signed in |
| Permissions.OwnerOrAuthenticatedObject | apps/store/permissions.py:19-24 | the `user` field decides first, then `seller`; an object with neither is refused |
| Permissions.AdminOrReadOnly | apps/store/permissions.py:29-32 | safe methods are always allowed; other methods exactly for staff |
| Permissions.AnonymousCannotWrite | apps/store/permissions.py:4-32 | none of the four permission checks lets an anonymous caller use a non-safe method |
| Permissions.OwnershipNotStaff | apps/store/permissions.py:7-24 | for object writes the staff flag changes nothing: only the owner may write |
| StoreAdmin.PriceFormatted | apps/store/admin.py:88-89 | the text is the grouped price and "so'm" separated by one space, and the price reads back from it |
| StoreAdmin.PriceRangeReadsBack | apps/store/admin.py:179-186 | each of the four shapes is chosen by which bounds are non-zero, and the bounds read back from the text |
| StoreAdmin.ReadGroupedWithCommas | apps/store/admin.py:88-89 | a number with comma grouping reads back as the number |
| StoreAdmin.UserOrDevice | apps/store/admin.py:155-158 | the linked user's full name, or "Device: " and the device id when no user is linked |
| StoreAdmin.UserOrDeviceAsWritten | apps/store/admin.py:155-158 | the call fails exactly when a user is linked |
| StoreAdmin.UserOrDeviceDiscrepancy | apps/store/admin.py:155-158 | the written and the intended versions agree on device favourites and differ on user favourites |
| StoreAdmin.SetAdStatus | apps/store/admin.py:102-112 | every selected ad gets the status and nothing else; unselected ads are untouched; the reported count is the number of selected ads |
| StoreAdmin.SetAdStatusIdempotent | apps/store/admin.py:102-112 | a second run changes nothing and reports the same count |
| StoreAdmin.MakeTop | apps/store/admin.py:114-116 | selected ads become top with their status untouched; others are untouched; the count is the number of selected ads |
| StoreAdmin.MakeTopIdempotent | apps/store/admin.py:114-116 | a second run changes nothing and reports the same count |
| StoreAdmin.SetPopularActive | apps/store/admin.py:216-226 | selected popular searches get the flag; others are untouched; the reported count is the number of selected searches |
| StoreAdmin.SetPopularActiveIdempotent | apps/store/admin.py:216-226 | a second run changes nothing and reports the same count |
| Users.PhoneValidIff | apps/accounts/models.py:32-39 | a phone passes the validators exactly when it is "+998" followed by 9 digits and nothing else |
| Users.TrailingNewline | apps/accounts/models.py:32-39 | the pattern alone accepts a trailing newline; the length limit of 13 refuses it |
| Users.CleanChoice | apps/accounts/models.py:20-24 | a choice field accepts exactly the listed values |
| Users.DefaultRoleRejected | apps/accounts/models.py:53 | the default role "customer" fails validation against the choices as written, and passes against the choices with "customer" |
| Users.AssignedRolesAccepted | apps/accounts/models.py:53 | every role the code assigns passes the corrected choices |
| Users.NewUser | apps/accounts/models.py:53-56 | an omitted column gets its default (role "customer", status pending, active, not staff); a given one keeps its value |
| Users.UserStrInjective | apps/accounts/models.py:63-64 | `str(user)` is name, " (", phone, ")", and for valid phones name and phone can be read back |
| Users.AddressStr | apps/accounts/models.py:81-82 | the address name, " - ", then the owner's full name |
| Users.AddressStrReadsBack | apps/accounts/models.py:81-82 | when no " - " starts inside the name, splitting at the first " - " gives the name and the owner's name back |
| Users.AddressStrAmbiguous | apps/accounts/models.py:81-82 | without that condition the string is ambiguous: name "a -" with owner "b" reads the same as name "a" with owner "- b" |
| Users.InsertUser | apps/accounts/models.py:37-39 | the unique phone column refuses a phone in use; otherwise the user is appended and phones stay unique |
| Users.CreateUser | apps/accounts/managers.py:5-16 | an empty phone is refused first, then an empty name; otherwise the user carries exactly the given phone, name and extras |
| Users.SuperuserExtras | apps/accounts/managers.py:19-21 | staff and superuser default to true and role to "super_admin" unless supplied; nothing else changes |
| Users.CreateSuperuser | apps/accounts/managers.py:18-28 | a supplied `is_staff` other than true is refused, then a supplied `is_superuser` other than true; otherwise a staff superuser is created |
| AccountSerializers.RegistrationFieldErrors | apps/accounts/serializers.py:36-44 | the fields that fail their validators are reported, and none are reported exactly when all pass |
| AccountSerializers.Register | apps/accounts/serializers.py:46-65 | field errors come first, then a password mismatch, then the password policy; success appends an approved, active customer with the stripped fields, and phones stay unique |
| AccountSerializers.MismatchBeforePolicy | apps/accounts/serializers.py:47-48 | when the passwords differ, the outcome does not depend on the password policy |
| AccountSerializers.SellerFieldErrors | apps/accounts/serializers.py:68-81 | the failing fields in declaration order; a project name over 200 characters once stripped is refused |
| AccountSerializers.RegisterSeller | apps/accounts/serializers.py:85-93 | corrected seller registration, with the category taken from the table the foreign key points to: success exactly when the fields validate, the project name included; the new seller has an id no existing user has, is pending and inactive, stores the stripped name, project name and phone, and exactly one address is linked to them |
| AccountSerializers.RegisterSellerAsWritten | apps/accounts/serializers.py:68-93 | as written: every body fails; invalid ones with their field errors, and every valid one with the category-model mismatch that `User.objects.create` raises |
| AccountSerializers.RegisterSellerDiscrepancy | apps/accounts/serializers.py:68-93 | both versions refuse an invalid body alike; a body passes the field checks exactly when the code as written raises on it and the corrected version registers the seller |
| AccountSerializers.SellerBodyRefusedAsWritten | apps/accounts/serializers.py:68-93 | the body of seller "S", phone +998901234567, category 1, on an empty database raises as written and registers when corrected |
| AccountSerializers.RegisteredRoles | apps/accounts/models.py:66-68 | `is_seller` is false for every registered customer and true for every seller the corrected registration creates |
| AccountSerializers.NewAddressIsOnly | apps/accounts/serializers.py:91 | after seller registration, the new seller owns exactly one address |
| AccountSerializers.LoginFieldErrors | apps/accounts/serializers.py:109-110 | no error exactly when both fields are present and non-blank once stripped; each missing or blank field is named, `phone_number` before `password` |
| AccountSerializers.Login | apps/accounts/serializers.py:108-132 | field errors come first; then, with the stripped credentials, failed authentication or an unknown user is "invalid", an inactive user is "disabled", and login succeeds exactly when the authenticated user exists and is active, returning that user |
| AccountSerializers.LoginFinds | apps/accounts/serializers.py:116-130 | non-blank credentials that `authenticate` maps to an active user log in as exactly that user |
| AccountSerializers.BlankCredentialsSkipAuthentication | apps/accounts/serializers.py:109-110 | with a missing or blank phone or password the outcome is a field error and does not depend on `authenticate` |
| AccountSerializers.ProfileFieldErrors | apps/accounts/serializers.py:149-153 | none exactly when a given name is non-blank and at most 255 characters, the name is present on a full update, and a given phone is non-blank, valid and held by no other user |
| AccountSerializers.UpdateProfile | apps/accounts/serializers.py:149-167 | refused, with nothing written, exactly when a field check fails (so `update`'s own phone check never fires); otherwise the stripped fields are written, a written phone is valid, and only the user's own row changes |
| AccountSerializers.UpdateProfileKeepsPhonesUnique | apps/accounts/serializers.py:149-167 | every profile update, full or partial, keeps phone numbers unique |
| AccountSerializers.RefreshAccess | apps/accounts/serializers.py:170-181 | a missing or blank token is a field error; otherwise the stripped token is decoded, and a token that does not decode is refused |
| AccountSerializers.VerifyToken | apps/accounts/serializers.py:184-199 | fails only for a missing or blank token; otherwise `valid` is true exactly when the stripped token decodes, and the user id comes from the token |
| AccountSerializers.TokenPaddingIgnored | apps/accounts/serializers.py:170-199 | a token with surrounding whitespace is answered exactly like the stripped token |
| AccountSerializers.BlankTokenSkipsDecoding | apps/accounts/serializers.py:170-199 | a missing or blank token is refused without consulting the decoder |
| AccountAdmin.CleanPassword2 | apps/accounts/admin.py:19-24 | refused exactly when both passwords are given and differ; otherwise the confirmation is returned |
| AccountAdmin.CleanPassword2Given | apps/accounts/admin.py:19-24 | with both given, equal pairs are exactly the accepted ones |
| AccountAdmin.DecideSellers | apps/accounts/admin.py:115-125 | every selected pending seller gets the decision; every other user is unchanged; the count is the number of pending sellers selected |
| AccountAdmin.ApproveSellers | apps/accounts/admin.py:115-118 | selected pending sellers become approved and active; others unchanged; the count is zero exactly when nothing changed |
| AccountAdmin.RejectSellers | apps/accounts/admin.py:122-125 | selected pending sellers become rejected and inactive; others unchanged; the count is zero exactly when nothing changed |
| AccountAdmin.DecideIdempotent | apps/accounts/admin.py:115-125 | a second run finds no pending seller and changes nothing |
| AccountAdmin.RejectThenApproveKeepsRejected | apps/accounts/admin.py:115-125 | approval never revives a rejected seller |
| AccountAdmin.SellerCannotLogInBeforeApproval | apps/accounts/serializers.py:88-90 | whatever `authenticate` answers, no login succeeds as a seller the corrected registration has just created |
| AccountAdmin.ApprovedSellerCanLogIn | apps/accounts/admin.py:115-118 | after approval, the seller's credentials log in and return the approved, active row |
| AdSerializers.AddressParts | apps/store/serializers.py:141-149 | the present parts, in the order region, district, address, with empty ones skipped |
| AdSerializers.AddressLineCases | apps/store/serializers.py:141-149 | the joined line in each of the eight combinations of present parts, "" when none |
| AdSerializers.IsLiked | apps/store/serializers.py:151-155 | true exactly when a signed-in requester has the ad among their favourites; false without a request or a user |
| AdSerializers.CreatePhoto | apps/store/serializers.py:243-244 | one photo row is appended with a fresh id and the given order and flag, earlier rows kept, and the main-photo invariant kept |
| AdSerializers.AddPhotos | apps/store/serializers.py:243-244 | the i-th URL becomes a row with order i, main exactly for the first of a fresh list; earlier rows kept; invariant kept |
| AdSerializers.DropPhotos | apps/store/serializers.py:256 | exactly the ad's photos are removed, all others kept |
| AdSerializers.DropPhotosInvariant | apps/store/serializers.py:256 | removing all of an ad's photos keeps the main-photo invariant |
| AdSerializers.NewAd | apps/store/serializers.py:238-241 | the seller is the requester whatever the input says; status defaults to pending, `is_top` false, views 0; the slug is fresh and the row is what `Ad.save` writes |
| AdSerializers.CreateAd | apps/store/serializers.py:238-246 | the ad is appended, and its photos are numbered from 0 with exactly one main when the list is non-empty |
| AdSerializers.ApplyPatch | apps/store/serializers.py:251-253 | supplied fields are overwritten, omitted ones kept |
| AdSerializers.ApplyNoChange | apps/store/serializers.py:251-253 | an empty patch changes nothing |
| AdSerializers.ApplyPatchIdempotent | apps/store/serializers.py:251-253 | applying the same patch twice is applying it once |
| AdSerializers.UpdateAd | apps/store/serializers.py:248-262 | only the ad's row changes; without `photos` the photos are untouched; with `photos` the ad's old photos are replaced by the new list numbered from 0; the invariant is kept |
| AdSerializers.CreatePhotoFor | apps/store/serializers.py:352-360 | an unknown ad id is refused with nothing written; otherwise one row for the ad is added, main exactly when flagged or when the ad had no main photo |
| AdSerializers.CreateFavorite | apps/store/serializers.py:282-286 | the favourite belongs to the requester exactly when signed in; a clash is refused |
| AdSerializers.FavoriteClashIsConstraint | apps/store/models.py:184-187 | a new row under a fresh id keeps the two `unique_together` constraints exactly when the create method's clash check passes |
| AdSerializers.CreateFavoriteKeepsUnique | apps/store/serializers.py:282-286 | a created favourite keeps unique ids and both `unique_together` constraints |
| AdSerializers.CreateSavedSearch | apps/store/serializers.py:314-316 | the saved search belongs to the requester whatever the input says |
| AdSerializers.CreateSavedSearchOwned | apps/store/serializers.py:314-316 | ids stay unique, the requester's list grows by exactly one, and every other user's list is unchanged |
| StoreViews.ParseAll | apps/store/views.py:96 | a result exactly when every piece is an integer, and then piece by piece the parsed values |
| StoreViews.CategoryIds | apps/store/views.py:94-100 | no filter for a missing or empty parameter or when any piece fails; otherwise the ids piece by piece |
| StoreViews.CategoryIdsRoundTrip | apps/store/views.py:94-97 | a comma-joined list of ids parses back to the same list |
| StoreViews.EmptyPieceDropsFilter | apps/store/views.py:98-99 | for any `a` and `b`, the parameter `a,,b` holds an empty piece, which does not parse, so the whole filter is dropped |
| StoreViews.AdList | apps/store/views.py:86-100 | only active ads are listed; with a parsed filter exactly the active ads in those categories, otherwise every active ad |
| StoreViews.MalformedIdsListAllActive | apps/store/views.py:98-99 | a parameter of the form `a,,b` lists exactly what no parameter lists |
| StoreViews.Download | apps/store/views.py:150-153 | found exactly when an active ad has the slug, and the ad is returned unchanged |
| StoreViews.Retrieve | apps/store/views.py:106-114 | a 404 exactly when the download would be; otherwise that ad's view count rises by one, nothing else changes, and the raised count is shown |
| StoreViews.RetrieveThenDownload | apps/store/views.py:110-113 | after a view, the ad is still found by its slug, with the raised count |
| StoreViews.Search | apps/store/views.py:301-340 | nothing for a blank query; otherwise the first five matching active categories in table order, then the first five matching active ads, position by position, each tagged |
| StoreViews.Autocomplete | apps/store/views.py:357-381 | nothing for a blank query; otherwise the first ten matching active ads in table order, position by position (the kind tag is the model's own and not part of this endpoint's output) |
| StoreViews.FavoriteCreateAsWritten | apps/store/views.py:196-210 | a body without `ad` is always refused, even when `product` is valid |
| StoreViews.FavoriteCreateDiscrepancy | apps/store/views.py:196-210 | the body `{"product": 7}` for an existing ad is refused as written and accepted when read from `product` |
| StoreViews.FavoriteCreate | apps/store/views.py:196-210 | refused without a product, for one already among the user's favourites, or for an unknown ad; otherwise one favourite owned by the user is appended |
| StoreViews.FavoriteCreateByDeviceAsWritten | apps/store/views.py:217-235 | refused without both device id and product, and always without `ad` |
| StoreViews.FavoriteCreateByDevice | apps/store/views.py:217-235 | success exactly when device id and product are given, the device has no favourite of that product, the ad exists and the unique constraints allow the row; then one favourite for the device and product is appended, owned by the signed-in user or by nobody |
| StoreViews.FindOwned | apps/store/views.py:255-261 | the position of a favourite with the id owned by the requester, or none when there is no such favourite |
| StoreViews.DeleteFavorite | apps/store/views.py:252-271 | an anonymous caller without a device id gets a 400; no owned match gets a 404; otherwise exactly the matching row is removed |
| StoreViews.FavoriteCreateKeepsUnique | apps/store/views.py:196-235 | both intended create views keep unique ids and both `unique_together` constraints |
| StoreViews.DeleteFavoriteKeepsUnique | apps/store/views.py:252-271 | a delete keeps unique ids and both `unique_together` constraints |
| StoreViews.SearchCountIncrease | apps/store/views.py:400-414 | a 404 with no write for an unknown category; otherwise the counter is created at 0 if missing and raised by one, and no other counter changes |
| StoreViews.SearchCountIncreaseTwice | apps/store/views.py:400-414 | two hits add two |
| Envelope.FirstMessage | apps/common/utils/custom_response_decorator.py:27-33 | a list message is reported by its first item; any other message as itself |
| Envelope.ShapeEntry | apps/common/utils/custom_response_decorator.py:26-44 | the field is copied; with a code, the first message and the upper-cased code; without one, the original message and no code |
| Envelope.CodesAreUpperCase | apps/common/utils/custom_response_decorator.py:37 | a reported code has no ASCII lower-case letter |
| Envelope.SingletonListLikeDetail | apps/common/utils/custom_response_decorator.py:27-37 | a one-item list is reported like its item |
| Envelope.UncodedPassThrough | apps/common/utils/custom_response_decorator.py:39-43 | a message without a code passes through unchanged |
| Envelope.ShapeErrors | apps/common/utils/custom_response_decorator.py:24-44 | one shaped entry per error, in order |
| Envelope.Wrap | apps/common/utils/custom_response_decorator.py:13-51 | success exactly without an exception; success carries the data and no errors; failure carries the shaped errors, [] when there were none, and no data |
| Text.ParseShowInt | apps/store/views.py:96 | `int(str(i)) == i` |
| Text.SplitJoin | apps/store/views.py:96 | splitting a join of separator-free pieces gives the pieces back |
| Text.SplitConcat | apps/store/views.py:96 | splitting `x + sep + y` gives the pieces of `x` followed by the pieces of `y` |
| Text.JoinSplit | apps/store/views.py:96 | joining the pieces of a split gives the string back |
| Text.WithCommasValue | apps/store/admin.py:88-89 | removing the commas of a grouped number leaves its digits |
| Text.Upper | apps/common/utils/custom_response_decorator.py:37 | each ASCII letter `a`..`z` becomes its own capital, every other character is kept, so no ASCII lower-case letter remains |
| Text.UpperIdempotent | apps/common/utils/custom_response_decorator.py:37 | upper-casing twice is upper-casing once |
| Photos.MovingMainPhotoLeavesAdBare | apps/store/signals.py:12-24 | moving the main photo of an ad to another ad through a save leaves the old ad with a photo and no main photo |
| Photos.SavePhotoMoving | apps/store/signals.py:12-24 | the corrected save is exactly `SavePhoto` when the photo stays with its ad |
| Photos.SavePhotoMovingPreservesInvariant | apps/store/signals.py:12-24 | with the old ad looked after, every save, moved photos included, keeps the main-photo invariant |

## Findings

| source | as written | input that shows it | evidently intended | confidence | as-written member | corrected member |
|---|---|---|---|---|---|---|
| apps/store/views.py:196-210 | the guards read the ad from `product`, but the serializer's required field is the write-only `ad` (apps/store/serializers.py:267) | body `{"product": 7}` for an existing ad 7 that is not yet a favourite: the guards pass and the serializer refuses for want of `ad` | the favourite is created for ad 7, as the store's own test posts it (apps/store/tests.py:282) | high, not executed | StoreViews.FavoriteCreateAsWritten, StoreViews.FavoriteCreateDiscrepancy | StoreViews.FavoriteCreate |
| apps/accounts/models.py:20-24, 53 | the role column defaults to "customer", which is not among `ROLE_CHOICES` | any user created without a role, for instance by customer registration: the admin change form's choice validation refuses it | "customer" is a listed choice | high, not executed | Users.ChangeFormRoleAsWritten, Users.DefaultRoleRejected | Users.ChangeFormRole, Users.AssignedRolesAccepted |
| apps/store/admin.py:155-158 | `user_or_device` calls `get_full_name()`, which this custom user model does not define | a favourite with a linked user: the call raises `AttributeError` | the linked user's full name | medium, not executed | StoreAdmin.UserOrDeviceAsWritten, StoreAdmin.UserOrDeviceDiscrepancy | StoreAdmin.UserOrDevice |
| apps/accounts/serializers.py:7-93 | the `category` field draws from the store's `Category`, but `User.category` is a foreign key to the accounts `Category` (apps/accounts/models.py:44-51), so `User.objects.create` raises `ValueError` | seller "S", phone +998901234567, an existing category 1: no user and no address are written, and the request errors | the seller is created with that category | high, not executed | AccountSerializers.RegisterSellerAsWritten, AccountSerializers.RegisterSellerDiscrepancy, AccountSerializers.SellerBodyRefusedAsWritten | AccountSerializers.RegisterSeller |
| apps/store/signals.py:12-24 | the post-save handler looks only at the ad the photo now belongs to, and the photo admin (apps/store/admin.py:121-139) lets a photo's `ad` be changed | photo 1 (ad 1, main) and photo 2 (ad 1); photo 1 is saved under ad 2: ad 1 keeps photo 2 and has no main photo | the ad a photo leaves gets its first photo promoted, as after a delete | medium, not executed | Photos.MovingMainPhotoLeavesAdBare | Photos.SavePhotoMoving, Photos.SavePhotoMovingPreservesInvariant |

The photo saves the rest of the model performs (ad creation and update,
single photo upload) keep each photo with its ad, and on those
`Photos.SavePhotoMoving` is exactly `Photos.SavePhoto`; that is why
`Photos.SavePreservesInvariant` carries the condition that the photo stays
with its ad.

The by-device favourite view has the same mismatch as the first finding.
`StoreViews.FavoriteCreateByDeviceAsWritten` models it as written, and
`StoreViews.FavoriteCreateByDevice` models the corrected version.

## Left out

- Integer width: ids, prices and counters are unbounded naturals. The
  database's 32- and 64-bit column limits are not modelled.
- Catalog.SaveAd: the slug column is a `SlugField` with Django's default
  limit of 50 characters (apps/store/models.py:57). The generated slug is
  not truncated, and a `-k` suffix lengthens it. The model sets no length
  limit, so saving an ad without a slug always succeeds (the slug column's width is not modelled) here. Whether an
  over-long slug is refused depends on the database backend, which is not
  part of this model.
- Catalog.SaveCategory: likewise, the 50-character limit of the category
  slug column (apps/store/models.py:10) is not modelled. Failure comes only
  from a slug clash.
- AdSerializers.NewAd: rests on `Catalog.SaveAd`, so the slug length limit
  is not modelled.
- AdSerializers.CreateAd: always succeeds here, because the slug length
  limit is not modelled (see `Catalog.SaveAd`).
- Catalog.GetAllChildren: the contract states which categories are
  returned. It does not state the pre-order arrangement, where each child
  is followed by its own descendants, although the function builds the list
  in that order.
- Catalog.GetAllChildren: the recursion is bounded by the number of
  categories. On a cyclic parent relation the code never terminates, while
  the model stops. The model's result is exact on every acyclic tree.
- Text.ParseInt: accepts an optional sign and ASCII digits only. Python's
  `int()` also accepts underscores and Unicode digits.
- Users.PhoneValidIff: `\d` is read as an ASCII digit. Python's `\d` in the
  phone pattern also matches other Unicode decimal digits, which the model
  refuses.
- Photos.FirstOf: photos of one ad that tie on (`-is_main`, `order`) are
  taken in table order, so the earliest such row is "first". SQL leaves tied
  rows in no defined order, so the database may pick another one.
- Concurrency: the slug probe, the main-photo updates and the counters are
  racy under concurrent requests. They are modelled as one request at a
  time.
- Coordinates (`lat`/`long`), timestamps, `published_at` ordering, image
  files, icons and `build_absolute_uri` carry no logic and are not
  modelled. Search hits carry no icon.
- Ordering: tables are in primary-key order. The list views' ordering and
  pagination are left to the framework, and search/autocomplete results are
  taken in table order. `category.children.all()` orders by `order` then
  `name`; the model takes the children in primary-key order.
- Request values: query parameters and body fields arrive already decoded,
  as text, integers or absent values. A non-integer `product` in a JSON
  body is not modelled.
- StoreViews.FavoriteCreate: the guard's 400 response and the database's
  unique-constraint refusal are both a failure here. The model does not
  distinguish a 400 from an `IntegrityError`.
- Users.CreateSuperuser: `is not True` is modelled on booleans. Non-boolean
  flags passed by a caller are not modelled.
- AccountSerializers.RegisterSeller: the seller row is created without a
  password, as `objects.create` does. Password hashing is not modelled for
  anyone.
- AdSerializers.CreateAd: the photo URLs are not checked as URLs (the
  `URLField` validator). `AdPhoto.__str__` and `main_photo` are display
  only.
- Text.Upper: only the ASCII letters `a`..`z` are upper-cased. Python's
  `str.upper()` also maps other letters (`é` to `É`, `ß` to `SS`); the
  codes it is applied to are the framework's ASCII error codes.
- AccountSerializers.UpdateProfile: `profile_photo` (an image upload) is
  not modelled.
- Envelope.ShapeEntry: error entries that are not dictionaries (which would
  make the loop raise) are not modelled.
- The list views (my ads, favourites by user or device, saved searches,
  subcategories, popular searches) are plain ownership or flag filters. So
  is the favourite delete view restricted to the user. They are expressed
  by `Tables.Filter` and `Http` requesters and are not modelled one by one.
- `validate_password`, `authenticate`, `slugify`, JWT decoding and
  `icontains` are parameters. Their library behaviour is not part of this
  model.

=== FILE: account_admin.dfy ===
/**
  The user admin (apps/accounts/admin.py): the creation form's password
  confirmation and the two bulk actions that decide pending sellers.
 */
module AccountAdmin {
  import opened Wrappers
  import opened Tables
  import opened Text
  import opened Users
  import opened AccountSerializers

  // ---------------------------------------------------------------------
  // UserCreationForm.clean_password2

  datatype FormError = PasswordsDontMatch

  /** A form value counts as given when it is present and non-empty. */
  predicate Given(s: Option<string>) {
    s.Some? && s.value != ""
  }

  /** `clean_password2`: refused only when both passwords are given and
      differ; otherwise the confirmation is passed on unchanged, even when
      one of them is missing. */
  function CleanPassword2(p1: Option<string>, p2: Option<string>): (r: Result<Option<string>, FormError>)
    ensures r.Failure? <==> Given(p1) && Given(p2) && p1 != p2
    ensures r.Success? ==> r.value == p2
  {
    if Given(p1) && Given(p2) && p1.value != p2.value then Failure(PasswordsDontMatch) else Success(p2)
  }

  /** When both passwords are given, the form accepts exactly the equal
      pairs. */
  lemma CleanPassword2Given(p1: string, p2: string)
    requires p1 != "" && p2 != ""
    ensures CleanPassword2(Some(p1), Some(p2)).Success? <==> p1 == p2
  {
  }

  // ---------------------------------------------------------------------
  // approve_sellers / reject_sellers

  /** The rows the actions touch: selected in the changelist, sellers, and
      still pending. */
  predicate PendingSeller(selection: set<nat>, u: User) {
    u.id in selection && u.role == "seller" && u.status == Pending
  }

  /** Decide every selected pending seller: set the status and the active
      flag, and report how many rows were matched. Nobody else changes. */
  function DecideSellers(users: seq<User>, selection: set<nat>, status: AccountStatus, active: bool)
    : (r: (seq<User>, nat))
    ensures |r.0| == |users|
    ensures r.1 == Count(users, (u: User) => PendingSeller(selection, u))
    ensures forall i :: 0 <= i < |users| && PendingSeller(selection, users[i]) ==>
      r.0[i] == users[i].(status := status, isActive := active)
    ensures forall i :: 0 <= i < |users| && !PendingSeller(selection, users[i]) ==> r.0[i] == users[i]
  {
    var sel := (u: User) => PendingSeller(selection, u);
    (Update(users, sel, (u: User) => u.(status := status, isActive := active)), Count(users, sel))
  }

  /** `approve_sellers`: pending sellers become approved and active. */
  function ApproveSellers(users: seq<User>, selection: set<nat>): (r: (seq<User>, nat))
    ensures |r.0| == |users|
    ensures forall i :: 0 <= i < |users| && PendingSeller(selection, users[i]) ==>
      r.0[i].status == Approved && r.0[i].isActive && IsSeller(r.0[i]) && r.0[i].id == users[i].id
    ensures forall i :: 0 <= i < |users| && !PendingSeller(selection, users[i]) ==> r.0[i] == users[i]
    ensures r.1 == 0 <==> r.0 == users
  {
    var r := DecideSellers(users, selection, Approved, true);
    DecidedUnchangedIffNone(users, selection, Approved, true);
    r
  }

  /** `reject_sellers`: pending sellers become rejected and inactive. */
  function RejectSellers(users: seq<User>, selection: set<nat>): (r: (seq<User>, nat))
    ensures |r.0| == |users|
    ensures forall i :: 0 <= i < |users| && PendingSeller(selection, users[i]) ==>
      r.0[i].status == Rejected && !r.0[i].isActive && IsSeller(r.0[i]) && r.0[i].id == users[i].id
    ensures forall i :: 0 <= i < |users| && !PendingSeller(selection, users[i]) ==> r.0[i] == users[i]
    ensures r.1 == 0 <==> r.0 == users
  {
    var r := DecideSellers(users, selection, Rejected, false);
    DecidedUnchangedIffNone(users, selection, Rejected, false);
    r
  }

  /** The reported count is zero exactly when the table is left unchanged:
      a decided seller is no longer pending, so matching any row changes
      it. */
  lemma DecidedUnchangedIffNone(users: seq<User>, selection: set<nat>, status: AccountStatus, active: bool)
    requires status != Pending
    ensures var r := DecideSellers(users, selection, status, active); r.1 == 0 <==> r.0 == users
  {
    var r := DecideSellers(users, selection, status, active);
    if r.1 != 0 {
      var i :| 0 <= i < |users| && PendingSeller(selection, users[i]);
      assert r.0[i].status != users[i].status;
    } else {
      assert forall i :: 0 <= i < |users| ==> !PendingSeller(selection, users[i]);
    }
  }

  /** Running an action twice does nothing the second time: the decided
      sellers are no longer pending. */
  lemma DecideIdempotent(users: seq<User>, selection: set<nat>, status: AccountStatus, active: bool)
    requires status != Pending
    ensures var once := DecideSellers(users, selection, status, active).0;
      DecideSellers(once, selection, status, active) == (once, 0)
  {
    var once := DecideSellers(users, selection, status, active).0;
    assert forall i :: 0 <= i < |once| ==> !PendingSeller(selection, once[i]);
    var twice := DecideSellers(once, selection, status, active);
    assert twice.0 == once;
  }

  /** A rejected seller cannot be approved afterwards by the approve
      action, which only looks at pending rows. */
  lemma RejectThenApproveKeepsRejected(users: seq<User>, selection: set<nat>)
    ensures var rejected := RejectSellers(users, selection).0;
      ApproveSellers(rejected, selection) == (rejected, 0)
  {
    var rejected := RejectSellers(users, selection).0;
    assert forall i :: 0 <= i < |rejected| ==> !PendingSeller(selection, rejected[i]);
    assert ApproveSellers(rejected, selection).0 == rejected;
  }

  // ---------------------------------------------------------------------
  // The seller's path from registration to login

  /** A newly registered seller is inactive, so whatever `authenticate`
      answers, no login succeeds as that seller. */
  lemma SellerCannotLogInBeforeApproval(
    users: seq<User>, addresses: seq<Address>, categories: set<nat>, r: SellerRegistration,
    phone: Option<string>, password: Option<string>, authenticate: (string, string) -> Option<nat>)
    requires AddressesLinked(users, addresses)
    requires RegisterSeller(users, addresses, categories, r).Success?
    ensures var (users', _, u) := RegisterSeller(users, addresses, categories, r).value;
      var login := Login(users', phone, password, authenticate);
      login.Success? ==> login.value.id != u.id
  {
    var (users', _, u) := RegisterSeller(users, addresses, categories, r).value;
    var login := Login(users', phone, password, authenticate);
    if login.Success? {
      ActiveIsNotNewcomer(users, u, login.value);
    }
  }

  /** An active row of a table that gained one inactive row with a fresh id
      is not that row. */
  lemma ActiveIsNotNewcomer(users: seq<User>, u: User, v: User)
    requires forall i :: 0 <= i < |users| ==> users[i].id != u.id
    requires !u.isActive && v.isActive && v in users + [u]
    ensures v.id != u.id
  {
    var k :| 0 <= k < |users| + 1 && (users + [u])[k] == v;
    if k < |users| {
      assert users[k] == v;
    }
  }

  /** Once approved, the seller logs in: when `authenticate` recognises the
      seller's credentials, login returns the seller's row. */
  lemma ApprovedSellerCanLogIn(
    users: seq<User>, addresses: seq<Address>, categories: set<nat>, r: SellerRegistration,
    phone: string, password: string, authenticate: (string, string) -> Option<nat>)
    requires AddressesLinked(users, addresses)
    requires RegisterSeller(users, addresses, categories, r).Success?
    requires Strip(phone) != "" && Strip(password) != ""
    requires authenticate(Strip(phone), Strip(password)) == Some(RegisterSeller(users, addresses, categories, r).value.2.id)
    ensures var (users', _, u) := RegisterSeller(users, addresses, categories, r).value;
      var approved := ApproveSellers(users', {u.id}).0;
      var login := Login(approved, Some(phone), Some(password), authenticate);
      login.Success? && login.value == u.(status := Approved, isActive := true)
  {
    var (users', _, u) := RegisterSeller(users, addresses, categories, r).value;
    var approved := ApproveSellers(users', {u.id}).0;
    ApprovedLastRowFound(users, u);
    LoginFinds(approved, phone, password, authenticate, u.(status := Approved, isActive := true));
  }

  /** A pending seller appended with a fresh id is found, approved, under
      its id after the approve action selects it. */
  lemma ApprovedLastRowFound(users: seq<User>, u: User)
    requires forall i :: 0 <= i < |users| ==> users[i].id != u.id
    requires u.role == "seller" && u.status == Pending
    ensures FindUser(ApproveSellers(users + [u], {u.id}).0, u.id) == Some(u.(status := Approved, isActive := true))
  {
    var users' := users + [u];
    var n := |users|;
    var approved := DecideSellers(users', {u.id}, Approved, true).0;
    assert ApproveSellers(users', {u.id}).0 == approved;
    assert users'[n] == u;
    assert approved[n] == u.(status := Approved, isActive := true);
    forall j | 0 <= j < n ensures approved[j].id != u.id {
      assert users'[j] == users[j];
    }
    FindUserAt(approved, n);
  }

  /** The row at `n` is found by its id when no earlier row has that id. */
  lemma FindUserAt(rows: seq<User>, n: nat)
    requires n < |rows|
    requires forall j :: 0 <= j < n ==> rows[j].id != rows[n].id
    ensures FindUser(rows, rows[n].id) == Some(rows[n])
  {
    assert KeyIndex(rows, rows[n].id, UserKey) == Some(n);
  }
}

=== FILE: account_serializers.dfy ===
/**
  The account serializers (apps/accounts/serializers.py): customer and
  seller registration, login, profile update and the two token checks.
  Text fields are `CharField`s, which strip surrounding whitespace before
  anything else sees them. `validate_password`, `authenticate` and the JWT
  decoders are library calls and are passed in as functions.
 */
module AccountSerializers {
  import opened Wrappers
  import opened Text
  import opened Tables
  import opened Users

  /** Why a request was refused; `InvalidFields` lists the failing fields
      in declaration order. */
  datatype AccountError =
    | InvalidFields(fields: seq<string>)
    | PasswordMismatch
    | WeakPassword(messages: seq<string>)
    | PhoneInUse
    | InvalidCredentials
    | AccountDisabled
    | InvalidRefreshToken
    | CategoryModelMismatch
    | Manager(error: ManagerError)

  /** A required `CharField` with `max_length`: stripped, then non-empty and
      short enough. */
  predicate TextOk(s: string, maxLength: nat) {
    Strip(s) != "" && |Strip(s)| <= maxLength
  }

  /** The `phone_number` column's checks on a stripped value: required, the
      validators, and the uniqueness the column's `unique=True` adds. */
  predicate PhoneOk(users: seq<User>, phone: string) {
    Strip(phone) != "" && PhoneValid(Strip(phone)) && !PhoneTaken(users, Strip(phone))
  }

  // ---------------------------------------------------------------------
  // Customer registration

  datatype Registration = Registration(fullName: string, phone: string, password: string, passwordConfirm: string)

  function RegistrationFieldErrors(users: seq<User>, r: Registration): (errs: seq<string>)
    ensures errs == [] <==>
      TextOk(r.fullName, 255) && PhoneOk(users, r.phone) && Strip(r.password) != "" && Strip(r.passwordConfirm) != ""
  {
    (if TextOk(r.fullName, 255) then [] else ["full_name"])
    + (if PhoneOk(users, r.phone) then [] else ["phone_number"])
    + (if Strip(r.password) != "" then [] else ["password"])
    + (if Strip(r.passwordConfirm) != "" then [] else ["password_confirm"])
  }

  /** `UserRegistrationSerializer`: field checks, then `validate` (the
      passwords must match, and only then is the password policy asked),
      then `create`, which makes an approved customer and keeps only the
      password, not its confirmation. `policy` returns the policy's
      complaints, none when the password is acceptable. */
  function Register(users: seq<User>, r: Registration, policy: string -> seq<string>)
    : (res: Result<(seq<User>, User), AccountError>)
    ensures RegistrationFieldErrors(users, r) != [] ==> res == Failure(InvalidFields(RegistrationFieldErrors(users, r)))
    ensures RegistrationFieldErrors(users, r) == [] && Strip(r.password) != Strip(r.passwordConfirm) ==>
      res == Failure(PasswordMismatch)
    ensures res.Success? <==>
      RegistrationFieldErrors(users, r) == [] && Strip(r.password) == Strip(r.passwordConfirm)
      && policy(Strip(r.password)) == []
    ensures res.Success? ==> var (users', u) := res.value;
      && users' == users + [u]
      && u.role == "customer" && u.status == Approved && u.isActive && !u.isStaff && !u.isSuperuser
      && u.fullName == Strip(r.fullName) && u.phone == Strip(r.phone) && PhoneValid(u.phone)
      && u.password == Some(Strip(r.password))
    ensures res.Success? && UniquePhones(users) ==> UniquePhones(res.value.0)
  {
    var errs := RegistrationFieldErrors(users, r);
    if errs != [] then Failure(InvalidFields(errs))
    else if Strip(r.password) != Strip(r.passwordConfirm) then Failure(PasswordMismatch)
    else if policy(Strip(r.password)) != [] then Failure(WeakPassword(policy(Strip(r.password))))
    else
      var e := NoExtras.(role := Some("customer"), status := Some(Approved));
      match CreateUser(users, Strip(r.phone), Strip(r.fullName), Some(Strip(r.password)), e)
      case Failure(err) => Failure(Manager(err))
      case Success(v) => Success(v)
  }

  /** Mismatched passwords are refused before the password policy runs: the
      outcome does not depend on the policy at all. */
  lemma MismatchBeforePolicy(users: seq<User>, r: Registration, p: string -> seq<string>, q: string -> seq<string>)
    requires Strip(r.password) != Strip(r.passwordConfirm)
    ensures Register(users, r, p) == Register(users, r, q)
    ensures Register(users, r, p).Failure?
  {
  }

  // ---------------------------------------------------------------------
  // Seller registration

  datatype SellerRegistration = SellerRegistration(
    fullName: string, projectName: Option<string>, category: nat, phone: string, addressName: string)

  /** `project_name`: optional and nullable, blank allowed, at most 200
      characters once stripped. */
  predicate ProjectNameOk(name: Option<string>) {
    name.None? || |Strip(name.value)| <= 200
  }

  /** The stored form of an optional `CharField`: stripped when given. */
  function StripOption(s: Option<string>): (r: Option<string>)
    ensures r.None? <==> s.None?
    ensures r.Some? ==> r.value == Strip(s.value)
  {
    match s
    case None => None
    case Some(v) => Some(Strip(v))
  }

  function SellerFieldErrors(users: seq<User>, categories: set<nat>, r: SellerRegistration): (errs: seq<string>)
    ensures errs == [] <==>
      && TextOk(r.fullName, 255) && ProjectNameOk(r.projectName) && r.category in categories
      && PhoneOk(users, r.phone) && Strip(r.addressName) != ""
    ensures !ProjectNameOk(r.projectName) ==> "project_name" in errs
  {
    (if TextOk(r.fullName, 255) then [] else ["full_name"])
    + (if ProjectNameOk(r.projectName) then [] else ["project_name"])
    + (if r.category in categories then [] else ["category"])
    + (if PhoneOk(users, r.phone) then [] else ["phone_number"])
    + (if Strip(r.addressName) != "" then [] else ["address"])
  }

  /** Every address belongs to an existing user. */
  predicate AddressesLinked(users: seq<User>, addresses: seq<Address>) {
    forall k :: 0 <= k < |addresses| ==> exists i :: 0 <= i < |users| && users[i].id == addresses[k].user
  }

  /** `SellerRegistrationSerializer.create`: the user is written directly
      (no password is set) as a pending, inactive seller, and one address is
      linked to it. */
  function RegisterSeller(users: seq<User>, addresses: seq<Address>, categories: set<nat>, r: SellerRegistration)
    : (res: Result<(seq<User>, seq<Address>, User), AccountError>)
    requires AddressesLinked(users, addresses)
    ensures res.Success? <==> SellerFieldErrors(users, categories, r) == []
    ensures res.Success? ==> var (users', addresses', u) := res.value;
      && users' == users + [u]
      && (forall i :: 0 <= i < |users| ==> users[i].id != u.id)
      && u.role == "seller" && u.status == Pending && !u.isActive && IsSeller(u)
      && u.password.None? && u.category == Some(r.category)
      && u.fullName == Strip(r.fullName) && u.projectName == StripOption(r.projectName)
      && (u.projectName.Some? ==> |u.projectName.value| <= 200)
      && u.phone == Strip(r.phone) && PhoneValid(u.phone)
      && addresses' == addresses + [Address(u.id, Strip(r.addressName))]
      && Count(addresses', (a: Address) => a.user == u.id) == 1
      && AddressesLinked(users', addresses')
  {
    var errs := SellerFieldErrors(users, categories, r);
    if errs != [] then Failure(InvalidFields(errs))
    else
      var e := NoExtras.(role := Some("seller"), status := Some(Pending), isActive := Some(false),
                         projectName := StripOption(r.projectName), category := Some(r.category));
      match CreateUser(users, Strip(r.phone), Strip(r.fullName), None, e)
      case Failure(err) => Failure(Manager(err))
      case Success((users', u)) =>
        var addresses' := addresses + [Address(u.id, Strip(r.addressName))];
        NewAddressIsOnly(users, addresses, u);
        LinkNewAddress(users, addresses, u, Strip(r.addressName));
        Success((users', addresses', u))
  }

  /** `SellerRegistrationSerializer.create` as written. The serializer's
      `category` field draws from the store's `Category` (the module imports
      `store.models.Category`), while `User.category` is a foreign key to the
      accounts `Category`. Assigning the one to the other raises `ValueError`
      in `User.objects.create`, before any row is written, so every body that
      passes the field checks ends in that error. `categories` are the ids
      the field accepts. */
  function RegisterSellerAsWritten(users: seq<User>, addresses: seq<Address>, categories: set<nat>, r: SellerRegistration)
    : (res: Result<(seq<User>, seq<Address>, User), AccountError>)
    ensures res.Failure?
    ensures SellerFieldErrors(users, categories, r) != [] ==>
      res == Failure(InvalidFields(SellerFieldErrors(users, categories, r)))
    ensures res == Failure(CategoryModelMismatch) <==> SellerFieldErrors(users, categories, r) == []
  {
    var errs := SellerFieldErrors(users, categories, r);
    if errs != [] then Failure(InvalidFields(errs))
    else Failure(CategoryModelMismatch)
  }

  /** The two seller registrations refuse the same invalid bodies with the
      same field errors; on every valid body the code as written raises,
      where the corrected one registers the seller. */
  lemma RegisterSellerDiscrepancy(users: seq<User>, addresses: seq<Address>, categories: set<nat>, r: SellerRegistration)
    requires AddressesLinked(users, addresses)
    ensures SellerFieldErrors(users, categories, r) != [] ==>
      RegisterSellerAsWritten(users, addresses, categories, r) == RegisterSeller(users, addresses, categories, r)
    ensures SellerFieldErrors(users, categories, r) == [] <==>
      RegisterSellerAsWritten(users, addresses, categories, r) == Failure(CategoryModelMismatch)
      && RegisterSeller(users, addresses, categories, r).Success?
  {
  }

  /** A concrete body: seller "S" with phone +998901234567 in category 1 on
      an empty database. As written it raises; corrected it registers. */
  lemma SellerBodyRefusedAsWritten()
    ensures var r := SellerRegistration("S", None, 1, "+998901234567", "Home");
      && RegisterSellerAsWritten([], [], {1}, r) == Failure(CategoryModelMismatch)
      && RegisterSeller([], [], {1}, r).Success?
  {
    SampleSellerValid();
  }

  /** The concrete seller body passes every field check. */
  lemma SampleSellerValid()
    ensures SellerFieldErrors([], {1}, SellerRegistration("S", None, 1, "+998901234567", "Home")) == []
  {
    SamplePhoneOk();
    SampleNamesOk();
  }

  /** The concrete name and address name are non-blank and short. */
  lemma SampleNamesOk()
    ensures TextOk("S", 255) && Strip("Home") != ""
  {
    StripUnpadded("S");
    StripUnpadded("Home");
  }

  /** +998901234567 is a valid phone no user holds. */
  lemma SamplePhoneOk()
    ensures PhoneOk([], "+998901234567")
  {
    StripUnpadded("+998901234567");
    SamplePhoneValid();
  }

  /** +998901234567 passes the phone validators. */
  lemma SamplePhoneValid()
    ensures PhoneValid("+998901234567")
  {
    var phone := "+998901234567";
    assert phone[..4] == "+998";
    assert forall k :: 4 <= k < 13 ==> IsDigit(phone[k]);
    assert AllDigits(phone[4..]);
    PhoneValidIff(phone);
  }

  /** `is_seller` tells the two sign-up paths apart: a registered customer
      is never a seller, a registered seller always is. */
  lemma RegisteredRoles(
    users: seq<User>, addresses: seq<Address>, categories: set<nat>,
    c: Registration, s: SellerRegistration, policy: string -> seq<string>)
    requires AddressesLinked(users, addresses)
    ensures Register(users, c, policy).Success? ==> !IsSeller(Register(users, c, policy).value.1)
    ensures RegisterSeller(users, addresses, categories, s).Success? ==>
      IsSeller(RegisterSeller(users, addresses, categories, s).value.2)
  {
  }

  /** Adding a user together with an address of its own keeps every
      address linked to a user. */
  lemma LinkNewAddress(users: seq<User>, addresses: seq<Address>, u: User, name: string)
    requires AddressesLinked(users, addresses)
    ensures AddressesLinked(users + [u], addresses + [Address(u.id, name)])
  {
    var users' := users + [u];
    var addresses' := addresses + [Address(u.id, name)];
    forall k | 0 <= k < |addresses'|
      ensures exists i :: 0 <= i < |users'| && users'[i].id == addresses'[k].user
    {
      if k < |addresses| {
        var i :| 0 <= i < |users| && users[i].id == addresses[k].user;
        assert users'[i] == users[i] && addresses'[k] == addresses[k];
      } else {
        assert users'[|users|] == u && addresses'[k].user == u.id;
      }
    }
    assert forall k :: 0 <= k < |addresses'| ==> exists i :: 0 <= i < |users'| && users'[i].id == addresses'[k].user;
  }

  /** A user with a fresh id has no address yet, so after linking one it
      has exactly one. */
  lemma NewAddressIsOnly(users: seq<User>, addresses: seq<Address>, u: User)
    requires AddressesLinked(users, addresses)
    requires forall i :: 0 <= i < |users| ==> users[i].id != u.id
    ensures forall name :: Count(addresses + [Address(u.id, name)], (a: Address) => a.user == u.id) == 1
  {
    var sel := (a: Address) => a.user == u.id;
    assert Count(addresses, sel) == 0 by {
      forall k | 0 <= k < |addresses| ensures !sel(addresses[k]) {
        var i :| 0 <= i < |users| && users[i].id == addresses[k].user;
      }
    }
    forall name ensures Count(addresses + [Address(u.id, name)], sel) == 1 {
      CountSnoc(addresses, Address(u.id, name), sel);
    }
  }

  // ---------------------------------------------------------------------
  // Login

  /** The row with `id`, if any. */
  function FindUser(users: seq<User>, id: nat): (r: Option<User>)
    ensures r.Some? ==> r.value in users && r.value.id == id
    ensures r.None? <==> forall i :: 0 <= i < |users| ==> users[i].id != id
  {
    match KeyIndex(users, id, UserKey)
    case None => None
    case Some(i) => Some(users[i])
  }

  /** The field errors of `UserLoginSerializer`: `phone_number` and
      `password` are required `CharField`s, so a missing or blank value is
      refused, in declaration order, before `validate` runs. */
  function LoginFieldErrors(phone: Option<string>, password: Option<string>): (errs: seq<string>)
    ensures errs == [] <==> RequiredChar(phone).Some? && RequiredChar(password).Some?
    ensures "phone_number" in errs <==> RequiredChar(phone).None?
    ensures "password" in errs <==> RequiredChar(password).None?
    ensures |errs| == 2 ==> errs == ["phone_number", "password"]
  {
    (if RequiredChar(phone).None? then ["phone_number"] else [])
    + (if RequiredChar(password).None? then ["password"] else [])
  }

  /** `UserLoginSerializer`: field errors first; then `validate` refuses
      failed authentication, then an inactive account, and otherwise
      attaches the user. The "Must include phone number and password."
      branch of `validate` is never reached, because the fields are already
      known to be non-blank there. `authenticate` returns the id of the user
      the stripped credentials identify. */
  function Login(users: seq<User>, phone: Option<string>, password: Option<string>,
                 authenticate: (string, string) -> Option<nat>)
    : (res: Result<User, AccountError>)
    ensures LoginFieldErrors(phone, password) != [] ==> res == Failure(InvalidFields(LoginFieldErrors(phone, password)))
    ensures LoginFieldErrors(phone, password) == [] ==>
      var id := authenticate(Strip(phone.value), Strip(password.value));
      && (res == Failure(InvalidCredentials) <==> id.None? || FindUser(users, id.value).None?)
      && (res == Failure(AccountDisabled) <==> id.Some? && FindUser(users, id.value).Some? && !FindUser(users, id.value).value.isActive)
      && (res.Success? <==> id.Some? && FindUser(users, id.value).Some? && FindUser(users, id.value).value.isActive)
      && (res.Success? ==> res.value == FindUser(users, id.value).value)
    ensures res.Success? ==>
      && res.value in users && res.value.isActive
      && authenticate(Strip(phone.value), Strip(password.value)) == Some(res.value.id)
  {
    var errs := LoginFieldErrors(phone, password);
    if errs != [] then Failure(InvalidFields(errs))
    else match authenticate(Strip(phone.value), Strip(password.value))
      case None => Failure(InvalidCredentials)
      case Some(id) =>
        match FindUser(users, id)
        case None => Failure(InvalidCredentials)
        case Some(u) => if !u.isActive then Failure(AccountDisabled) else Success(u)
  }

  /** Missing or blank credentials never reach `authenticate`. */
  lemma BlankCredentialsSkipAuthentication(
    users: seq<User>, phone: Option<string>, password: Option<string>,
    a: (string, string) -> Option<nat>, b: (string, string) -> Option<nat>)
    requires LoginFieldErrors(phone, password) != []
    ensures Login(users, phone, password, a) == Login(users, phone, password, b)
    ensures Login(users, phone, password, a).Failure? && Login(users, phone, password, a).error.InvalidFields?
  {
  }

  /** Login succeeds with the row `authenticate` points to when that row is
      active. */
  lemma LoginFinds(users: seq<User>, phone: string, password: string,
                   authenticate: (string, string) -> Option<nat>, v: User)
    requires Strip(phone) != "" && Strip(password) != ""
    requires authenticate(Strip(phone), Strip(password)) == Some(v.id)
    requires FindUser(users, v.id) == Some(v) && v.isActive
    ensures Login(users, Some(phone), Some(password), authenticate) == Success(v)
  {
  }

  // ---------------------------------------------------------------------
  // Profile update

  datatype ProfilePatch = ProfilePatch(fullName: Option<string>, phone: Option<string>)

  /** Whether a user other than row `i` holds `phone`. */
  predicate HeldByOther(users: seq<User>, i: nat, phone: string)
    requires i < |users|
  {
    exists j :: 0 <= j < |users| && users[j].id != users[i].id && users[j].phone == phone
  }

  /** The `phone_number` column's checks on an update of row `i`: the
      stripped value is non-blank and valid, and its uniqueness check leaves
      the row being updated out. */
  predicate ProfilePhoneOk(users: seq<User>, i: nat, phone: string)
    requires i < |users|
  {
    Strip(phone) != "" && PhoneValid(Strip(phone)) && !HeldByOther(users, i, Strip(phone))
  }

  /** The field checks `UserProfileUpdateSerializer` runs before `update`,
      in declaration order. On a full update (PUT) `full_name` is required;
      on a partial one (PATCH) it may be left out. `phone_number` is never
      required. A supplied `full_name` must be non-blank and at most 255
      characters once stripped. */
  function ProfileFieldErrors(users: seq<User>, i: nat, p: ProfilePatch, partial: bool): (errs: seq<string>)
    requires i < |users|
    ensures errs == [] <==>
      && (p.fullName.Some? ==> TextOk(p.fullName.value, 255))
      && (!partial ==> p.fullName.Some?)
      && (p.phone.Some? ==> ProfilePhoneOk(users, i, p.phone.value))
  {
    (if (if p.fullName.Some? then TextOk(p.fullName.value, 255) else partial) then [] else ["full_name"])
    + (if p.phone.None? || ProfilePhoneOk(users, i, p.phone.value) then [] else ["phone_number"])
  }

  /** `UserProfileUpdateSerializer` on row `i` (the requesting user), as a
      full (`partial` false) or partial update: the field checks first, and
      any failing field refuses the request with nothing written. Then
      `update`, whose own "phone held by another user" check can no longer
      fire, since the field check already refused such a phone; the request
      is thus refused exactly when a field fails. Otherwise the supplied
      fields are written stripped, and every other row and column stays. */
  function UpdateProfile(users: seq<User>, i: nat, p: ProfilePatch, partial: bool)
    : (res: Result<seq<User>, AccountError>)
    requires i < |users|
    ensures res.Failure? <==> ProfileFieldErrors(users, i, p, partial) != []
    ensures res.Failure? ==> res.error == InvalidFields(ProfileFieldErrors(users, i, p, partial))
    ensures res.Success? ==>
      && |res.value| == |users|
      && (forall j :: 0 <= j < |users| && j != i ==> res.value[j] == users[j])
      && res.value[i].fullName == (if p.fullName.Some? then Strip(p.fullName.value) else users[i].fullName)
      && res.value[i].phone == (if p.phone.Some? then Strip(p.phone.value) else users[i].phone)
      && (p.phone.Some? ==> PhoneValid(res.value[i].phone))
      && res.value[i] == users[i].(fullName := res.value[i].fullName, phone := res.value[i].phone)
  {
    var errs := ProfileFieldErrors(users, i, p, partial);
    if errs != [] then Failure(InvalidFields(errs))
    else
      var u := users[i];
      var name := if p.fullName.Some? then Strip(p.fullName.value) else u.fullName;
      var phone := if p.phone.Some? then Strip(p.phone.value) else u.phone;
      if p.phone.Some? && phone != "" && phone != u.phone && HeldByOther(users, i, phone) then
        Failure(PhoneInUse)
      else
        Success(users[i := u.(fullName := name, phone := phone)])
  }

  /** Unique ids: no two rows share an id. */
  predicate UniqueUserIds(users: seq<User>) {
    forall a, b :: 0 <= a < b < |users| ==> users[a].id != users[b].id
  }

  /** Every profile update keeps phone numbers unique: it is refused, or
      the written phone is held by nobody else. */
  lemma UpdateProfileKeepsPhonesUnique(users: seq<User>, i: nat, p: ProfilePatch, partial: bool)
    requires i < |users| && UniquePhones(users) && UniqueUserIds(users)
    ensures UpdateProfile(users, i, p, partial).Success? ==> UniquePhones(UpdateProfile(users, i, p, partial).value)
  {
    if UpdateProfile(users, i, p, partial).Success? {
      var r := UpdateProfile(users, i, p, partial).value;
      forall a, b | 0 <= a < b < |r| ensures r[a].phone != r[b].phone {
        if a == i || b == i {
          var other := if a == i then b else a;
          assert users[other].id != users[i].id;
          assert r[other] == users[other];
        }
      }
    }
  }

  // ---------------------------------------------------------------------
  // Tokens

  /** A required `CharField` of a plain serializer: the value stripped, or
      nothing when it is missing or blank (a field error). */
  function RequiredChar(token: Option<string>): (t: Option<string>)
    ensures t.None? <==> token.None? || Strip(token.value) == ""
    ensures t.Some? ==> t.value == Strip(token.value) && t.value != ""
  {
    if token.None? || Strip(token.value) == "" then None else Some(Strip(token.value))
  }

  /** `TokenRefreshSerializer`: a missing or blank `refresh_token` is a
      field error; otherwise the stripped token is decoded, giving a new
      access token, or a validation error when it does not decode. */
  function RefreshAccess(token: Option<string>, decodeRefresh: string -> Option<string>)
    : (res: Result<string, AccountError>)
    ensures RequiredChar(token).None? ==> res == Failure(InvalidFields(["refresh_token"]))
    ensures res.Success? <==> RequiredChar(token).Some? && decodeRefresh(RequiredChar(token).value).Some?
    ensures RequiredChar(token).Some? && res.Failure? ==> res.error == InvalidRefreshToken
    ensures res.Success? ==> res.value == decodeRefresh(Strip(token.value)).value
  {
    match RequiredChar(token)
    case None => Failure(InvalidFields(["refresh_token"]))
    case Some(t) =>
      match decodeRefresh(t)
      case None => Failure(InvalidRefreshToken)
      case Some(access) => Success(access)
  }

  /** What token verification reports. */
  datatype Verification = Verification(valid: bool, userId: Option<nat>)

  /** `TokenVerifySerializer`: a missing or blank `token` is a field error;
      otherwise never an error: a stripped token that does not decode is
      reported as not valid. `decodeAccess` gives the payload's `user_id`
      claim, itself possibly absent. */
  function VerifyToken(token: Option<string>, decodeAccess: string -> Option<Option<nat>>)
    : (res: Result<Verification, AccountError>)
    ensures res.Failure? <==> RequiredChar(token).None?
    ensures res.Failure? ==> res.error == InvalidFields(["token"])
    ensures res.Success? ==> var v := res.value;
      && (v.valid <==> decodeAccess(Strip(token.value)).Some?)
      && (!v.valid ==> v.userId.None?)
      && (v.valid ==> v.userId == decodeAccess(Strip(token.value)).value)
  {
    match RequiredChar(token)
    case None => Failure(InvalidFields(["token"]))
    case Some(t) =>
      match decodeAccess(t)
      case None => Success(Verification(false, None))
      case Some(uid) => Success(Verification(true, uid))
  }

  /** Whitespace around a token changes nothing: both serializers answer a
      padded token exactly as its stripped form. */
  lemma TokenPaddingIgnored(
    token: string, decodeRefresh: string -> Option<string>, decodeAccess: string -> Option<Option<nat>>)
    ensures RefreshAccess(Some(token), decodeRefresh) == RefreshAccess(Some(Strip(token)), decodeRefresh)
    ensures VerifyToken(Some(token), decodeAccess) == VerifyToken(Some(Strip(token)), decodeAccess)
  {
    StripUnpadded(Strip(token));
  }

  /** A missing or blank token never reaches the decoders: the answer is
      the same whatever they would say. */
  lemma BlankTokenSkipsDecoding(
    token: Option<string>,
    r1: string -> Option<string>, r2: string -> Option<string>,
    a1: string -> Option<Option<nat>>, a2: string -> Option<Option<nat>>)
    requires token.None? || IsBlank(token.value)
    ensures RefreshAccess(token, r1) == RefreshAccess(token, r2) == Failure(InvalidFields(["refresh_token"]))
    ensures VerifyToken(token, a1) == VerifyToken(token, a2) == Failure(InvalidFields(["token"]))
  {
  }
}

=== FILE: ad_serializers.dfy ===
/**
  The listing serializers (apps/store/serializers.py): the address line and
  "liked" flag shown with an ad, creating and updating an ad together with
  its photo list, adding one photo to a product, and the `create` methods
  that bind a favourite or a saved search to the requesting user.
 */
module AdSerializers {
  import opened Wrappers
  import opened Text
  import opened Tables
  import opened Http
  import opened Catalog
  import opened Photos

  // ---------------------------------------------------------------------
  // get_address / get_is_liked

  /** The pieces of the address, in order: the linked region's name, the
      linked district's name, and the free-text address when non-empty. A
      linked row counts even when its name is empty, as a model instance is
      always truthy. */
  function AddressParts(ad: Ad): (parts: seq<string>)
    ensures |parts| == (if ad.region.Some? then 1 else 0) + (if ad.district.Some? then 1 else 0)
                       + (if ad.address != "" then 1 else 0)
    ensures ad.region.Some? ==> parts[0] == ad.region.value
    ensures ad.district.Some? ==> parts[if ad.region.Some? then 1 else 0] == ad.district.value
    ensures ad.address != "" ==> parts[|parts| - 1] == ad.address
  {
    (if ad.region.Some? then [ad.region.value] else [])
    + (if ad.district.Some? then [ad.district.value] else [])
    + (if ad.address != "" then [ad.address] else [])
  }

  /** `get_address`, shared by the list and the detail serializer. */
  function AddressLine(ad: Ad): string {
    Join(AddressParts(ad), ", ")
  }

  /** The address line, case by case: the present parts in the order
      region, district, address, separated by ", ", and "" when there are
      none. */
  lemma AddressLineCases(ad: Ad)
    ensures ad.region.None? && ad.district.None? && ad.address == "" ==> AddressLine(ad) == ""
    ensures ad.region.Some? && ad.district.None? && ad.address == "" ==> AddressLine(ad) == ad.region.value
    ensures ad.region.None? && ad.district.Some? && ad.address == "" ==> AddressLine(ad) == ad.district.value
    ensures ad.region.None? && ad.district.None? && ad.address != "" ==> AddressLine(ad) == ad.address
    ensures ad.region.Some? && ad.district.Some? && ad.address == "" ==>
      AddressLine(ad) == ad.region.value + ", " + ad.district.value
    ensures ad.region.Some? && ad.district.None? && ad.address != "" ==>
      AddressLine(ad) == ad.region.value + ", " + ad.address
    ensures ad.region.None? && ad.district.Some? && ad.address != "" ==>
      AddressLine(ad) == ad.district.value + ", " + ad.address
    ensures ad.region.Some? && ad.district.Some? && ad.address != "" ==>
      AddressLine(ad) == ad.region.value + ", " + ad.district.value + ", " + ad.address
  {
    var parts := AddressParts(ad);
    if |parts| >= 2 {
      assert Join(parts, ", ") == parts[0] + ", " + Join(parts[1..], ", ");
      if |parts| == 3 {
        assert Join(parts[1..], ", ") == parts[1] + ", " + parts[2];
      } else {
        assert Join(parts[1..], ", ") == parts[1];
      }
    }
  }

  /** `get_is_liked`: whether the requesting user has a favourite on the
      ad; always false without a request or for an anonymous caller. */
  function IsLiked(request: Option<Requester>, favorites: seq<Favorite>, ad: nat): (liked: bool)
    ensures request.None? || request == Some(Anonymous) ==> !liked
    ensures liked <==>
      request.Some? && request.value.Member?
      && exists k :: 0 <= k < |favorites| && favorites[k].ad == ad && favorites[k].user == Some(request.value.id)
  {
    match request
    case Some(Member(id, _)) => Count(favorites, (f: Favorite) => f.ad == ad && f.user == Some(id)) > 0
    case _ => false
  }

  // ---------------------------------------------------------------------
  // Photo lists

  /** A photo row as the serializers create it: the `k`-th URL of the list
      has order `k` and is main exactly when it is the first. */
  predicate NewRow(p: Photo, ad: nat, url: string, k: nat) {
    p.ad == ad && p.image == url && p.order == k && p.isMain == (k == 0)
  }

  /** From row `start` on, `r` holds one new row per URL, the `n`-th
      numbered `first + n`. */
  predicate Numbered(r: seq<Photo>, start: nat, ad: nat, urls: seq<string>, first: nat) {
    |r| == start + |urls|
    && forall j :: start <= j < |r| ==> NewRow(r[j], ad, urls[j - start], first + (j - start))
  }

  /** `AdPhoto.objects.create(...)` of a photo under a fresh key appends it
      unchanged: the first photo of an ad finds no other main photo to
      demote, and a later non-main one finds the ad's main photo in place. */
  lemma AppendFresh(photos: seq<Photo>, p: Photo)
    requires UniqueIds(photos)
    requires forall j :: 0 <= j < |photos| ==> photos[j].id != p.id
    requires p.isMain ==> forall j :: 0 <= j < |photos| ==> photos[j].ad != p.ad
    requires !p.isMain ==> HasMain(photos, p.ad)
    ensures SavePhoto(photos, p) == photos + [p]
    ensures UniqueIds(photos + [p])
    ensures HasMain(photos + [p], p.ad)
  {
    UpsertFresh(photos, p, PhotoKey);
    ConsUniqueEnd(photos, p);
    if p.isMain {
      AppendFirstMain(photos, p);
      assert (photos + [p])[|photos|] == p;
    } else {
      AppendBesideMain(photos, p);
    }
  }

  lemma ConsUniqueEnd(photos: seq<Photo>, p: Photo)
    requires UniqueIds(photos) && forall j :: 0 <= j < |photos| ==> photos[j].id != p.id
    ensures UniqueIds(photos + [p])
  {
    var u := photos + [p];
    forall a, b | 0 <= a < b < |u| ensures u[a].id != u[b].id {
      assert u[a] == photos[a];
    }
  }

  /** A non-main photo saved next to the ad's main photo is just written. */
  lemma AppendBesideMain(photos: seq<Photo>, p: Photo)
    requires UniqueIds(photos) && !p.isMain && Upsert(photos, p, PhotoKey) == photos + [p]
    requires HasMain(photos, p.ad)
    ensures SavePhoto(photos, p) == photos + [p]
    ensures HasMain(photos + [p], p.ad)
  {
    var u := photos + [p];
    var w :| 0 <= w < |photos| && photos[w].ad == p.ad && photos[w].isMain;
    assert u[w] == photos[w];
  }

  /** The first photo of an ad, saved as main, demotes nothing. */
  lemma AppendFirstMain(photos: seq<Photo>, p: Photo)
    requires UniqueIds(photos) && p.isMain && Upsert(photos, p, PhotoKey) == photos + [p]
    requires forall j :: 0 <= j < |photos| ==> photos[j].ad != p.ad && photos[j].id != p.id
    ensures SavePhoto(photos, p) == photos + [p]
  {
    var u := photos + [p];
    var r := SavePhoto(photos, p);
    assert |r| == |u|;
    forall j | 0 <= j < |r| ensures r[j] == u[j] {
      if j < |photos| {
        assert r[j].id == u[j].id;
        assert r[j] != p;
      } else {
        assert r[j].id == p.id;
      }
    }
  }

  /** Appending a fresh photo this way keeps the main-photo invariant. */
  lemma AppendFreshInvariant(photos: seq<Photo>, p: Photo)
    requires UniqueIds(photos) && SavePhoto(photos, p) == photos + [p]
    requires forall j :: 0 <= j < |photos| ==> photos[j].id != p.id
    ensures MainInvariant(photos) ==> MainInvariant(photos + [p])
  {
    if MainInvariant(photos) {
      SavePreservesInvariant(photos, p);
    }
  }

  /** One pass of the loop below: `AdPhoto.objects.create(ad=ad,
      image=url, is_main=(k == 0), order=k)` appends the new row as given,
      and the ad then has its main photo. */
  function CreatePhoto(photos: seq<Photo>, ad: nat, url: string, k: nat): (r: seq<Photo>)
    requires UniqueIds(photos)
    requires k == 0 ==> forall j :: 0 <= j < |photos| ==> photos[j].ad != ad
    requires k > 0 ==> HasMain(photos, ad)
    ensures |r| == |photos| + 1 && r[..|photos|] == photos
    ensures NewRow(r[|photos|], ad, url, k) && r[|photos|].id !in Keys(photos, PhotoKey)
    ensures UniqueIds(r) && HasMain(r, ad)
    ensures MainInvariant(photos) ==> MainInvariant(r)
  {
    var p := Photo(FreshKey(Keys(photos, PhotoKey)), ad, url, k == 0, k);
    AppendFresh(photos, p);
    AppendFreshInvariant(photos, p);
    assert (photos + [p])[..|photos|] == photos;
    SavePhoto(photos, p)
  }

  /** The loop `for i, url in enumerate(urls): AdPhoto.objects.create(ad=ad,
      image=url, is_main=(i == 0), order=i)`, from index `first` on. Every
      URL becomes one new row after the existing ones, numbered as above;
      existing rows are not touched and the main-photo invariant is kept. */
  function AddPhotos(photos: seq<Photo>, ad: nat, urls: seq<string>, first: nat): (r: seq<Photo>)
    requires UniqueIds(photos)
    requires first == 0 ==> forall j :: 0 <= j < |photos| ==> photos[j].ad != ad
    requires first > 0 ==> HasMain(photos, ad)
    ensures UniqueIds(r)
    ensures |r| == |photos| + |urls| && r[..|photos|] == photos
    ensures Numbered(r, |photos|, ad, urls, first)
    ensures MainInvariant(photos) ==> MainInvariant(r)
    decreases |urls|
  {
    if |urls| == 0 then photos
    else
      var next := CreatePhoto(photos, ad, urls[0], first);
      var r := AddPhotos(next, ad, urls[1..], first + 1);
      AddPhotosIndices(photos, next, r, ad, urls, first);
      r
  }

  /** Lines the recursive call's numbering up with the caller's. */
  lemma AddPhotosIndices(photos: seq<Photo>, next: seq<Photo>, r: seq<Photo>, ad: nat, urls: seq<string>, first: nat)
    requires |urls| > 0
    requires |next| == |photos| + 1 && next[..|photos|] == photos && NewRow(next[|photos|], ad, urls[0], first)
    requires |r| == |next| + |urls[1..]| && r[..|next|] == next
    requires Numbered(r, |next|, ad, urls[1..], first + 1)
    ensures r[..|photos|] == photos
    ensures Numbered(r, |photos|, ad, urls, first)
  {
    assert r[..|photos|] == r[..|next|][..|photos|];
    forall j | |photos| <= j < |r| ensures NewRow(r[j], ad, urls[j - |photos|], first + (j - |photos|)) {
      if j == |photos| {
        assert r[j] == r[..|next|][|photos|];
      } else {
        assert urls[1..][j - |next|] == urls[j - |photos|];
      }
    }
  }

  /** `instance.photos.all().delete()`: every photo of the ad goes in one
      statement, so the post-delete handler finds none of them left to
      promote. What stays is the other ads' photos, in order. */
  function DropPhotos(photos: seq<Photo>, ad: nat): (r: seq<Photo>)
    ensures forall j :: 0 <= j < |r| ==> r[j].ad != ad && r[j] in photos
    ensures forall j :: 0 <= j < |photos| && photos[j].ad != ad ==> photos[j] in r
  {
    Filter(photos, (q: Photo) => q.ad != ad)
  }

  lemma {:induction false} FilterKeepsUnique(photos: seq<Photo>, sel: Photo -> bool)
    requires UniqueIds(photos)
    ensures UniqueIds(Filter(photos, sel))
  {
    if |photos| > 0 {
      var tail := photos[1..];
      FilterKeepsUnique(tail, sel);
      var rest := Filter(tail, sel);
      if sel(photos[0]) {
        assert forall j :: 0 <= j < |tail| ==> tail[j].id != photos[0].id;
        FilterAvoidsId(tail, sel, photos[0].id);
        ConsUnique(photos[0], rest);
        assert Filter(photos, sel) == [photos[0]] + rest;
      } else {
        assert Filter(photos, sel) == rest;
      }
    }
  }

  lemma FilterAvoidsId(photos: seq<Photo>, sel: Photo -> bool, id: nat)
    requires forall j :: 0 <= j < |photos| ==> photos[j].id != id
    ensures forall k :: 0 <= k < |Filter(photos, sel)| ==> Filter(photos, sel)[k].id != id
  {
    var r := Filter(photos, sel);
    forall k | 0 <= k < |r| ensures r[k].id != id {
      assert r[k] in photos;
    }
  }

  lemma ConsUnique(x: Photo, rest: seq<Photo>)
    requires UniqueIds(rest) && forall k :: 0 <= k < |rest| ==> rest[k].id != x.id
    ensures UniqueIds([x] + rest)
  {
    var r := [x] + rest;
    forall a, b | 0 <= a < b < |r| ensures r[a].id != r[b].id {
      assert r[b] == rest[b - 1];
      if a > 0 {
        assert r[a] == rest[a - 1];
      }
    }
  }

  /** Dropping one ad's photos keeps the main-photo invariant of the rest. */
  lemma DropPhotosInvariant(photos: seq<Photo>, ad: nat)
    requires UniqueIds(photos)
    ensures UniqueIds(DropPhotos(photos, ad))
    ensures MainInvariant(photos) ==> MainInvariant(DropPhotos(photos, ad))
  {
    FilterKeepsUnique(photos, (q: Photo) => q.ad != ad);
    if MainInvariant(photos) {
      DropKeepsAtMostOne(photos, ad);
      DropKeepsMains(photos, ad);
    }
  }

  lemma DropKeepsAtMostOne(photos: seq<Photo>, ad: nat)
    requires AtMostOneMain(photos) && UniqueIds(DropPhotos(photos, ad))
    ensures AtMostOneMain(DropPhotos(photos, ad))
  {
    var r := DropPhotos(photos, ad);
    forall i, j | 0 <= i < |r| && 0 <= j < |r| && i != j && r[i].ad == r[j].ad && r[i].isMain
      ensures !r[j].isMain
    {
      var a :| 0 <= a < |photos| && photos[a] == r[i];
      var b :| 0 <= b < |photos| && photos[b] == r[j];
      assert r[i].id != r[j].id;
    }
  }

  lemma DropKeepsMains(photos: seq<Photo>, ad: nat)
    requires MainWhenPhotos(photos)
    ensures MainWhenPhotos(DropPhotos(photos, ad))
  {
    var r := DropPhotos(photos, ad);
    forall i | 0 <= i < |r| ensures HasMain(r, r[i].ad) {
      var a :| 0 <= a < |photos| && photos[a] == r[i];
      var m :| 0 <= m < |photos| && photos[m].ad == photos[a].ad && photos[m].isMain;
      var k :| 0 <= k < |r| && r[k] == photos[m];
    }
  }

  // ---------------------------------------------------------------------
  // AdCreateUpdateSerializer

  /** The writable fields of the create/update form; `photos` is the
      optional list of image URLs. */
  datatype AdInput = AdInput(
    name: string, description: string, category: nat, price: nat,
    region: Option<string>, district: Option<string>, address: string,
    status: Option<AdStatus>, photos: Option<seq<string>>)

  /** Every photo belongs to an existing ad. */
  predicate PhotosLinked(ads: seq<Ad>, photos: seq<Photo>) {
    forall j :: 0 <= j < |photos| ==> exists i :: 0 <= i < |ads| && ads[i].id == photos[j].ad
  }

  /** The ad row `create` writes: the form's fields for the requesting
      user, the column defaults (not top, no views, pending unless a status
      was sent), a fresh key and a slug no other ad holds. */
  function NewAd(ads: seq<Ad>, seller: nat, input: AdInput, slugify: string -> string): (ad: Ad)
    ensures forall i :: 0 <= i < |ads| ==> ads[i].id != ad.id
    ensures ad.seller == seller && ad.status == input.status.GetOr(Pending) && !ad.isTop && ad.viewCount == 0
    ensures ad.name == input.name && ad.description == input.description && ad.category == input.category
    ensures ad.price == input.price && ad.region == input.region && ad.district == input.district
    ensures ad.address == input.address
    ensures ad.slug !in AdSlugs(ads)
    ensures SaveAd(ads, ad.(slug := ""), slugify) == Success(ads + [ad])
  {
    var draft := Ad(FreshKey(Keys(ads, AdKey)), input.name, "", input.description, input.category, input.price,
                    seller, input.region, input.district, input.address, input.status.GetOr(Pending), false, 0);
    var ad := AssignAdSlug(ads, draft, slugify);
    UpsertFresh(ads, ad, AdKey);
    assert ad.(slug := "") == draft;
    ad
  }

  /** A fresh ad has no photos yet. */
  lemma FreshAdHasNoPhotos(ads: seq<Ad>, photos: seq<Photo>, id: nat)
    requires PhotosLinked(ads, photos) && forall i :: 0 <= i < |ads| ==> ads[i].id != id
    ensures forall j :: 0 <= j < |photos| ==> photos[j].ad != id
  {
    forall j | 0 <= j < |photos| ensures photos[j].ad != id {
      var i :| 0 <= i < |ads| && ads[i].id == photos[j].ad;
    }
  }

  /** `AdCreateUpdateSerializer.create`: the ad is saved (see `NewAd`), then
      gets one photo per URL, numbered from 0 after every existing photo. */
  function CreateAd(ads: seq<Ad>, photos: seq<Photo>, seller: nat, input: AdInput, slugify: string -> string)
    : (r: (seq<Ad>, seq<Photo>, Ad))
    requires UniqueIds(photos) && PhotosLinked(ads, photos)
    ensures r.2 == NewAd(ads, seller, input, slugify) && r.0 == ads + [r.2]
    ensures var (_, photos', ad) := r; var urls := input.photos.GetOr([]);
      && Numbered(photos', |photos|, ad.id, urls, 0) && photos'[..|photos|] == photos
      && UniqueIds(photos')
      && (MainInvariant(photos) ==> MainInvariant(photos'))
  {
    var ad := NewAd(ads, seller, input, slugify);
    FreshAdHasNoPhotos(ads, photos, ad.id);
    (SaveAd(ads, ad.(slug := ""), slugify).value, AddPhotos(photos, ad.id, input.photos.GetOr([]), 0), ad)
  }

  /** The fields an update supplies; `None` leaves a field alone. The region
      and district may be cleared, hence the nested option. */
  datatype AdPatch = AdPatch(
    name: Option<string>, description: Option<string>, category: Option<nat>, price: Option<nat>,
    region: Option<Option<string>>, district: Option<Option<string>>, address: Option<string>,
    status: Option<AdStatus>, photos: Option<seq<string>>)

  const NoChange := AdPatch(None, None, None, None, None, None, None, None, None)

  /** The `setattr` loop of `update`: exactly the supplied fields are
      overwritten; the key, slug, seller, top flag and view count are not
      writable and stay. */
  function ApplyPatch(a: Ad, p: AdPatch): (r: Ad)
    ensures r.id == a.id && r.slug == a.slug && r.seller == a.seller && r.isTop == a.isTop && r.viewCount == a.viewCount
    ensures r.name == p.name.GetOr(a.name) && r.description == p.description.GetOr(a.description)
    ensures r.category == p.category.GetOr(a.category) && r.price == p.price.GetOr(a.price)
    ensures r.region == p.region.GetOr(a.region) && r.district == p.district.GetOr(a.district)
    ensures r.address == p.address.GetOr(a.address) && r.status == p.status.GetOr(a.status)
  {
    a.(name := p.name.GetOr(a.name), description := p.description.GetOr(a.description),
       category := p.category.GetOr(a.category), price := p.price.GetOr(a.price),
       region := p.region.GetOr(a.region), district := p.district.GetOr(a.district),
       address := p.address.GetOr(a.address), status := p.status.GetOr(a.status))
  }

  /** An update that supplies nothing leaves the ad as it was. */
  lemma ApplyNoChange(a: Ad)
    ensures ApplyPatch(a, NoChange) == a
  {
  }

  /** Applying the same update twice is applying it once. */
  lemma ApplyPatchIdempotent(a: Ad, p: AdPatch)
    ensures ApplyPatch(ApplyPatch(a, p), p) == ApplyPatch(a, p)
  {
  }

  /** `AdCreateUpdateSerializer.update` of the ad at row `i`: the supplied
      fields are written and the row saved; when a photo list is supplied,
      the ad's photos are all replaced by the new list, numbered like on
      create, and without one the photos stay untouched. */
  function UpdateAd(ads: seq<Ad>, photos: seq<Photo>, i: nat, p: AdPatch, slugify: string -> string)
    : (r: Result<(seq<Ad>, seq<Photo>), DbError>)
    requires i < |ads| && UniqueIds(photos)
    ensures r.Failure? <==> ads[i].slug != "" && AdSlugClash(ads, ads[i].id, ads[i].slug)
    ensures r.Success? ==> AssignAdSlug(ads, ApplyPatch(ads[i], p), slugify) in r.value.0
    ensures r.Success? ==> |r.value.0| == |ads|
    ensures r.Success? ==> forall k :: 0 <= k < |ads| && ads[k].id != ads[i].id ==> r.value.0[k] == ads[k]
    ensures r.Success? && p.photos.None? ==> r.value.1 == photos
    ensures r.Success? && p.photos.Some? ==> var (photos', urls) := (r.value.1, p.photos.value);
      var kept := DropPhotos(photos, ads[i].id);
      Numbered(photos', |kept|, ads[i].id, urls, 0) && photos'[..|kept|] == kept
    ensures r.Success? ==> UniqueIds(r.value.1)
    ensures r.Success? && MainInvariant(photos) ==> MainInvariant(r.value.1)
  {
    var a := ApplyPatch(ads[i], p);
    match SaveAd(ads, a, slugify)
    case Failure(e) => Failure(e)
    case Success(ads') =>
      if p.photos.None? then Success((ads', photos))
      else
        DropPhotosInvariant(photos, a.id);
        Success((ads', AddPhotos(DropPhotos(photos, a.id), a.id, p.photos.value, 0)))
  }

  // ---------------------------------------------------------------------
  // AdPhotoCreateSerializer

  datatype PhotoInput = PhotoInput(productId: int, image: string, isMain: bool, order: nat)

  datatype PhotoError = ProductNotFound

  /** `AdPhotoCreateSerializer.create`: an unknown product is a validation
      error and nothing is written; otherwise the photo is created under a
      fresh key and saved. It comes out main when asked to, or when its ad
      had no photo yet. */
  function CreatePhotoFor(ads: seq<Ad>, photos: seq<Photo>, input: PhotoInput): (r: Result<seq<Photo>, PhotoError>)
    requires UniqueIds(photos)
    ensures r.Failure? <==> forall i :: 0 <= i < |ads| ==> ads[i].id != input.productId
    ensures r.Success? ==> |r.value| == |photos| + 1 && r.value[|photos|].id !in Keys(photos, PhotoKey)
    ensures r.Success? ==> var q := r.value[|photos|];
      q.ad == input.productId && q.image == input.image && q.order == input.order
    ensures r.Success? ==> forall j :: 0 <= j < |photos| && photos[j].ad != input.productId ==> r.value[j] == photos[j]
    ensures r.Success? && MainInvariant(photos) ==>
      && MainInvariant(r.value)
      && (r.value[|photos|].isMain <==> input.isMain || !HasMain(photos, input.productId))
  {
    match KeyIndex(ads, if input.productId < 0 then 0 else input.productId as nat, AdKey)
    case None => Failure(ProductNotFound)
    case Some(i) =>
      if input.productId < 0 then Failure(ProductNotFound)
      else
        var p := Photo(FreshKey(Keys(photos, PhotoKey)), ads[i].id, input.image, input.isMain, input.order);
        var r := SavePhoto(photos, p);
        NewPhotoFacts(photos, p);
        Success(r)
  }

  /** What saving a photo under a fresh key does to the new row and to the
      rows of other ads. */
  lemma NewPhotoFacts(photos: seq<Photo>, p: Photo)
    requires UniqueIds(photos) && forall j :: 0 <= j < |photos| ==> photos[j].id != p.id
    ensures var r := SavePhoto(photos, p);
      && |r| == |photos| + 1
      && r[|photos|] == p.(isMain := r[|photos|].isMain)
      && (forall j :: 0 <= j < |photos| && photos[j].ad != p.ad ==> r[j] == photos[j])
      && (MainInvariant(photos) ==>
            MainInvariant(r) && (r[|photos|].isMain <==> p.isMain || !HasMain(photos, p.ad)))
  {
    var r := SavePhoto(photos, p);
    NewPhotoRow(photos, p);
    forall j | 0 <= j < |photos| && photos[j].ad != p.ad ensures r[j] == photos[j] {
      SaveLeavesOtherAds(photos, p, j);
    }
    if MainInvariant(photos) {
      SavePreservesInvariant(photos, p);
      NewPhotoMain(photos, p);
    }
  }

  /** The saved photo is the last row, as given up to its main flag. */
  lemma NewPhotoRow(photos: seq<Photo>, p: Photo)
    requires UniqueIds(photos) && forall j :: 0 <= j < |photos| ==> photos[j].id != p.id
    ensures |SavePhoto(photos, p)| == |photos| + 1
    ensures SavePhoto(photos, p)[|photos|] == p.(isMain := SavePhoto(photos, p)[|photos|].isMain)
  {
    var r := SavePhoto(photos, p);
    var u := photos + [p];
    UpsertFresh(photos, p, PhotoKey);
    assert u[|photos|] == p;
    if p.isMain {
      assert r[|photos|].id == p.id;
    } else if !HasMain(u, p.ad) {
      var i :| FirstOf(u, p.ad) == Some(i) && r == u[i := u[i].(isMain := true)];
    }
  }

  /** Under the invariant, the saved photo ends up main exactly when it was
      saved as main or its ad had no photo before. */
  lemma NewPhotoMain(photos: seq<Photo>, p: Photo)
    requires MainInvariant(photos) && forall j :: 0 <= j < |photos| ==> photos[j].id != p.id
    requires |SavePhoto(photos, p)| == |photos| + 1
    ensures SavePhoto(photos, p)[|photos|].isMain <==> p.isMain || !HasMain(photos, p.ad)
  {
    UpsertFresh(photos, p, PhotoKey);
    if p.isMain {
      SavedAsMain(photos, p);
    } else if HasMain(photos, p.ad) {
      SavedBesideMain(photos, p);
    } else {
      assert forall j :: 0 <= j < |photos| ==> photos[j].ad != p.ad;
      SavedFirstOfAd(photos, p);
    }
  }

  lemma SavedAsMain(photos: seq<Photo>, p: Photo)
    requires UniqueIds(photos) && p.isMain && Upsert(photos, p, PhotoKey) == photos + [p]
    requires |SavePhoto(photos, p)| == |photos| + 1
    ensures SavePhoto(photos, p)[|photos|].isMain
  {
    var r := SavePhoto(photos, p);
    assert r[|photos|] == p;
  }

  lemma SavedBesideMain(photos: seq<Photo>, p: Photo)
    requires UniqueIds(photos) && !p.isMain && Upsert(photos, p, PhotoKey) == photos + [p]
    requires HasMain(photos, p.ad)
    requires |SavePhoto(photos, p)| == |photos| + 1
    ensures !SavePhoto(photos, p)[|photos|].isMain
  {
    var u := photos + [p];
    var w :| 0 <= w < |photos| && photos[w].ad == p.ad && photos[w].isMain;
    assert u[w] == photos[w];
    assert HasMain(u, p.ad);
    assert SavePhoto(photos, p) == u;
    assert u[|photos|] == p;
  }

  lemma SavedFirstOfAd(photos: seq<Photo>, p: Photo)
    requires UniqueIds(photos) && !p.isMain && Upsert(photos, p, PhotoKey) == photos + [p]
    requires forall j :: 0 <= j < |photos| ==> photos[j].ad != p.ad
    requires |SavePhoto(photos, p)| == |photos| + 1
    ensures SavePhoto(photos, p)[|photos|].isMain
  {
    var r := SavePhoto(photos, p);
    var u := photos + [p];
    assert u[|photos|] == p;
    assert !HasMain(u, p.ad);
    var i :| FirstOf(u, p.ad) == Some(i) && r == u[i := u[i].(isMain := true)];
    assert i == |photos|;
  }

  // ---------------------------------------------------------------------
  // Binding the requesting user

  /** A favourite write the unique constraints refuse: the same user, or
      the same device, already has the ad. */
  datatype FavoriteError = AlreadyFavorite

  /** Whether a favourite already holds the pair (owner, ad) for one of the
      two unique constraints; a missing owner never clashes. */
  predicate FavoriteClash(favorites: seq<Favorite>, user: Option<nat>, deviceId: Option<string>, ad: nat) {
    exists k :: 0 <= k < |favorites| && favorites[k].ad == ad
      && ((user.Some? && favorites[k].user == user) || (deviceId.Some? && favorites[k].deviceId == deviceId))
  }

  /** `FavoriteProductSerializer.create`: the favourite belongs to the
      requesting user when signed in and to no user otherwise, whatever the
      input says; it is refused when it would duplicate a favourite. */
  function CreateFavorite(favorites: seq<Favorite>, requester: Requester, ad: nat, deviceId: Option<string>)
    : (r: Result<(seq<Favorite>, Favorite), FavoriteError>)
    ensures var user := if requester.Member? then Some(requester.id) else None;
      r.Failure? <==> FavoriteClash(favorites, user, deviceId, ad)
    ensures r.Success? ==> var (favorites', f) := r.value;
      && favorites' == favorites + [f]
      && f.ad == ad && f.deviceId == deviceId
      && (requester.Member? <==> f.user.Some?)
      && (requester.Member? ==> f.user == Some(requester.id))
      && f.id !in Keys(favorites, FavoriteKey)
  {
    var user := if requester.Member? then Some(requester.id) else None;
    if FavoriteClash(favorites, user, deviceId, ad) then Failure(AlreadyFavorite)
    else
      var f := Favorite(FreshKey(Keys(favorites, FavoriteKey)), user, ad, deviceId);
      Success((favorites + [f], f))
  }

  /** The favourite table's constraints: unique ids, and the two
      `unique_together` pairs (user, ad) and (device_id, ad), where a missing
      owner (a NULL column) never clashes. */
  predicate FavoritesUnique(favorites: seq<Favorite>) {
    && UniqueKeys(favorites, FavoriteKey)
    && forall i, j :: 0 <= i < j < |favorites| && favorites[i].ad == favorites[j].ad ==>
         && (favorites[i].user.None? || favorites[i].user != favorites[j].user)
         && (favorites[i].deviceId.None? || favorites[i].deviceId != favorites[j].deviceId)
  }

  /** The create method's duplicate check is exactly the table's
      constraint: a new row under a fresh id keeps the constraints if and
      only if it does not clash. */
  lemma FavoriteClashIsConstraint(favorites: seq<Favorite>, f: Favorite)
    requires FavoritesUnique(favorites) && f.id !in Keys(favorites, FavoriteKey)
    ensures FavoritesUnique(favorites + [f]) <==> !FavoriteClash(favorites, f.user, f.deviceId, f.ad)
  {
    var r := favorites + [f];
    AppendFreshKeepsUnique(favorites, f, FavoriteKey);
    if FavoriteClash(favorites, f.user, f.deviceId, f.ad) {
      var k :| 0 <= k < |favorites| && favorites[k].ad == f.ad
        && ((f.user.Some? && favorites[k].user == f.user) || (f.deviceId.Some? && favorites[k].deviceId == f.deviceId));
      assert r[k] == favorites[k] && r[|favorites|] == f;
    } else {
      forall i, j | 0 <= i < j < |r| && r[i].ad == r[j].ad
        ensures (r[i].user.None? || r[i].user != r[j].user) && (r[i].deviceId.None? || r[i].deviceId != r[j].deviceId)
      {
        if j == |favorites| {
          assert r[i] == favorites[i];
        }
      }
    }
  }

  /** A favourite the create method writes keeps the table's constraints. */
  lemma CreateFavoriteKeepsUnique(favorites: seq<Favorite>, requester: Requester, ad: nat, deviceId: Option<string>)
    requires FavoritesUnique(favorites)
    ensures CreateFavorite(favorites, requester, ad, deviceId).Success? ==>
      FavoritesUnique(CreateFavorite(favorites, requester, ad, deviceId).value.0)
  {
    if CreateFavorite(favorites, requester, ad, deviceId).Success? {
      var (_, f) := CreateFavorite(favorites, requester, ad, deviceId).value;
      FavoriteClashIsConstraint(favorites, f);
    }
  }

  /** `SavedSearchSerializer.create`: the saved search always belongs to the
      requesting (signed-in) user; the other fields come from the input. */
  function CreateSavedSearch(searches: seq<SavedSearch>, user: nat, input: SavedSearch): (r: (seq<SavedSearch>, SavedSearch))
    ensures r.0 == searches + [r.1]
    ensures r.1 == input.(id := r.1.id, user := user)
    ensures r.1.id !in Keys(searches, SearchKey)
  {
    var s := input.(id := FreshKey(Keys(searches, SearchKey)), user := user);
    (searches + [s], s)
  }

  /** The saved searches of `user`. */
  function OwnedBy(user: nat): SavedSearch -> bool {
    (s: SavedSearch) => s.user == user
  }

  /** Creating a saved search keeps ids unique and adds exactly one search
      to the requesting user's list, whoever the input named. */
  lemma CreateSavedSearchOwned(searches: seq<SavedSearch>, user: nat, input: SavedSearch)
    requires UniqueKeys(searches, SearchKey)
    ensures var (searches', _) := CreateSavedSearch(searches, user, input);
      && UniqueKeys(searches', SearchKey)
      && Count(searches', OwnedBy(user)) == Count(searches, OwnedBy(user)) + 1
      && forall other :: other != user ==> Count(searches', OwnedBy(other)) == Count(searches, OwnedBy(other))
  {
    var (searches', s) := CreateSavedSearch(searches, user, input);
    AppendFreshKeepsUnique(searches, s, SearchKey);
    CountSnoc(searches, s, OwnedBy(user));
    forall other | other != user
      ensures Count(searches', OwnedBy(other)) == Count(searches, OwnedBy(other))
    {
      CountSnoc(searches, s, OwnedBy(other));
    }
  }
}

=== FILE: catalog.dfy ===
/**
  The store's models (apps/store/models.py) as immutable rows, and the
  model-level behaviour that sits on top of persistence: slug assignment on
  save, the view counter, the search counters, the category tree walk and the
  per-category count of live ads. `slugify` is a library call and is passed
  in as an arbitrary function.
 */
module Catalog {
  import opened Wrappers
  import opened Tables
  import Slugs

  datatype AdStatus = Active | Inactive | Pending | Rejected

  /** A category; `parent` is the self-referential foreign key. */
  datatype Category = Category(
    id: nat, name: string, slug: string, parent: Option<nat>,
    isActive: bool, order: nat, hasIcon: bool)

  /** A listing. `region` and `district` are the names of the linked rows,
      when linked. */
  datatype Ad = Ad(
    id: nat, name: string, slug: string, description: string,
    category: nat, price: nat, seller: nat,
    region: Option<string>, district: Option<string>, address: string,
    status: AdStatus, isTop: bool, viewCount: nat)

  /** A favourite, owned either by a user or by an anonymous device. */
  datatype Favorite = Favorite(id: nat, user: Option<nat>, ad: nat, deviceId: Option<string>)

  datatype SavedSearch = SavedSearch(
    id: nat, user: nat, category: Option<nat>, query: string,
    priceMin: Option<nat>, priceMax: Option<nat>)

  datatype PopularSearch = PopularSearch(id: nat, name: string, searchCount: nat, isActive: bool)

  /** A write the database refuses (a unique constraint). */
  datatype DbError = IntegrityError

  function AdKey(a: Ad): nat { a.id }
  function CategoryKey(c: Category): nat { c.id }
  function FavoriteKey(f: Favorite): nat { f.id }
  function SearchKey(s: SavedSearch): nat { s.id }

  function AdSlugs(ads: seq<Ad>): set<string> {
    set a | a in ads :: a.slug
  }

  // ---------------------------------------------------------------------
  // Ad.save / Category.save

  /** The slug `Ad.save` leaves on `ad`: kept when set, otherwise the first
      free candidate derived from `slugify(name)`. */
  function AssignAdSlug(ads: seq<Ad>, ad: Ad, slugify: string -> string): (a: Ad)
    ensures a == ad.(slug := a.slug)
    ensures ad.slug != "" ==> a.slug == ad.slug
    ensures ad.slug == "" ==> a.slug !in AdSlugs(ads)
    ensures ad.slug == "" && slugify(ad.name) !in AdSlugs(ads) ==> a.slug == slugify(ad.name)
  {
    if ad.slug != "" then ad
    else ad.(slug := Slugs.UniqueSlug(slugify(ad.name), AdSlugs(ads)))
  }

  /** Whether a row other than `id` already holds `slug`. */
  predicate AdSlugClash(ads: seq<Ad>, id: nat, slug: string) {
    exists i :: 0 <= i < |ads| && ads[i].id != id && ads[i].slug == slug
  }

  /** `Ad.save()`: assigns a slug when the slug is empty, then writes the row;
      the unique constraint on `slug` refuses a caller-chosen slug another ad
      holds. A generated slug never clashes, and the saved slug is held by no
      other ad. */
  function SaveAd(ads: seq<Ad>, ad: Ad, slugify: string -> string): (r: Result<seq<Ad>, DbError>)
    ensures ad.slug == "" ==> r.Success?
    ensures r.Success? ==> AssignAdSlug(ads, ad, slugify) in r.value
    ensures r.Success? ==> |ads| <= |r.value| <= |ads| + 1
    ensures r.Success? ==> forall i :: 0 <= i < |ads| && ads[i].id != ad.id ==> r.value[i] == ads[i]
    ensures r.Success? ==> forall i :: 0 <= i < |r.value| && r.value[i].id != ad.id ==>
      r.value[i].slug != AssignAdSlug(ads, ad, slugify).slug
  {
    var a := AssignAdSlug(ads, ad, slugify);
    if AdSlugClash(ads, a.id, a.slug) then Failure(IntegrityError)
    else Success(Upsert(ads, a, AdKey))
  }

  predicate CategorySlugClash(cats: seq<Category>, id: nat, slug: string) {
    exists i :: 0 <= i < |cats| && cats[i].id != id && cats[i].slug == slug
  }

  /** `Category.save()` followed by the `create_search_count` post-save
      signal. The slug is `slugify(name)` when empty and kept otherwise; there
      is no probe, so a clash is refused by the unique constraint. A newly
      created category gets a search counter at 0 unless one exists; saving
      an existing category leaves the counters alone. */
  function SaveCategory(cats: seq<Category>, counts: map<nat, nat>, c: Category,
                        slugify: string -> string): (r: Result<(seq<Category>, map<nat, nat>), DbError>)
    ensures r.Success? ==> var (cats', counts') := r.value;
      && (c.slug != "" ==> c in cats')
      && (c.slug == "" ==> c.(slug := slugify(c.name)) in cats')
      && |cats| <= |cats'| <= |cats| + 1
      && (forall i :: 0 <= i < |cats| && cats[i].id != c.id ==> cats'[i] == cats[i])
    ensures r.Success? && (exists i :: 0 <= i < |cats| && cats[i].id == c.id) ==> r.value.1 == counts
    ensures r.Success? && (forall i :: 0 <= i < |cats| ==> cats[i].id != c.id) ==>
      && c.id in r.value.1
      && r.value.1[c.id] == (if c.id in counts then counts[c.id] else 0)
      && forall k :: k in counts ==> k in r.value.1 && r.value.1[k] == counts[k]
    ensures r.Failure? <==> CategorySlugClash(cats, c.id, if c.slug == "" then slugify(c.name) else c.slug)
  {
    var saved := if c.slug == "" then c.(slug := slugify(c.name)) else c;
    if CategorySlugClash(cats, c.id, saved.slug) then Failure(IntegrityError)
    else
      var created := KeyIndex(cats, c.id, CategoryKey).None?;
      var counts' := if created then CreateSearchCount(counts, c.id) else counts;
      Success((Upsert(cats, saved, CategoryKey), counts'))
  }

  /** `SearchCount.objects.get_or_create(category=...)` with the default of
      0: an existing counter is left as it is. */
  function CreateSearchCount(counts: map<nat, nat>, category: nat): (r: map<nat, nat>)
    ensures category in r
    ensures category in counts ==> r == counts
    ensures category !in counts ==> r[category] == 0
    ensures forall k :: k in counts ==> k in r && r[k] == counts[k]
    ensures r.Keys == counts.Keys + {category}
  {
    if category in counts then counts else counts[category := 0]
  }

  // ---------------------------------------------------------------------
  // Counters

  /** `Ad.increment_view_count()`: the row with `id` gets one more view and,
      since only `view_count` is written, no other column of any row
      changes. */
  function IncrementViewCount(ads: seq<Ad>, id: nat): (r: seq<Ad>)
    ensures |r| == |ads|
    ensures forall i :: 0 <= i < |ads| && ads[i].id == id ==>
      r[i].viewCount == ads[i].viewCount + 1 && r[i] == ads[i].(viewCount := r[i].viewCount)
    ensures forall i :: 0 <= i < |ads| && ads[i].id != id ==> r[i] == ads[i]
  {
    Update(ads, (a: Ad) => a.id == id, (a: Ad) => a.(viewCount := a.viewCount + 1))
  }

  /** `SearchCount.increment()` on the counter of `category`. */
  function IncrementSearchCount(counts: map<nat, nat>, category: nat): (r: map<nat, nat>)
    requires category in counts
    ensures r.Keys == counts.Keys
    ensures r[category] == counts[category] + 1
    ensures forall k :: k in counts && k != category ==> r[k] == counts[k]
  {
    counts[category := counts[category] + 1]
  }

  /** `PopularSearch.increment()`. No view of the store calls it; the
      counter the search views raise is `SearchCount`. */
  function IncrementPopular(p: PopularSearch): (r: PopularSearch)
    ensures r.searchCount == p.searchCount + 1
    ensures r == p.(searchCount := r.searchCount)
  {
    p.(searchCount := p.searchCount + 1)
  }

  // ---------------------------------------------------------------------
  // Category tree

  /** `category.children.all()`: the categories whose parent is `id`, in
      table order, that is primary-key order; the categories' own ordering
      by `order` then `name` is not modelled. */
  function Children(cats: seq<Category>, id: nat): seq<Category> {
    Filter(cats, (c: Category) => c.parent == Some(id))
  }

  /** `x` lies below `id`, at most `depth` parent links down. */
  ghost predicate DescendsWithin(cats: seq<Category>, x: Category, id: nat, depth: nat)
    decreases depth
  {
    && depth > 0
    && (|| x in Children(cats, id)
        || exists c :: c in Children(cats, id) && DescendsWithin(cats, x, c.id, depth - 1))
  }

  /** No category lies below itself. The models do not enforce this. */
  ghost predicate Acyclic(cats: seq<Category>) {
    forall x, depth :: x in cats ==> !DescendsWithin(cats, x, x.id, depth)
  }

  /** `get_all_children` of category `id`, with the recursion cut off after
      `fuel` levels: each child, immediately followed by its own descendants,
      in child order. */
  function Descendants(cats: seq<Category>, id: nat, fuel: nat): seq<Category>
    decreases fuel, 0
  {
    if fuel == 0 then [] else Expand(cats, Children(cats, id), fuel - 1)
  }

  /** Each of `kids` followed by its descendants, concatenated. */
  function Expand(cats: seq<Category>, kids: seq<Category>, fuel: nat): seq<Category>
    decreases fuel, |kids|
  {
    if |kids| == 0 then []
    else [kids[0]] + Descendants(cats, kids[0].id, fuel) + Expand(cats, kids[1..], fuel)
  }

  lemma {:induction false} DescendantsSound(cats: seq<Category>, id: nat, fuel: nat, x: Category)
    requires x in Descendants(cats, id, fuel)
    ensures x in cats && DescendsWithin(cats, x, id, fuel)
    decreases fuel, 0
  {
    ExpandSound(cats, Children(cats, id), id, fuel - 1, x);
  }

  lemma {:induction false} ExpandSound(cats: seq<Category>, kids: seq<Category>, id: nat, fuel: nat, x: Category)
    requires forall k :: k in kids ==> k in Children(cats, id)
    requires x in Expand(cats, kids, fuel)
    ensures x in cats && DescendsWithin(cats, x, id, fuel + 1)
    decreases fuel, |kids|
  {
    var k := kids[0];
    assert k in kids;
    if x == k {
    } else if x in Descendants(cats, k.id, fuel) {
      DescendantsSound(cats, k.id, fuel, x);
    } else {
      assert x in Expand(cats, kids[1..], fuel);
      forall k' | k' in kids[1..] ensures k' in Children(cats, id) {
        assert k' in kids;
      }
      ExpandSound(cats, kids[1..], id, fuel, x);
    }
  }

  lemma {:induction false} ExpandHas(cats: seq<Category>, kids: seq<Category>, fuel: nat, k: Category, x: Category)
    requires k in kids
    requires x == k || x in Descendants(cats, k.id, fuel)
    ensures x in Expand(cats, kids, fuel)
    decreases |kids|
  {
    if k != kids[0] {
      ExpandHas(cats, kids[1..], fuel, k, x);
    }
  }

  lemma {:induction false} DescendantsComplete(cats: seq<Category>, id: nat, fuel: nat, x: Category)
    requires DescendsWithin(cats, x, id, fuel)
    ensures x in Descendants(cats, id, fuel)
    decreases fuel
  {
    var kids := Children(cats, id);
    if x in kids {
      ExpandHas(cats, kids, fuel - 1, x, x);
    } else {
      var c :| c in kids && DescendsWithin(cats, x, c.id, fuel - 1);
      DescendantsComplete(cats, c.id, fuel - 1, x);
      ExpandHas(cats, kids, fuel - 1, c, x);
    }
  }

  /** `Category.get_all_children()`. Every category it returns lies below
      `c`; every category below `c` within as many levels as there are
      categories is returned; and when the parent links have no cycle, `c`
      itself is never among them. */
  function GetAllChildren(cats: seq<Category>, c: Category): (r: seq<Category>)
    ensures forall x :: x in r ==> x in cats && DescendsWithin(cats, x, c.id, |cats|)
    ensures forall x :: DescendsWithin(cats, x, c.id, |cats|) ==> x in r
    ensures Acyclic(cats) ==> forall x :: x in r ==> x.id != c.id
  {
    var r := Descendants(cats, c.id, |cats|);
    assert forall x :: x in r ==> x in cats && DescendsWithin(cats, x, c.id, |cats|) by {
      forall x | x in r ensures x in cats && DescendsWithin(cats, x, c.id, |cats|) {
        DescendantsSound(cats, c.id, |cats|, x);
      }
    }
    assert forall x :: DescendsWithin(cats, x, c.id, |cats|) ==> x in r by {
      forall x | DescendsWithin(cats, x, c.id, |cats|) ensures x in r {
        DescendantsComplete(cats, c.id, |cats|, x);
      }
    }
    r
  }

  /** An ad that `Category.product_count` counts for `category`. */
  function LiveIn(category: nat): Ad -> bool {
    (a: Ad) => a.category == category && a.status == Active
  }

  /** `Category.product_count`: the number of active ads in the category. */
  function ProductCount(ads: seq<Ad>, category: nat): (n: nat)
    ensures n <= |ads|
    ensures n == 0 <==> forall i :: 0 <= i < |ads| ==> !(ads[i].category == category && ads[i].status == Active)
  {
    Count(ads, LiveIn(category))
  }

  /** The count, row by row: an empty table counts nothing, and appending an
      ad adds one exactly when that ad is active and in the category. */
  lemma ProductCountSnoc(ads: seq<Ad>, a: Ad, category: nat)
    ensures ProductCount([], category) == 0
    ensures ProductCount(ads + [a], category)
      == ProductCount(ads, category) + (if a.category == category && a.status == Active then 1 else 0)
  {
    CountSnoc(ads, a, LiveIn(category));
  }

  /** Changing the status of the ad at row `i` moves the count by at most
      one, in the direction of the change: activating an inactive ad of the
      category adds one, deactivating an active one takes one away. */
  lemma {:induction false} ProductCountSetStatus(ads: seq<Ad>, i: nat, status: AdStatus, category: nat)
    requires i < |ads|
    ensures var after := ProductCount(ads[i := ads[i].(status := status)], category);
      var before := ProductCount(ads, category);
      && (LiveIn(category)(ads[i]) == LiveIn(category)(ads[i].(status := status)) ==> after == before)
      && (!LiveIn(category)(ads[i]) && LiveIn(category)(ads[i].(status := status)) ==> after == before + 1)
      && (LiveIn(category)(ads[i]) && !LiveIn(category)(ads[i].(status := status)) ==> after + 1 == before)
  {
    var b := ads[i := ads[i].(status := status)];
    if i > 0 {
      assert b[1..] == ads[1..][i - 1 := ads[i].(status := status)];
      ProductCountSetStatus(ads[1..], i - 1, status, category);
    } else {
      assert b[1..] == ads[1..];
    }
  }
}

=== FILE: envelope.dfy ===
/**
  The `custom_response` view decorator
  (apps/common/utils/custom_response_decorator.py): every response body is
  rewrapped as `{success, data}` or `{success, errors}`, and each error
  entry is reduced to its field, one message and an upper-cased code.
 */
module Envelope {
  import opened Wrappers
  import opened Text

  /** An error message as the exception handler leaves it: a validation
      detail carrying an optional code, a plain string, or a list of
      messages. */
  datatype Message =
    | Detail(text: string, code: Option<string>)
    | Plain(text: string)
    | Many(items: seq<Message>)

  /** One entry of the handler's `errors` list; either key may be absent. */
  datatype RawError = RawError(field: Option<string>, message: Option<Message>)

  /** What the view produced: whether it raised, its body, and the body's
      `errors` list when it has one. */
  datatype Response<D> = Response(exception: bool, data: D, errors: Option<seq<RawError>>)

  /** A shaped error entry: `code` is present only when the message carried
      one. */
  datatype ErrorEntry = ErrorEntry(field: Option<string>, message: Option<Message>, code: Option<string>)

  /** The wrapped body: `data` on success, `errors` on failure. */
  datatype Body<D> = Body(success: bool, data: Option<D>, errors: Option<seq<ErrorEntry>>)

  /** The message an entry is reported under: the first item of a list,
      the message itself otherwise. An empty list has no first item. */
  function FirstMessage(m: Option<Message>): (r: Option<Option<Message>>)
    ensures m.Some? && m.value.Many? && |m.value.items| > 0 ==> r == Some(Some(m.value.items[0]))
    ensures m.Some? && m.value.Many? && |m.value.items| == 0 ==> r.None?
    ensures !(m.Some? && m.value.Many?) ==> r == Some(m)
  {
    match m
    case Some(Many(items)) => if |items| == 0 then None else Some(Some(items[0]))
    case _ => Some(m)
  }

  /** The code of the reported message, when it has one: only a detail
      with a code does. Anything else makes the `try` block fail. */
  function CodeOf(first: Option<Option<Message>>): (r: Option<string>)
    ensures r.Some? <==> first.Some? && first.value.Some? && first.value.value.Detail? && first.value.value.code.Some?
  {
    match first
    case Some(Some(Detail(_, Some(c)))) => Some(c)
    case _ => None
  }

  /** One pass of the loop body: the `try` branch reports the first message
      and its upper-cased code; the `except` branch reports the original
      message, list and all, with no code. */
  function ShapeEntry(e: RawError): (r: ErrorEntry)
    ensures r.field == e.field
    ensures r.code.Some? <==> CodeOf(FirstMessage(e.message)).Some?
    ensures r.code.Some? ==>
      r.message == FirstMessage(e.message).value && r.code.value == Upper(CodeOf(FirstMessage(e.message)).value)
    ensures r.code.None? ==> r.message == e.message
  {
    var first := FirstMessage(e.message);
    match CodeOf(first)
    case Some(c) => ErrorEntry(e.field, first.value, Some(Upper(c)))
    case None => ErrorEntry(e.field, e.message, None)
  }

  /** A code in the envelope has no ASCII lower-case letter. */
  lemma CodesAreUpperCase(e: RawError)
    requires ShapeEntry(e).code.Some?
    ensures forall k :: 0 <= k < |ShapeEntry(e).code.value| ==> !('a' <= ShapeEntry(e).code.value[k] <= 'z')
  {
  }

  /** A detail wrapped in a one-item list is reported exactly like the
      bare detail. */
  lemma SingletonListLikeDetail(field: Option<string>, text: string, code: string)
    ensures ShapeEntry(RawError(field, Some(Many([Detail(text, Some(code))]))))
         == ShapeEntry(RawError(field, Some(Detail(text, Some(code)))))
    ensures ShapeEntry(RawError(field, Some(Detail(text, Some(code)))))
         == ErrorEntry(field, Some(Detail(text, Some(code))), Some(Upper(code)))
  {
  }

  /** Messages without a code pass through untouched. */
  lemma UncodedPassThrough(field: Option<string>, m: Option<Message>)
    requires m.None? || m.value.Plain? || (m.value.Detail? && m.value.code.None?) || m.value.Many?
    requires m.Some? && m.value.Many? ==> |m.value.items| == 0 || !m.value.items[0].Detail? || m.value.items[0].code.None?
    ensures ShapeEntry(RawError(field, m)) == ErrorEntry(field, m, None)
  {
  }

  /** The decorator's loop over the error entries. */
  method ShapeErrors(errors: seq<RawError>) returns (shaped: seq<ErrorEntry>)
    ensures |shaped| == |errors|
    ensures forall i :: 0 <= i < |errors| ==> shaped[i] == ShapeEntry(errors[i])
  {
    shaped := [];
    var i := 0;
    while i < |errors|
      invariant 0 <= i <= |errors|
      invariant |shaped| == i
      invariant forall k :: 0 <= k < i ==> shaped[k] == ShapeEntry(errors[k])
    {
      shaped := shaped + [ShapeEntry(errors[i])];
      i := i + 1;
    }
  }

  /** The decorated `dispatch`: a response that did not raise keeps its body
      under `data`; one that raised loses its body and reports its errors
      (none when the body had no `errors` list), one entry per error, in
      order and with each field kept. */
  method Wrap<D>(resp: Response<D>) returns (body: Body<D>)
    ensures body.success <==> !resp.exception
    ensures body.success ==> body.data == Some(resp.data) && body.errors.None?
    ensures !body.success ==> body.data.None? && body.errors.Some?
    ensures !body.success ==> |body.errors.value| == |resp.errors.GetOr([])|
    ensures !body.success ==> forall i :: 0 <= i < |body.errors.value| ==>
      (body.errors.value[i].field == resp.errors.GetOr([])[i].field
       && body.errors.value[i] == ShapeEntry(resp.errors.GetOr([])[i]))
  {
    if resp.exception {
      var shaped := ShapeErrors(resp.errors.GetOr([]));
      body := Body(false, None, Some(shaped));
    } else {
      body := Body(true, Some(resp.data), None);
    }
  }
}

=== FILE: http.dfy ===
/**
  What the handlers see of an HTTP request: the method and who is asking.
  Anonymous callers are Django's `AnonymousUser`; signed-in callers are
  identified by their user id.
 */
module Http {
  import opened Wrappers

  datatype Method = Get | Head | Options | Post | Put | Patch | Delete

  /** `rest_framework.permissions.SAFE_METHODS`. */
  const SafeMethods: seq<Method> := [Get, Head, Options]

  predicate IsSafe(m: Method) {
    m in SafeMethods
  }

  datatype Requester = Anonymous | Member(id: nat, isStaff: bool)

  /** `request.user.is_authenticated`. */
  predicate IsAuthenticated(u: Requester) {
    u.Member?
  }

  /** `stored == request.user` for a stored user reference (a nullable
      foreign key): a model instance equals only the user with the same
      primary key, and never `AnonymousUser`; `None` equals neither. */
  predicate IsUser(stored: Option<nat>, u: Requester) {
    match (stored, u)
    case (Some(k), Member(id, _)) => k == id
    case _ => false
  }
}

=== FILE: permissions.dfy ===
/**
  The store's permission classes (apps/store/permissions.py) as predicates
  over the request and the object.
 */
module Permissions {
  import opened Wrappers
  import opened Http

  /** What `has_object_permission` can see of an object's owner: a `user`
      field (favourites, saved searches), else a `seller` field (ads), else
      neither. */
  datatype Owner = UserField(user: Option<nat>) | SellerField(seller: nat) | NoOwnerField

  /** `IsOwnerOrReadOnly.has_object_permission` for an ad sold by `seller`. */
  function OwnerOrReadOnly(m: Method, u: Requester, seller: nat): (allowed: bool)
    ensures IsSafe(m) ==> allowed
    ensures !IsSafe(m) ==> (allowed <==> u.Member? && u.id == seller)
  {
    if m in SafeMethods then true else IsUser(Some(seller), u)
  }

  /** `IsOwnerOrAuthenticated.has_permission`. */
  function OwnerOrAuthenticated(u: Requester): (allowed: bool)
    ensures allowed <==> u != Anonymous
  {
    IsAuthenticated(u)
  }

  /** `IsOwnerOrAuthenticated.has_object_permission`: the `user` field
      decides when there is one, else the `seller` field, else access is
      refused. */
  function OwnerOrAuthenticatedObject(u: Requester, owner: Owner): (allowed: bool)
    ensures allowed ==> u.Member?
    ensures owner.UserField? ==> (allowed <==> u.Member? && owner.user == Some(u.id))
    ensures owner.SellerField? ==> (allowed <==> u.Member? && owner.seller == u.id)
    ensures owner.NoOwnerField? ==> !allowed
  {
    match owner
    case UserField(user) => IsUser(user, u)
    case SellerField(seller) => IsUser(Some(seller), u)
    case NoOwnerField => false
  }

  /** `IsAdminOrReadOnly.has_permission`. */
  function AdminOrReadOnly(m: Method, u: Requester): (allowed: bool)
    ensures IsSafe(m) ==> allowed
    ensures !IsSafe(m) ==> (allowed <==> u.Member? && u.isStaff)
  {
    if m in SafeMethods then true
    else match u
      case Anonymous => false
      case Member(_, isStaff) => isStaff
  }

  /** No permission class lets an anonymous caller write. */
  lemma AnonymousCannotWrite(m: Method, seller: nat, owner: Owner)
    requires !IsSafe(m)
    ensures !OwnerOrReadOnly(m, Anonymous, seller)
    ensures !OwnerOrAuthenticated(Anonymous)
    ensures !OwnerOrAuthenticatedObject(Anonymous, owner)
    ensures !AdminOrReadOnly(m, Anonymous)
  {
  }

  /** Ownership, not staff status, decides object writes: a staff member
      may not write another seller's ad or another user's object, and an
      owner may write their own whether staff or not. */
  lemma OwnershipNotStaff(m: Method, id: nat, owner: Owner, staff: bool)
    requires !IsSafe(m)
    ensures owner.SellerField? ==>
      (OwnerOrReadOnly(m, Member(id, staff), owner.seller) <==> id == owner.seller)
    ensures OwnerOrAuthenticatedObject(Member(id, true), owner) == OwnerOrAuthenticatedObject(Member(id, false), owner)
  {
  }
}

=== FILE: photos.dfy ===
/**
  The main-photo machinery of an ad: `AdPhoto.save` (apps/store/models.py)
  together with the `manage_main_photo` post-save and
  `manage_main_photo_on_delete` post-delete handlers (apps/store/signals.py).
  The photo table is a sequence of rows in primary-key order. Between them
  they keep "at most one main photo per ad, and exactly one when the ad has
  photos"; `MainInvariant` states it and `SavePreservesInvariant` /
  `DeletePreservesInvariant` prove it kept.
 */
module Photos {
  import opened Wrappers
  import opened Tables

  datatype Photo = Photo(id: nat, ad: nat, image: string, isMain: bool, order: nat)

  function PhotoKey(p: Photo): nat { p.id }

  /** The default ordering of photos, `["-is_main", "order"]`: main photos
      before the others, then ascending `order`. */
  predicate Precedes(p: Photo, q: Photo) {
    || (p.isMain && !q.isMain)
    || (p.isMain == q.isMain && p.order < q.order)
  }

  /** `AdPhoto.objects.filter(ad=ad).first()`: the position of the first
      photo of `ad` in the default ordering; among photos the ordering cannot
      tell apart, the earliest row. */
  function FirstOf(photos: seq<Photo>, ad: nat): (r: Option<nat>)
    ensures r.None? <==> forall j :: 0 <= j < |photos| ==> photos[j].ad != ad
    ensures r.Some? ==> r.value < |photos| && photos[r.value].ad == ad
    ensures r.Some? ==> forall j :: 0 <= j < |photos| && photos[j].ad == ad ==>
      !Precedes(photos[j], photos[r.value])
    ensures r.Some? ==> forall j :: 0 <= j < r.value && photos[j].ad == ad ==>
      Precedes(photos[r.value], photos[j])
  {
    if |photos| == 0 then None
    else
      var rest := FirstOf(photos[1..], ad);
      if photos[0].ad != ad then
        (if rest.Some? then Some(rest.value + 1) else None)
      else if rest.Some? && Precedes(photos[1..][rest.value], photos[0]) then
        Some(rest.value + 1)
      else Some(0)
  }

  /** Whether some photo of `ad` is marked main. */
  predicate HasMain(photos: seq<Photo>, ad: nat) {
    exists j :: 0 <= j < |photos| && photos[j].ad == ad && photos[j].isMain
  }

  /** `AdPhoto.objects.filter(ad=ad, is_main=True)[.exclude(id=keep)]
      .update(is_main=False)`. */
  function ClearMains(photos: seq<Photo>, ad: nat, keep: Option<nat>): (r: seq<Photo>)
    ensures |r| == |photos|
    ensures forall i :: 0 <= i < |photos| ==> r[i] == photos[i].(isMain := r[i].isMain)
    ensures forall i :: 0 <= i < |photos| ==>
      (r[i].isMain <==> photos[i].isMain && (photos[i].ad != ad || keep == Some(photos[i].id)))
  {
    Update(photos, (p: Photo) => p.ad == ad && p.isMain && keep != Some(p.id),
           (p: Photo) => p.(isMain := false))
  }

  /** `AdPhoto.save()` itself: a photo saved as main first demotes every
      main photo of its ad, then the row is written. */
  function ModelSave(photos: seq<Photo>, p: Photo): seq<Photo> {
    Upsert(if p.isMain then ClearMains(photos, p.ad, None) else photos, p, PhotoKey)
  }

  /** `first_photo.save()` with `is_main` set, and the post-save handler it
      triggers. */
  function SaveAsMain(photos: seq<Photo>, q: Photo): seq<Photo>
    requires q.isMain
  {
    ClearMains(ModelSave(photos, q), q.ad, Some(q.id))
  }

  /** Marks the first photo of `ad` main and saves it, when `ad` has photos. */
  function PromoteFirst(photos: seq<Photo>, ad: nat): seq<Photo> {
    match FirstOf(photos, ad)
    case None => photos
    case Some(i) => SaveAsMain(photos, photos[i].(isMain := true))
  }

  /** `manage_main_photo`, the post-save handler, for the saved instance
      `p`. */
  function PostSave(photos: seq<Photo>, p: Photo): seq<Photo> {
    if p.isMain then ClearMains(photos, p.ad, Some(p.id))
    else if HasMain(photos, p.ad) then photos
    else PromoteFirst(photos, p.ad)
  }

  predicate UniqueIds(photos: seq<Photo>) {
    forall i, j :: 0 <= i < j < |photos| ==> photos[i].id != photos[j].id
  }

  /** Saving `p` does not move an existing photo to another ad. */
  predicate StaysWithAd(photos: seq<Photo>, p: Photo) {
    forall i :: 0 <= i < |photos| && photos[i].id == p.id ==> photos[i].ad == p.ad
  }

  predicate AtMostOneMain(photos: seq<Photo>) {
    forall i, j ::
      (0 <= i < |photos| && 0 <= j < |photos| && i != j
       && photos[i].ad == photos[j].ad && photos[i].isMain) ==> !photos[j].isMain
  }

  predicate MainWhenPhotos(photos: seq<Photo>) {
    forall i :: 0 <= i < |photos| ==> HasMain(photos, photos[i].ad)
  }

  /** Every ad with photos has exactly one main photo (and photo ids are
      unique). */
  predicate MainInvariant(photos: seq<Photo>) {
    UniqueIds(photos) && AtMostOneMain(photos) && MainWhenPhotos(photos)
  }


  /** A row of a photo of `ad` after every main photo of `ad` was demoted. */
  function Demoted(q: Photo, ad: nat): Photo {
    if q.ad == ad then q.(isMain := false) else q
  }

  lemma KeyIndexUnique(u: seq<Photo>, i: nat)
    requires UniqueIds(u) && i < |u|
    ensures KeyIndex(u, u[i].id, PhotoKey) == Some(i)
  {
  }

  lemma {:induction false} KeyIndexSameIds(a: seq<Photo>, b: seq<Photo>, id: nat)
    requires |a| == |b| && forall j :: 0 <= j < |a| ==> a[j].id == b[j].id
    ensures KeyIndex(a, id, PhotoKey) == KeyIndex(b, id, PhotoKey)
  {
    if |a| > 0 {
      KeyIndexSameIds(a[1..], b[1..], id);
    }
  }

  /** Where row `j` of `Upsert(t, p)` comes from: it is `p`, written over the
      row with `p`'s id or appended, or else the old row, whose id differs. */
  lemma UpsertRow(t: seq<Photo>, p: Photo, j: nat)
    requires UniqueIds(t) && j < |Upsert(t, p, PhotoKey)|
    ensures var u := Upsert(t, p, PhotoKey);
      || (u[j] == p && (j < |t| ==> t[j].id == p.id))
      || (j < |t| && u[j] == t[j] && t[j].id != p.id)
  {
    var u := Upsert(t, p, PhotoKey);
    match KeyIndex(t, p.id, PhotoKey)
    case None =>
      assert u == t + [p];
    case Some(k) =>
      assert u == t[k := p];
  }

  lemma UpsertKeepsUnique(t: seq<Photo>, p: Photo)
    requires UniqueIds(t)
    ensures UniqueIds(Upsert(t, p, PhotoKey))
  {
    var u := Upsert(t, p, PhotoKey);
    forall a, b | 0 <= a < b < |u| ensures u[a].id != u[b].id {
      UpsertRow(t, p, a);
      UpsertRow(t, p, b);
      match KeyIndex(t, p.id, PhotoKey)
      case None =>
        assert u == t + [p];
      case Some(k) =>
        assert u == t[k := p];
    }
  }

  /** With unique ids and no main photo for `ad`, promoting marks exactly the
      first photo of `ad` main and changes nothing else. */
  lemma PromoteFirstShape(u: seq<Photo>, ad: nat, i: nat)
    requires UniqueIds(u) && !HasMain(u, ad)
    requires FirstOf(u, ad) == Some(i)
    ensures PromoteFirst(u, ad) == u[i := u[i].(isMain := true)]
  {
    var q := u[i].(isMain := true);
    ClearMainsNoop(u, ad, None);
    KeyIndexUnique(u, i);
    var m := Upsert(u, q, PhotoKey);
    assert m == u[i := q];
    ClearMainsNoop(m, ad, Some(q.id));
  }

  /** Clearing changes nothing when every main photo of `ad` is the kept
      one. */
  lemma ClearMainsNoop(photos: seq<Photo>, ad: nat, keep: Option<nat>)
    requires forall j :: 0 <= j < |photos| && photos[j].ad == ad && photos[j].isMain ==> keep == Some(photos[j].id)
    ensures ClearMains(photos, ad, keep) == photos
  {
    var r := ClearMains(photos, ad, keep);
    forall j | 0 <= j < |photos| ensures r[j] == photos[j] {
    }
  }

  /** Every row after saving a main photo `p`: `p` itself, or an old row
      with another id, demoted when it belongs to `p`'s ad. */
  lemma SaveMainRows(photos: seq<Photo>, p: Photo)
    requires UniqueIds(photos) && p.isMain
    ensures var r := PostSave(ModelSave(photos, p), p);
      var u := Upsert(photos, p, PhotoKey);
      && |r| == |u|
      && p in r
      && (forall j :: 0 <= j < |r| ==> r[j].id == u[j].id)
      && forall j :: 0 <= j < |r| ==>
           || r[j] == p
           || (j < |photos| && photos[j].id != p.id && r[j] == Demoted(photos[j], p.ad))
  {
    var c := ClearMains(photos, p.ad, None);
    assert UniqueIds(c) by {
      assert forall j :: 0 <= j < |c| ==> c[j].id == photos[j].id;
    }
    KeyIndexSameIds(c, photos, p.id);
    var m := Upsert(c, p, PhotoKey);
    var u := Upsert(photos, p, PhotoKey);
    var r := ClearMains(m, p.ad, Some(p.id));
    assert r == PostSave(ModelSave(photos, p), p);
    var k :| 0 <= k < |m| && m[k] == p;
    assert r[k] == p;
    forall j | 0 <= j < |r|
      ensures r[j].id == u[j].id
      ensures || r[j] == p
              || (j < |photos| && photos[j].id != p.id && r[j] == Demoted(photos[j], p.ad))
    {
      UpsertRow(c, p, j);
      UpsertRow(photos, p, j);
    }
  }

  /** The whole of saving photo `p`: `AdPhoto.save()` followed by the
      post-save handler.
      - Saved as main, `p` is stored and is the only main photo of its ad:
        every other row keeps its id and content, and those of `p`'s ad lose
        their main flag.
      - Saved as non-main while its ad, after the write, still has a main
        photo, nothing but the write happens: no `is_main` flag moves.
      - Saved as non-main while its ad has no main photo, the ad's first
        photo in the default ordering becomes main and nothing else changes.
      - Rows of other ads are never touched. */
  function SavePhoto(photos: seq<Photo>, p: Photo): (r: seq<Photo>)
    requires UniqueIds(photos)
    ensures |r| == |Upsert(photos, p, PhotoKey)|
    ensures forall j :: 0 <= j < |r| ==> r[j].id == Upsert(photos, p, PhotoKey)[j].id
    ensures p.isMain ==> p in r
    ensures p.isMain ==> forall j :: 0 <= j < |r| ==>
      || r[j] == p
      || (j < |photos| && photos[j].id != p.id && r[j] == Demoted(photos[j], p.ad))
    ensures !p.isMain && HasMain(Upsert(photos, p, PhotoKey), p.ad) ==>
      r == Upsert(photos, p, PhotoKey)
    ensures !p.isMain && !HasMain(Upsert(photos, p, PhotoKey), p.ad) ==>
      var u := Upsert(photos, p, PhotoKey);
      exists i :: FirstOf(u, p.ad) == Some(i) && r == u[i := u[i].(isMain := true)]
  {
    if p.isMain then SaveMain(photos, p) else SaveNonMain(photos, p)
  }

  /** `SavePhoto` for a photo saved as main. */
  function SaveMain(photos: seq<Photo>, p: Photo): (r: seq<Photo>)
    requires UniqueIds(photos) && p.isMain
    ensures |r| == |Upsert(photos, p, PhotoKey)|
    ensures forall j :: 0 <= j < |r| ==> r[j].id == Upsert(photos, p, PhotoKey)[j].id
    ensures p in r
    ensures forall j :: 0 <= j < |r| ==>
      || r[j] == p
      || (j < |photos| && photos[j].id != p.id && r[j] == Demoted(photos[j], p.ad))
  {
    SaveMainRows(photos, p);
    PostSave(ModelSave(photos, p), p)
  }

  /** `SavePhoto` for a photo saved as non-main. */
  function SaveNonMain(photos: seq<Photo>, p: Photo): (r: seq<Photo>)
    requires UniqueIds(photos) && !p.isMain
    ensures |r| == |Upsert(photos, p, PhotoKey)|
    ensures forall j :: 0 <= j < |r| ==> r[j].id == Upsert(photos, p, PhotoKey)[j].id
    ensures HasMain(Upsert(photos, p, PhotoKey), p.ad) ==> r == Upsert(photos, p, PhotoKey)
    ensures !HasMain(Upsert(photos, p, PhotoKey), p.ad) ==>
      var u := Upsert(photos, p, PhotoKey);
      && FirstOf(u, p.ad).Some?
      && var i := FirstOf(u, p.ad).value;
         r == u[i := u[i].(isMain := true)]
  {
    var u := Upsert(photos, p, PhotoKey);
    assert ModelSave(photos, p) == u;
    PromoteAfterSave(photos, p);
    NonMainKeepsIds(photos, p);
    PostSave(u, p)
  }

  /** Saving a non-main photo moves no row and changes no id. */
  lemma NonMainKeepsIds(photos: seq<Photo>, p: Photo)
    requires UniqueIds(photos) && !p.isMain
    ensures var u := Upsert(photos, p, PhotoKey);
      |PostSave(u, p)| == |u| && forall j :: 0 <= j < |u| ==> PostSave(u, p)[j].id == u[j].id
  {
    var u := Upsert(photos, p, PhotoKey);
    if !HasMain(u, p.ad) {
      PromoteAfterSave(photos, p);
      PromotedKeepsIds(u, FirstOf(u, p.ad).value);
    }
  }

  /** Marking one row main keeps every row's id. */
  lemma PromotedKeepsIds(u: seq<Photo>, i: nat)
    requires i < |u|
    ensures var w := u[i := u[i].(isMain := true)];
      |w| == |u| && forall j :: 0 <= j < |u| ==> w[j].id == u[j].id
  {
  }

  /** With a non-main photo saved into an ad without a main photo, the
      handler promotes the ad's first photo. */
  lemma PromoteAfterSave(photos: seq<Photo>, p: Photo)
    requires UniqueIds(photos) && !p.isMain
    ensures var u := Upsert(photos, p, PhotoKey);
      !HasMain(u, p.ad) ==>
        && FirstOf(u, p.ad).Some?
        && var i := FirstOf(u, p.ad).value;
           PromoteFirst(u, p.ad) == u[i := u[i].(isMain := true)]
  {
    var u := Upsert(photos, p, PhotoKey);
    if !HasMain(u, p.ad) {
      var k :| 0 <= k < |u| && u[k] == p;
      var i := FirstOf(u, p.ad).value;
      UpsertKeepsUnique(photos, p);
      PromoteFirstShape(u, p.ad, i);
    }
  }

  /** A saved main photo is the only main photo of its ad. */
  lemma SavedMainIsOnlyMain(photos: seq<Photo>, p: Photo)
    requires UniqueIds(photos) && p.isMain
    ensures var r := SavePhoto(photos, p);
      forall j :: 0 <= j < |r| && r[j].ad == p.ad && r[j].isMain ==> r[j] == p
  {
  }

  /** Rows of ads other than the saved photo's keep their content. */
  lemma SaveLeavesOtherAds(photos: seq<Photo>, p: Photo, j: nat)
    requires UniqueIds(photos) && j < |photos| && photos[j].ad != p.ad && photos[j].id != p.id
    ensures SavePhoto(photos, p)[j] == photos[j]
  {
    var u := Upsert(photos, p, PhotoKey);
    UpsertRow(photos, p, j);
    assert u[j] == photos[j];
    if p.isMain {
      var r := SaveMain(photos, p);
      assert SavePhoto(photos, p) == r;
      assert r[j].id == photos[j].id;
    } else {
      var r := SaveNonMain(photos, p);
      assert SavePhoto(photos, p) == r;
      if !HasMain(u, p.ad) {
        var i := FirstOf(u, p.ad).value;
        assert i != j;
      }
    }
  }

  // ---------------------------------------------------------------------
  // Deletion

  /** The table without row `i`. */
  function RemoveAt(photos: seq<Photo>, i: nat): (r: seq<Photo>)
    requires i < |photos|
    ensures |r| == |photos| - 1
    ensures forall j :: 0 <= j < i ==> r[j] == photos[j]
    ensures forall j :: i <= j < |r| ==> r[j] == photos[j + 1]
  {
    photos[..i] + photos[i + 1..]
  }

  /** Removing a row from a table with the invariant: ids stay unique, at
      most one main photo per ad remains, every ad keeps its main photo except
      the removed row's when that row was main, and then that ad has none. */
  lemma RemoveAtFacts(photos: seq<Photo>, i: nat)
    requires MainInvariant(photos) && i < |photos|
    ensures UniqueIds(RemoveAt(photos, i))
    ensures AtMostOneMain(RemoveAt(photos, i))
    ensures forall j :: 0 <= j < |RemoveAt(photos, i)| ==>
      var rest := RemoveAt(photos, i);
      rest[j].ad != photos[i].ad || !photos[i].isMain ==> HasMain(rest, rest[j].ad)
    ensures photos[i].isMain ==> !HasMain(RemoveAt(photos, i), photos[i].ad)
  {
    RemoveAtKeepsRows(photos, i);
    RemoveAtKeepsMains(photos, i);
  }

  /** Removing a row keeps ids unique and at most one main photo per ad, and
      a removed main photo was its ad's only one. */
  lemma RemoveAtKeepsRows(photos: seq<Photo>, i: nat)
    requires MainInvariant(photos) && i < |photos|
    ensures UniqueIds(RemoveAt(photos, i))
    ensures AtMostOneMain(RemoveAt(photos, i))
    ensures photos[i].isMain ==> !HasMain(RemoveAt(photos, i), photos[i].ad)
  {
    var rest := RemoveAt(photos, i);
    forall a | 0 <= a < |rest|
      ensures rest[a] == photos[if a < i then a else a + 1]
    {
    }
  }

  /** Every other ad keeps its main photo after a row is removed. */
  lemma RemoveAtKeepsMains(photos: seq<Photo>, i: nat)
    requires MainWhenPhotos(photos) && i < |photos|
    ensures forall j :: 0 <= j < |RemoveAt(photos, i)| ==>
      var rest := RemoveAt(photos, i);
      rest[j].ad != photos[i].ad || !photos[i].isMain ==> HasMain(rest, rest[j].ad)
  {
    var rest := RemoveAt(photos, i);
    forall j | 0 <= j < |rest| && (rest[j].ad != photos[i].ad || !photos[i].isMain)
      ensures HasMain(rest, rest[j].ad)
    {
      var j' := if j < i then j else j + 1;
      assert rest[j] == photos[j'];
      RemoveAtKeepsMain(photos, i, photos[j'].ad);
    }
  }

  /** An ad keeps a main photo when the removed row is not one of its main
      photos. */
  lemma RemoveAtKeepsMain(photos: seq<Photo>, i: nat, ad: nat)
    requires i < |photos| && HasMain(photos, ad)
    requires photos[i].ad != ad || !photos[i].isMain
    ensures HasMain(RemoveAt(photos, i), ad)
  {
    var rest := RemoveAt(photos, i);
    var m :| 0 <= m < |photos| && photos[m].ad == ad && photos[m].isMain;
    var m' := if m < i then m else m - 1;
    assert rest[m'] == photos[m];
  }

  /** Removing a row keeps ids unique. */
  lemma RemoveAtUnique(photos: seq<Photo>, i: nat)
    requires UniqueIds(photos) && i < |photos|
    ensures UniqueIds(RemoveAt(photos, i))
  {
    var rest := RemoveAt(photos, i);
    forall a | 0 <= a < |rest|
      ensures rest[a] == photos[if a < i then a else a + 1]
    {
    }
  }

  /** `r` is `rest` after the post-delete handler's promotion for `ad`: with
      no photo of `ad` left nothing changes; otherwise the first photo of
      `ad` in the default ordering becomes main, every other photo of `ad`
      loses its main flag, and every other row stays. */
  predicate PromotedIn(rest: seq<Photo>, ad: nat, r: seq<Photo>) {
    && (FirstOf(rest, ad).None? ==> r == rest)
    && (FirstOf(rest, ad).Some? ==>
          var k := FirstOf(rest, ad).value;
          && |r| == |rest|
          && r[k] == rest[k].(isMain := true)
          && forall j :: 0 <= j < |rest| && j != k ==> r[j] == Demoted(rest[j], ad))
  }

  /** Promoting the first photo of `ad`, on any table with unique ids: it is
      saved as main, so the save demotes every other main photo of `ad`. */
  lemma PromoteFirstRows(u: seq<Photo>, ad: nat)
    requires UniqueIds(u)
    ensures PromotedIn(u, ad, PromoteFirst(u, ad))
  {
    match FirstOf(u, ad)
    case None =>
    case Some(k) =>
      var q := u[k].(isMain := true);
      var r := PromoteFirst(u, ad);
      assert r == PostSave(ModelSave(u, q), q);
      SaveMainRows(u, q);
      KeyIndexUnique(u, k);
      assert Upsert(u, q, PhotoKey) == u[k := q];
      forall j | 0 <= j < |u| && j != k ensures r[j] == Demoted(u[j], ad) {
        assert r[j].id == u[j].id != q.id;
      }
  }

  /** `photo.delete()` for the photo with `id`, followed by the post-delete
      handler. Only primary keys are assumed unique: the handler runs on any
      table, including one where an ad lost its main photo or has several.
      - No photo has `id`: nothing changes.
      - A non-main photo is deleted: its row goes and no flag moves.
      - A main photo is deleted: its row goes, and the first remaining photo
        of its ad, if any remains, is saved as main, which demotes the ad's
        other main photos. */
  function DeletePhoto(photos: seq<Photo>, id: nat): (r: seq<Photo>)
    requires UniqueIds(photos)
    ensures (forall j :: 0 <= j < |photos| ==> photos[j].id != id) ==> r == photos
    ensures forall i :: 0 <= i < |photos| && photos[i].id == id && !photos[i].isMain ==>
      r == RemoveAt(photos, i)
    ensures forall i :: 0 <= i < |photos| && photos[i].id == id && photos[i].isMain ==>
      PromotedIn(RemoveAt(photos, i), photos[i].ad, r)
  {
    match KeyIndex(photos, id, PhotoKey)
    case None => photos
    case Some(i) =>
      assert forall j :: 0 <= j < |photos| && photos[j].id == id ==> j == i;
      if photos[i].isMain then DeleteMain(photos, i) else RemoveAt(photos, i)
  }

  /** `DeletePhoto` for the main photo at row `i`. */
  function DeleteMain(photos: seq<Photo>, i: nat): (r: seq<Photo>)
    requires UniqueIds(photos) && i < |photos| && photos[i].isMain
    ensures PromotedIn(RemoveAt(photos, i), photos[i].ad, r)
    ensures |r| == |photos| - 1
  {
    var rest := RemoveAt(photos, i);
    RemoveAtUnique(photos, i);
    PromoteFirstRows(rest, photos[i].ad);
    PromoteFirst(rest, photos[i].ad)
  }

  // ---------------------------------------------------------------------
  // The invariant

  /** `r` agrees with `base` on every row of an ad other than `ad`, and has
      no row of such an ad that `base` lacks. */
  predicate OthersKept(base: seq<Photo>, r: seq<Photo>, ad: nat) {
    && |base| <= |r|
    && (forall k :: 0 <= k < |base| && base[k].ad != ad ==> r[k] == base[k])
    && (forall j :: 0 <= j < |r| && r[j].ad != ad ==> j < |base| && r[j] == base[j])
  }

  /** In `r`, ad `ad` has exactly one main photo if it has any photo. */
  predicate OneMainFor(r: seq<Photo>, ad: nat) {
    && (forall i, j ::
          (0 <= i < |r| && 0 <= j < |r| && r[i].ad == ad && r[j].ad == ad
           && r[i].isMain && r[j].isMain) ==> i == j)
    && ((exists j :: 0 <= j < |r| && r[j].ad == ad) ==> HasMain(r, ad))
  }

  /** The invariant of a table that changed only the rows of `ad` of a table
      whose other ads satisfied it. */
  lemma InvariantFromParts(base: seq<Photo>, r: seq<Photo>, ad: nat)
    requires AtMostOneMain(base)
    requires forall j :: 0 <= j < |base| && base[j].ad != ad ==> HasMain(base, base[j].ad)
    requires UniqueIds(r) && OthersKept(base, r, ad) && OneMainFor(r, ad)
    ensures MainInvariant(r)
  {
    forall j | 0 <= j < |r| ensures HasMain(r, r[j].ad) {
      if r[j].ad != ad {
        assert HasMain(base, base[j].ad);
        var k :| 0 <= k < |base| && base[k].ad == r[j].ad && base[k].isMain;
        assert r[k] == base[k];
      }
    }
  }

  lemma SameIdsUnique(u: seq<Photo>, r: seq<Photo>)
    requires UniqueIds(u) && |r| == |u| && forall j :: 0 <= j < |r| ==> r[j].id == u[j].id
    ensures UniqueIds(r)
  {
  }

  /** A row of another ad after a save is the old row at the same place. */
  lemma SaveRowOrigin(photos: seq<Photo>, p: Photo, j: nat)
    requires UniqueIds(photos) && j < |SavePhoto(photos, p)| && SavePhoto(photos, p)[j].ad != p.ad
    ensures j < |photos| && SavePhoto(photos, p)[j] == photos[j]
  {
    var r := SavePhoto(photos, p);
    var u := Upsert(photos, p, PhotoKey);
    UpsertRow(photos, p, j);
    if p.isMain {
      assert r[j] != p;
    } else if HasMain(u, p.ad) {
      assert r[j] == u[j];
    } else {
      var i :| FirstOf(u, p.ad) == Some(i) && r == u[i := u[i].(isMain := true)];
      assert j != i;
      assert r[j] == u[j];
    }
  }

  /** After a save, rows of other ads are as they were. */
  lemma SaveKeepsOthers(photos: seq<Photo>, p: Photo)
    requires MainInvariant(photos) && StaysWithAd(photos, p)
    ensures OthersKept(photos, SavePhoto(photos, p), p.ad)
  {
    var r := SavePhoto(photos, p);
    forall k | 0 <= k < |photos| && photos[k].ad != p.ad ensures r[k] == photos[k] {
      SaveLeavesOtherAds(photos, p, k);
    }
    forall j | 0 <= j < |r| && r[j].ad != p.ad ensures j < |photos| && r[j] == photos[j] {
      SaveRowOrigin(photos, p, j);
    }
  }

  /** After a save, the saved photo's ad has exactly one main photo. */
  lemma SaveOneMain(photos: seq<Photo>, p: Photo)
    requires MainInvariant(photos)
    ensures UniqueIds(SavePhoto(photos, p))
    ensures OneMainFor(SavePhoto(photos, p), p.ad)
  {
    var r := SavePhoto(photos, p);
    var u := Upsert(photos, p, PhotoKey);
    UpsertKeepsUnique(photos, p);
    SameIdsUnique(u, r);
    if p.isMain {
      OneMainAfterMain(photos, p);
    } else if HasMain(u, p.ad) {
      OneMainBesideMain(photos, p);
    } else {
      OneMainAfterPromote(photos, p);
    }
  }

  lemma OneMainAfterMain(photos: seq<Photo>, p: Photo)
    requires UniqueIds(photos) && p.isMain
    ensures OneMainFor(SavePhoto(photos, p), p.ad)
  {
    var r := SaveMain(photos, p);
    assert SavePhoto(photos, p) == r;
    var u := Upsert(photos, p, PhotoKey);
    UpsertKeepsUnique(photos, p);
    SameIdsUnique(u, r);
    SavedMainIsOnlyMain(photos, p);
    forall i, j | 0 <= i < |r| && 0 <= j < |r| && r[i].ad == p.ad && r[j].ad == p.ad
        && r[i].isMain && r[j].isMain
      ensures i == j
    {
      assert r[i].id == r[j].id;
    }
    var k :| 0 <= k < |r| && r[k] == p;
    assert HasMain(r, p.ad);
  }

  lemma OneMainBesideMain(photos: seq<Photo>, p: Photo)
    requires MainInvariant(photos) && !p.isMain && HasMain(Upsert(photos, p, PhotoKey), p.ad)
    ensures OneMainFor(SavePhoto(photos, p), p.ad)
  {
    var r := Upsert(photos, p, PhotoKey);
    assert SavePhoto(photos, p) == SaveNonMain(photos, p) == r;
    forall i, j | 0 <= i < |r| && 0 <= j < |r| && r[i].ad == p.ad && r[j].ad == p.ad
        && r[i].isMain && r[j].isMain
      ensures i == j
    {
      UpsertRow(photos, p, i);
      UpsertRow(photos, p, j);
    }
  }

  lemma OneMainAfterPromote(photos: seq<Photo>, p: Photo)
    requires UniqueIds(photos) && !p.isMain && !HasMain(Upsert(photos, p, PhotoKey), p.ad)
    ensures OneMainFor(SavePhoto(photos, p), p.ad)
  {
    var u := Upsert(photos, p, PhotoKey);
    assert SavePhoto(photos, p) == SaveNonMain(photos, p);
    PromotedOneMain(u, p.ad, FirstOf(u, p.ad).value);
  }

  /** Marking one photo of an ad without a main photo leaves that photo
      its only main one. */
  lemma PromotedOneMain(u: seq<Photo>, ad: nat, i: nat)
    requires i < |u| && u[i].ad == ad && !HasMain(u, ad)
    ensures OneMainFor(u[i := u[i].(isMain := true)], ad)
  {
    var r := u[i := u[i].(isMain := true)];
    forall a, b | 0 <= a < |r| && 0 <= b < |r| && r[a].ad == ad && r[b].ad == ad
        && r[a].isMain && r[b].isMain
      ensures a == b
    {
      assert a == i;
      assert b == i;
    }
    assert r[i].ad == ad && r[i].isMain;
  }

  /** Saving a photo keeps "exactly one main photo per ad that has photos",
      provided the save does not move an existing photo to another ad. */
  lemma SavePreservesInvariant(photos: seq<Photo>, p: Photo)
    requires MainInvariant(photos) && StaysWithAd(photos, p)
    ensures MainInvariant(SavePhoto(photos, p))
  {
    SaveKeepsOthers(photos, p);
    SaveOneMain(photos, p);
    InvariantFromParts(photos, SavePhoto(photos, p), p.ad);
  }

  /** Promoting the first photo of an ad that lost its main photo restores
      the invariant. */
  lemma PromotedInvariant(rest: seq<Photo>, ad: nat, k: nat)
    requires UniqueIds(rest) && AtMostOneMain(rest) && !HasMain(rest, ad)
    requires forall j :: 0 <= j < |rest| && rest[j].ad != ad ==> HasMain(rest, rest[j].ad)
    requires FirstOf(rest, ad) == Some(k)
    ensures MainInvariant(rest[k := rest[k].(isMain := true)])
  {
    var r := rest[k := rest[k].(isMain := true)];
    assert forall j :: 0 <= j < |rest| ==> !(rest[j].ad == ad && rest[j].isMain);
    assert r[k].ad == ad && r[k].isMain;
    SameIdsUnique(rest, r);
    InvariantFromParts(rest, r, ad);
  }

  /** Deleting a photo keeps "exactly one main photo per ad that has
      photos". */
  lemma DeletePreservesInvariant(photos: seq<Photo>, id: nat)
    requires MainInvariant(photos)
    ensures MainInvariant(DeletePhoto(photos, id))
  {
    var r := DeletePhoto(photos, id);
    match KeyIndex(photos, id, PhotoKey)
    case None =>
    case Some(i) =>
      var gone := photos[i];
      var rest := RemoveAt(photos, i);
      RemoveAtFacts(photos, i);
      if !gone.isMain {
        assert r == rest;
      } else {
        assert r == PromoteFirst(rest, gone.ad);
        match FirstOf(rest, gone.ad)
        case None =>
          assert MainWhenPhotos(rest);
        case Some(k) =>
          PromoteFirstShape(rest, gone.ad, k);
          PromotedInvariant(rest, gone.ad, k);
      }
  }

  // ---------------------------------------------------------------------
  // Moving a photo to another ad

  /** The photo admin lets a photo's `ad` be changed. Saving photo 1, the
      main photo of ad 1, under ad 2 leaves ad 1 with a photo and no main
      photo: the post-save handler only looks at the ad the photo now
      belongs to. */
  lemma MovingMainPhotoLeavesAdBare()
    ensures var photos := [Photo(1, 1, "a", true, 0), Photo(2, 1, "b", false, 1)];
      && MainInvariant(photos)
      && !MainInvariant(SavePhoto(photos, Photo(1, 2, "a", true, 0)))
  {
    var photos := [Photo(1, 1, "a", true, 0), Photo(2, 1, "b", false, 1)];
    var p := Photo(1, 2, "a", true, 0);
    assert HasMain(photos, 1) by {
      assert photos[0].ad == 1 && photos[0].isMain;
    }
    var r := SavePhoto(photos, p);
    SaveMainRows(photos, p);
    assert Upsert(photos, p, PhotoKey) == photos[0 := p];
    assert r[1].id == 2;
    assert r[1] == photos[1];
    assert r[0] == p;
    assert !HasMain(r, 1);
  }

  /** The save with the step the handlers evidently intend for the ad a
      photo leaves: when a save moves a photo to another ad and leaves the
      old ad with photos but no main photo, the old ad's first photo is
      promoted, as the post-delete handler does. A save that keeps the photo
      with its ad is exactly `SavePhoto`. */
  function SavePhotoMoving(photos: seq<Photo>, p: Photo): (r: seq<Photo>)
    requires UniqueIds(photos)
    ensures StaysWithAd(photos, p) ==> r == SavePhoto(photos, p)
  {
    var saved := SavePhoto(photos, p);
    match KeyIndex(photos, p.id, PhotoKey)
    case None => saved
    case Some(i) =>
      if photos[i].ad != p.ad && !HasMain(saved, photos[i].ad) then PromoteFirst(saved, photos[i].ad)
      else saved
  }

  /** With the old ad looked after, every save keeps "exactly one main
      photo per ad that has photos", moved photos included. */
  lemma SavePhotoMovingPreservesInvariant(photos: seq<Photo>, p: Photo)
    requires MainInvariant(photos)
    ensures MainInvariant(SavePhotoMoving(photos, p))
  {
    var saved := SavePhoto(photos, p);
    var r := SavePhotoMoving(photos, p);
    match KeyIndex(photos, p.id, PhotoKey)
    case None =>
      SavePreservesInvariant(photos, p);
    case Some(i) =>
      KeyIndexUnique(photos, i);
      var left := photos[i].ad;
      if left == p.ad {
        assert forall j :: 0 <= j < |photos| && photos[j].id == p.id ==> j == i;
        SavePreservesInvariant(photos, p);
      } else {
        MovedSaveFacts(photos, p, i);
        if HasMain(saved, left) {
          assert r == saved;
        } else {
          assert r == PromoteFirst(saved, left);
          match FirstOf(saved, left)
          case None =>
          case Some(k) =>
            PromoteFirstShape(saved, left, k);
            PromotedInvariant(saved, left, k);
        }
      }
  }

  /** After a save that moves photo `i` to another ad, every ad but the one
      it left still satisfies the invariant. */
  lemma MovedSaveFacts(photos: seq<Photo>, p: Photo, i: nat)
    requires MainInvariant(photos) && i < |photos| && photos[i].id == p.id && photos[i].ad != p.ad
    ensures var r := SavePhoto(photos, p);
      && UniqueIds(r) && AtMostOneMain(r)
      && forall j :: 0 <= j < |r| && r[j].ad != photos[i].ad ==> HasMain(r, r[j].ad)
  {
    SaveOneMain(photos, p);
    SaveAtMostOneMain(photos, p);
    MovedSaveMains(photos, p, i);
  }

  /** A save keeps at most one main photo per ad: its own ad by the
      handler, every other ad because its rows are the old ones. */
  lemma SaveAtMostOneMain(photos: seq<Photo>, p: Photo)
    requires MainInvariant(photos)
    ensures AtMostOneMain(SavePhoto(photos, p))
  {
    var r := SavePhoto(photos, p);
    SaveOneMain(photos, p);
    forall a, b | 0 <= a < |r| && 0 <= b < |r| && a != b && r[a].ad == r[b].ad && r[a].isMain
      ensures !r[b].isMain
    {
      if r[a].ad != p.ad {
        SaveRowOrigin(photos, p, a);
        SaveRowOrigin(photos, p, b);
      }
    }
  }

  lemma MovedSaveMains(photos: seq<Photo>, p: Photo, i: nat)
    requires MainInvariant(photos) && i < |photos| && photos[i].id == p.id && photos[i].ad != p.ad
    ensures var r := SavePhoto(photos, p);
      forall j :: 0 <= j < |r| && r[j].ad != photos[i].ad ==> HasMain(r, r[j].ad)
  {
    var r := SavePhoto(photos, p);
    SaveOneMain(photos, p);
    forall j | 0 <= j < |r| && r[j].ad != photos[i].ad ensures HasMain(r, r[j].ad) {
      if r[j].ad != p.ad {
        SaveRowOrigin(photos, p, j);
        KeptMainAfterMove(photos, p, i, j);
      }
    }
  }

  /** A row of an ad that neither receives nor loses the moved photo keeps
      its ad's main photo through the save. */
  lemma KeptMainAfterMove(photos: seq<Photo>, p: Photo, i: nat, j: nat)
    requires MainInvariant(photos) && i < |photos| && photos[i].id == p.id
    requires j < |photos| && photos[j].ad != p.ad && photos[j].ad != photos[i].ad
    ensures HasMain(SavePhoto(photos, p), photos[j].ad)
  {
    var r := SavePhoto(photos, p);
    assert HasMain(photos, photos[j].ad);
    var m :| 0 <= m < |photos| && photos[m].ad == photos[j].ad && photos[m].isMain;
    assert photos[m].id != p.id;
    SaveLeavesOtherAds(photos, p, m);
    assert r[m] == photos[m];
  }
}

=== FILE: slugs.dfy ===
/**
  `Ad.generate_unique_slug` (apps/store/models.py): a linear probe over the
  candidates `base`, `base-1`, `base-2`, ... that stops at the first one no
  ad holds. `base` is `slugify(name)`, a library call that stays abstract
  here: the probe works for any base.
 */
module Slugs {
  import opened Text

  /** The k-th candidate the probe tries: the base itself, then the base
      with `-k` appended. */
  function Candidate(base: string, k: nat): string {
    if k == 0 then base else base + "-" + ShowNat(k)
  }

  /** Different probe steps never produce the same candidate. */
  lemma CandidatesDistinct(base: string, j: nat, k: nat)
    requires j != k
    ensures Candidate(base, j) != Candidate(base, k)
  {
    if j != 0 && k != 0 {
      var cj, ck := Candidate(base, j), Candidate(base, k);
      if cj == ck {
        var n := |base| + 1;
        assert cj[n..] == ShowNat(j);
        assert ck[n..] == ShowNat(k);
        ShowNatInjective(j, k);
      }
    }
  }

  /** The first `n` candidates, as a set. */
  function FirstCandidates(base: string, n: nat): (s: set<string>)
    ensures forall j :: 0 <= j < n ==> Candidate(base, j) in s
  {
    if n == 0 then {} else FirstCandidates(base, n - 1) + {Candidate(base, n - 1)}
  }

  lemma {:induction false} FirstCandidatesSize(base: string, n: nat)
    ensures |FirstCandidates(base, n)| == n
  {
    if n > 0 {
      FirstCandidatesSize(base, n - 1);
      var c := Candidate(base, n - 1);
      if c in FirstCandidates(base, n - 1) {
        var j := CandidateIndex(base, n - 1, c);
        CandidatesDistinct(base, j, n - 1);
      }
    }
  }

  /** Which step produced a member of `FirstCandidates(base, n)`. */
  lemma {:induction false} CandidateIndex(base: string, n: nat, c: string) returns (j: nat)
    requires c in FirstCandidates(base, n)
    ensures j < n && c == Candidate(base, j)
  {
    if c == Candidate(base, n - 1) {
      j := n - 1;
    } else {
      j := CandidateIndex(base, n - 1, c);
    }
  }

  /** Pigeonhole: when the first `n` candidates are all taken, at least `n`
      slugs are taken. */
  lemma TakenBound(base: string, taken: set<string>, n: nat)
    requires forall j :: 0 <= j < n ==> Candidate(base, j) in taken
    ensures n <= |taken|
  {
    FirstCandidatesSize(base, n);
    assert FirstCandidates(base, n) <= taken by {
      forall c | c in FirstCandidates(base, n)
        ensures c in taken
      {
        var j := CandidateIndex(base, n, c);
      }
    }
    SubsetSize(FirstCandidates(base, n), taken);
  }

  lemma {:induction false} SubsetSize<T>(a: set<T>, b: set<T>)
    requires a <= b
    ensures |a| <= |b|
    decreases a
  {
    if a != {} {
      var x :| x in a;
      SubsetSize(a - {x}, b - {x});
    }
  }

  /** The probe, continued from step `k` once steps `0..k-1` were found
      taken: the step at which it stops. */
  function ProbeFrom(base: string, taken: set<string>, k: nat): (m: nat)
    requires forall j :: 0 <= j < k ==> Candidate(base, j) in taken
    ensures k <= m <= |taken|
    ensures Candidate(base, m) !in taken
    ensures forall j :: 0 <= j < m ==> Candidate(base, j) in taken
    decreases |taken| - k
  {
    TakenBound(base, taken, k);
    if Candidate(base, k) !in taken then k
    else
      TakenBound(base, taken, k + 1);
      ProbeFrom(base, taken, k + 1)
  }

  /** `generate_unique_slug` with `slugify(self.name)` already computed as
      `base` and `taken` the slugs of all ads: the first candidate no ad
      holds. It stops after at most `|taken| + 1` tries. */
  function UniqueSlug(base: string, taken: set<string>): (slug: string)
    ensures slug !in taken
    ensures base !in taken ==> slug == base
    ensures base in taken ==>
      exists k :: 1 <= k <= |taken| && slug == Candidate(base, k)
                  && forall j :: 0 <= j < k ==> Candidate(base, j) in taken
  {
    var m := ProbeFrom(base, taken, 0);
    assert Candidate(base, 0) == base;
    Candidate(base, m)
  }
}

=== FILE: store_admin.dfy ===
/**
  The store's admin helpers (apps/store/admin.py): the price column, the
  saved-search price range, the favourite's owner column and the bulk
  actions on ads and popular searches.
 */
module StoreAdmin {
  import opened Wrappers
  import opened Text
  import opened Tables
  import opened Catalog

  /** Reads a number written with comma thousands separators. */
  function ReadGrouped(s: string): Option<nat> {
    var d := Remove(s, ',');
    if |d| > 0 && AllDigits(d) then Some(DigitsValue(d)) else None
  }

  /** A grouped number reads back as the number, and holds no space. */
  lemma ReadGroupedWithCommas(n: nat)
    ensures ReadGrouped(WithCommas(n)) == Some(n)
    ensures ' ' !in WithCommas(n)
  {
    WithCommasValue(n);
    WithCommasChars(n);
  }

  /** `AdAdmin.price_formatted`: `f"{price:,} so'm"`. */
  function PriceFormatted(price: nat): (r: string)
    ensures Split(r, ' ') == [WithCommas(price), "so'm"]
    ensures ReadGrouped(Split(r, ' ')[0]) == Some(price)
  {
    var r := WithCommas(price) + " so'm";
    ReadGroupedWithCommas(price);
    SplitJoin([WithCommas(price), "so'm"], ' ');
    assert Join([WithCommas(price), "so'm"], " ") == r;
    r
  }

  /** A nullable positive-integer column in a truth test: missing and 0
      are both false. */
  predicate Truthy(v: Option<nat>) {
    v.Some? && v.value != 0
  }

  /** `SavedSearchAdmin.price_range`. */
  function PriceRange(min: Option<nat>, max: Option<nat>): string {
    if Truthy(min) && Truthy(max) then WithCommas(min.value) + " - " + WithCommas(max.value)
    else if Truthy(min) then "From " + WithCommas(min.value)
    else if Truthy(max) then "Up to " + WithCommas(max.value)
    else "No price limit"
  }

  /** The words of `PriceRange` text: the bounds can be read back from it,
      and a bound that is missing or 0 never appears in it. */
  lemma PriceRangeReadsBack(min: Option<nat>, max: Option<nat>)
    ensures var w := Split(PriceRange(min, max), ' ');
      && (Truthy(min) && Truthy(max) ==>
            |w| == 3 && w[1] == "-" && ReadGrouped(w[0]) == Some(min.value) && ReadGrouped(w[2]) == Some(max.value))
      && (Truthy(min) && !Truthy(max) ==>
            |w| == 2 && w[0] == "From" && ReadGrouped(w[1]) == Some(min.value))
      && (!Truthy(min) && Truthy(max) ==>
            |w| == 3 && w[0] == "Up" && w[1] == "to" && ReadGrouped(w[2]) == Some(max.value))
      && (!Truthy(min) && !Truthy(max) ==> w == ["No", "price", "limit"])
  {
    if Truthy(min) && Truthy(max) {
      BothBounds(min.value, max.value);
    } else if Truthy(min) {
      LowerBound(min.value);
    } else if Truthy(max) {
      UpperBound(max.value);
    } else {
      NoBound();
    }
  }

  lemma LowerBound(lo: nat)
    ensures Split("From " + WithCommas(lo), ' ') == ["From", WithCommas(lo)]
    ensures ReadGrouped(WithCommas(lo)) == Some(lo)
  {
    var a := WithCommas(lo);
    ReadGroupedWithCommas(lo);
    assert Join(["From", a], " ") == "From " + a;
    SplitJoin(["From", a], ' ');
  }

  lemma UpperBound(hi: nat)
    ensures Split("Up to " + WithCommas(hi), ' ') == ["Up", "to", WithCommas(hi)]
    ensures ReadGrouped(WithCommas(hi)) == Some(hi)
  {
    var b := WithCommas(hi);
    ReadGroupedWithCommas(hi);
    assert Join(["to", b], " ") == "to " + b;
    assert Join(["Up", "to", b], " ") == "Up to " + b;
    SplitJoin(["Up", "to", b], ' ');
  }

  lemma NoBound()
    ensures Split("No price limit", ' ') == ["No", "price", "limit"]
  {
    assert Join(["price", "limit"], " ") == "price limit";
    assert Join(["No", "price", "limit"], " ") == "No price limit";
    SplitJoin(["No", "price", "limit"], ' ');
  }

  lemma BothBounds(lo: nat, hi: nat)
    ensures Split(WithCommas(lo) + " - " + WithCommas(hi), ' ') == [WithCommas(lo), "-", WithCommas(hi)]
    ensures ReadGrouped(WithCommas(lo)) == Some(lo) && ReadGrouped(WithCommas(hi)) == Some(hi)
  {
    var a, b := WithCommas(lo), WithCommas(hi);
    ReadGroupedWithCommas(lo);
    ReadGroupedWithCommas(hi);
    assert Join(["-", b], " ") == "- " + b;
    assert Join([a, "-", b], " ") == a + " - " + b;
    SplitJoin([a, "-", b], ' ');
  }

  /** What `f"{device_id}"` shows for a nullable device id. */
  function ShowDevice(deviceId: Option<string>): string {
    match deviceId
    case Some(d) => d
    case None => "None"
  }

  /** `FavoriteProductAdmin.user_or_device` as intended: the linked user's
      full name, else the device. `fullName` looks up a user's name. */
  function UserOrDevice(f: Favorite, fullName: nat -> string): (r: string)
    ensures f.user.Some? ==> r == fullName(f.user.value)
    ensures f.user.None? ==> |r| >= 8 && r[..8] == "Device: " && r[8..] == ShowDevice(f.deviceId)
  {
    match f.user
    case Some(u) => fullName(u)
    case None => "Device: " + ShowDevice(f.deviceId)
  }

  /** An attribute lookup that fails. */
  datatype AttributeError = AttributeError(name: string)

  /** `user_or_device` as written: it calls `get_full_name()` on the user,
      a method the user model (built on `AbstractBaseUser`, which does not
      provide it) does not define, so every user-linked favourite fails. */
  function UserOrDeviceAsWritten(f: Favorite): (r: Result<string, AttributeError>)
    ensures r.Failure? <==> f.user.Some?
  {
    match f.user
    case Some(_) => Failure(AttributeError("get_full_name"))
    case None => Success("Device: " + ShowDevice(f.deviceId))
  }

  /** The two agree on device favourites; on a user favourite the written
      column fails where the intended one shows the user's name. */
  lemma UserOrDeviceDiscrepancy(fullName: nat -> string)
    ensures var f := Favorite(1, Some(7), 3, None);
      UserOrDeviceAsWritten(f).Failure? && UserOrDevice(f, fullName) == fullName(7)
    ensures forall f: Favorite :: f.user.None? ==> UserOrDeviceAsWritten(f) == Success(UserOrDevice(f, fullName))
  {
  }

  // ---------------------------------------------------------------------
  // Bulk actions: `queryset.update(...)` over the selected rows, reporting
  // the number of rows matched.

  function AdSelected(selection: set<nat>): Ad -> bool {
    (a: Ad) => a.id in selection
  }

  /** `make_active` / `make_inactive`: every selected ad gets `status`,
      nothing else changes, and the reported count is the number of selected
      ads. */
  function SetAdStatus(ads: seq<Ad>, selection: set<nat>, status: AdStatus): (r: (seq<Ad>, nat))
    ensures |r.0| == |ads|
    ensures forall i :: 0 <= i < |ads| && ads[i].id in selection ==> r.0[i] == ads[i].(status := status)
    ensures forall i :: 0 <= i < |ads| && ads[i].id !in selection ==> r.0[i] == ads[i]
    ensures r.1 == Count(ads, AdSelected(selection))
    ensures r.1 == 0 <==> forall i :: 0 <= i < |ads| ==> ads[i].id !in selection
  {
    (Update(ads, AdSelected(selection), (a: Ad) => a.(status := status)),
     Count(ads, AdSelected(selection)))
  }

  function MakeActive(ads: seq<Ad>, selection: set<nat>): (seq<Ad>, nat) {
    SetAdStatus(ads, selection, Active)
  }

  function MakeInactive(ads: seq<Ad>, selection: set<nat>): (seq<Ad>, nat) {
    SetAdStatus(ads, selection, Inactive)
  }

  /** Setting a status twice is setting it once, and the second run reports
      the same count. */
  lemma SetAdStatusIdempotent(ads: seq<Ad>, selection: set<nat>, status: AdStatus)
    ensures var (once, n) := SetAdStatus(ads, selection, status);
      SetAdStatus(once, selection, status) == (once, n)
  {
    var (once, n) := SetAdStatus(ads, selection, status);
    var (twice, m) := SetAdStatus(once, selection, status);
    assert twice == once;
    CountAgree(ads, once, AdSelected(selection));
  }

  /** `make_top`: every selected ad is marked top, its status untouched. */
  function MakeTop(ads: seq<Ad>, selection: set<nat>): (r: (seq<Ad>, nat))
    ensures |r.0| == |ads|
    ensures forall i :: 0 <= i < |ads| && ads[i].id in selection ==>
      r.0[i].isTop && r.0[i] == ads[i].(isTop := true) && r.0[i].status == ads[i].status
    ensures forall i :: 0 <= i < |ads| && ads[i].id !in selection ==> r.0[i] == ads[i]
    ensures r.1 == Count(ads, AdSelected(selection))
  {
    (Update(ads, AdSelected(selection), (a: Ad) => a.(isTop := true)),
     Count(ads, AdSelected(selection)))
  }

  /** Marking top twice is marking once, and the second run reports the
      same count. */
  lemma MakeTopIdempotent(ads: seq<Ad>, selection: set<nat>)
    ensures var (once, n) := MakeTop(ads, selection);
      MakeTop(once, selection) == (once, n)
  {
    var (once, n) := MakeTop(ads, selection);
    var (twice, m) := MakeTop(once, selection);
    assert twice == once;
    CountAgree(ads, once, AdSelected(selection));
  }

  function PopularSelected(selection: set<nat>): PopularSearch -> bool {
    (p: PopularSearch) => p.id in selection
  }

  /** `PopularSearchAdmin.make_active` / `make_inactive`: every selected
      search gets the flag, nothing else changes, and the reported count is
      the number of selected searches. */
  function SetPopularActive(pops: seq<PopularSearch>, selection: set<nat>, active: bool): (r: (seq<PopularSearch>, nat))
    ensures |r.0| == |pops|
    ensures forall i :: 0 <= i < |pops| && pops[i].id in selection ==> r.0[i] == pops[i].(isActive := active)
    ensures forall i :: 0 <= i < |pops| && pops[i].id !in selection ==> r.0[i] == pops[i]
    ensures r.1 == Count(pops, PopularSelected(selection))
    ensures r.1 == 0 <==> forall i :: 0 <= i < |pops| ==> pops[i].id !in selection
  {
    (Update(pops, PopularSelected(selection), (p: PopularSearch) => p.(isActive := active)),
     Count(pops, PopularSelected(selection)))
  }

  /** Setting the flag twice is setting it once, and the second run reports
      the same count. */
  lemma SetPopularActiveIdempotent(pops: seq<PopularSearch>, selection: set<nat>, active: bool)
    ensures var (once, n) := SetPopularActive(pops, selection, active);
      SetPopularActive(once, selection, active) == (once, n)
  {
    var (once, n) := SetPopularActive(pops, selection, active);
    var (twice, m) := SetPopularActive(once, selection, active);
    assert twice == once;
    CountAgree(pops, once, PopularSelected(selection));
  }
}

=== FILE: store_views.dfy ===
/**
  The request-level rules of the store views (apps/store/views.py): the
  `category_ids` filter of the ad list, the active-only lookups, the
  view-counting detail view, search and autocomplete, the favourite
  create/delete guards and the search counter endpoint. Query parameters and
  body values arrive already decoded; `icontains` is passed in as a
  predicate.
 */
module StoreViews {
  import opened Wrappers
  import opened Text
  import opened Tables
  import opened Http
  import opened Catalog
  import opened AdSerializers

  // ---------------------------------------------------------------------
  // AdListView.get_queryset

  /** Every piece is an integer literal. */
  predicate AllParse(pieces: seq<string>) {
    forall k :: 0 <= k < |pieces| ==> ParseInt(pieces[k]).Some?
  }

  /** `int(x.strip())` for every piece, all or nothing. */
  function ParseAll(pieces: seq<string>): (r: Option<seq<int>>)
    ensures r.Some? <==> AllParse(pieces)
    ensures r.Some? ==> |r.value| == |pieces|
    ensures r.Some? ==> forall k :: 0 <= k < |pieces| ==> Some(r.value[k]) == ParseInt(pieces[k])
  {
    if |pieces| == 0 then Some([])
    else match (ParseInt(pieces[0]), ParseAll(pieces[1..]))
      case (Some(v), Some(rest)) => Some([v] + rest)
      case _ => None
  }

  /** The `category_ids` query parameter: absent or empty means no filter;
      otherwise the comma-separated ids, and if any piece is not an integer
      (an empty piece included) the filter is dropped altogether. */
  function CategoryIds(param: Option<string>): (r: Option<seq<int>>)
    ensures param.None? || param == Some("") ==> r.None?
    ensures r.Some? <==> (param.Some? && param.value != "" && AllParse(Split(param.value, ',')))
    ensures r.Some? ==>
      (|r.value| == |Split(param.value, ',')|
       && forall k :: 0 <= k < |r.value| ==> Some(r.value[k]) == ParseInt(Split(param.value, ',')[k]))
  {
    match param
    case None => None
    case Some(s) => if s == "" then None else ParseAll(Split(s, ','))
  }

  /** `",".join(map(str, ids))`, piece by piece. */
  function ShowAll(ids: seq<int>): (r: seq<string>)
    ensures |r| == |ids| && forall k :: 0 <= k < |ids| ==> r[k] == ShowInt(ids[k])
  {
    seq(|ids|, k requires 0 <= k < |ids| => ShowInt(ids[k]))
  }

  lemma ShowIntNoComma(i: int)
    ensures ',' !in ShowInt(i) && |ShowInt(i)| >= 1
  {
    var d := ShowNat(if i < 0 then -i else i);
    DigitsHaveNoComma(d);
    if i < 0 {
      assert ShowInt(i) == "-" + d;
    }
  }

  lemma ParseShowAll(ids: seq<int>)
    ensures ParseAll(ShowAll(ids)) == Some(ids)
  {
    var parts := ShowAll(ids);
    forall k | 0 <= k < |parts| ensures ParseInt(parts[k]) == Some(ids[k]) {
      ParseShowInt(ids[k]);
    }
    var r := ParseAll(parts);
    assert AllParse(parts);
    assert r.value == ids;
  }

  lemma ShowAllNoComma(ids: seq<int>)
    ensures forall p :: p in ShowAll(ids) ==> ',' !in p
  {
    var parts := ShowAll(ids);
    forall p | p in parts ensures ',' !in p {
      var k :| 0 <= k < |parts| && parts[k] == p;
      ShowIntNoComma(ids[k]);
    }
  }

  lemma JoinNonEmpty(parts: seq<string>, sep: string)
    requires |parts| >= 1 && |parts[0]| >= 1
    ensures Join(parts, sep) != ""
  {
    if |parts| > 1 {
      assert Join(parts, sep) == parts[0] + sep + Join(parts[1..], sep);
    }
  }

  /** A list of ids written out the way a client would send it is read
      back exactly. */
  lemma CategoryIdsRoundTrip(ids: seq<int>)
    requires |ids| >= 1
    ensures CategoryIds(Some(Join(ShowAll(ids), ","))) == Some(ids)
  {
    var parts := ShowAll(ids);
    ShowAllNoComma(ids);
    SplitJoin(parts, ',');
    ShowIntNoComma(ids[0]);
    JoinNonEmpty(parts, ",");
    ParseShowAll(ids);
  }

  /** One empty piece drops the whole filter: `a,,b` filters nothing,
      whatever `a` and `b` are. */
  lemma EmptyPieceDropsFilter(a: string, b: string)
    ensures CategoryIds(Some(a + ",," + b)).None?
  {
    var s := a + ",," + b;
    var rest := [','] + b;
    assert s == a + [','] + rest;
    SplitConcat(a, rest, ',');
    SplitAt(rest, ',', 0);
    assert rest[1..] == b;
    var k := |Split(a, ',')|;
    assert Split(s, ',')[k] == rest[..0] == "";
    assert ParseInt("").None?;
  }

  /** The ad list: active ads only, restricted to the parsed category ids
      when the parameter parses. */
  function AdList(ads: seq<Ad>, categoryIds: Option<string>): (r: seq<Ad>)
    ensures forall k :: 0 <= k < |r| ==> r[k] in ads && r[k].status == Active
    ensures CategoryIds(categoryIds).None? ==>
      forall k :: 0 <= k < |ads| && ads[k].status == Active ==> ads[k] in r
    ensures CategoryIds(categoryIds).Some? ==> var ids := CategoryIds(categoryIds).value;
      && (forall k :: 0 <= k < |r| ==> r[k].category as int in ids)
      && (forall k :: 0 <= k < |ads| && ads[k].status == Active && ads[k].category as int in ids ==> ads[k] in r)
  {
    match CategoryIds(categoryIds)
    case None => Filter(ads, (a: Ad) => a.status == Active)
    case Some(ids) => Filter(ads, (a: Ad) => a.status == Active && a.category as int in ids)
  }

  /** A malformed parameter lists the same ads as no parameter at all. */
  lemma MalformedIdsListAllActive(ads: seq<Ad>, a: string, b: string)
    ensures AdList(ads, Some(a + ",," + b)) == AdList(ads, None)
  {
    EmptyPieceDropsFilter(a, b);
  }

  // ---------------------------------------------------------------------
  // AdDetailView / ProductDownloadView

  datatype ViewError = NotFound | BadRequest(reason: string)

  /** The lookup `get_object` does on the active ads by slug. */
  function FindActive(ads: seq<Ad>, slug: string): (r: Option<nat>)
    ensures r.Some? ==> r.value < |ads| && ads[r.value].slug == slug && ads[r.value].status == Active
    ensures r.None? <==> forall k :: 0 <= k < |ads| ==> !(ads[k].slug == slug && ads[k].status == Active)
  {
    if |ads| == 0 then None
    else if ads[0].slug == slug && ads[0].status == Active then Some(0)
    else match FindActive(ads[1..], slug)
      case None => None
      case Some(k) => Some(k + 1)
  }

  /** `ProductDownloadView`: the active ad with the slug, unchanged. */
  function Download(ads: seq<Ad>, slug: string): (r: Result<Ad, ViewError>)
    ensures r.Failure? <==> forall k :: 0 <= k < |ads| ==> !(ads[k].slug == slug && ads[k].status == Active)
    ensures r.Failure? ==> r.error == NotFound
    ensures r.Success? ==> r.value in ads && r.value.slug == slug && r.value.status == Active
  {
    match FindActive(ads, slug)
    case None => Failure(NotFound)
    case Some(k) => Success(ads[k])
  }

  /** `AdDetailView.retrieve`: 404 for a slug no active ad has, with no
      write; otherwise the ad's view count goes up by exactly one, no other
      ad or column changes, and the response shows the new count. */
  function Retrieve(ads: seq<Ad>, slug: string): (r: Result<(seq<Ad>, Ad), ViewError>)
    ensures r.Failure? <==> Download(ads, slug).Failure?
    ensures r.Success? ==> var (ads', shown) := r.value; var before := Download(ads, slug).value;
      && shown == before.(viewCount := before.viewCount + 1)
      && |ads'| == |ads|
      && (forall k :: 0 <= k < |ads| && ads[k].id != before.id ==> ads'[k] == ads[k])
      && (forall k :: 0 <= k < |ads| && ads[k].id == before.id ==>
            ads'[k] == ads[k].(viewCount := ads[k].viewCount + 1))
  {
    match FindActive(ads, slug)
    case None => Failure(NotFound)
    case Some(k) =>
      var ads' := IncrementViewCount(ads, ads[k].id);
      Success((ads', ads'[k]))
  }

  /** Viewing an ad keeps it on show: the next download finds the same ad
      with the raised count. */
  lemma RetrieveThenDownload(ads: seq<Ad>, slug: string)
    requires Retrieve(ads, slug).Success?
    ensures var (ads', shown) := Retrieve(ads, slug).value; Download(ads', slug) == Success(shown)
  {
    var (ads', shown) := Retrieve(ads, slug).value;
    FindActiveSameSlots(ads, ads', slug);
  }

  /** Changing only view counts leaves every active-slug lookup where it
      was. */
  lemma {:induction false} FindActiveSameSlots(ads: seq<Ad>, ads': seq<Ad>, slug: string)
    requires |ads'| == |ads|
    requires forall k :: 0 <= k < |ads| ==> ads'[k].slug == ads[k].slug && ads'[k].status == ads[k].status
    ensures FindActive(ads', slug) == FindActive(ads, slug)
  {
    if |ads| > 0 {
      FindActiveSameSlots(ads[1..], ads'[1..], slug);
    }
  }

  // ---------------------------------------------------------------------
  // Search and autocomplete

  datatype HitKind = CategoryHit | ProductHit

  datatype Hit = Hit(id: nat, name: string, kind: HitKind)

  function CategoryHits(cats: seq<Category>): (r: seq<Hit>)
    ensures |r| == |cats| && forall k :: 0 <= k < |cats| ==> r[k] == Hit(cats[k].id, cats[k].name, CategoryHit)
  {
    seq(|cats|, k requires 0 <= k < |cats| => Hit(cats[k].id, cats[k].name, CategoryHit))
  }

  function ProductHits(ads: seq<Ad>): (r: seq<Hit>)
    ensures |r| == |ads| && forall k :: 0 <= k < |ads| ==> r[k] == Hit(ads[k].id, ads[k].name, ProductHit)
  {
    seq(|ads|, k requires 0 <= k < |ads| => Hit(ads[k].id, ads[k].name, ProductHit))
  }

  /** The active categories whose name contains the query. */
  function MatchingCategories(cats: seq<Category>, q: string, contains: (string, string) -> bool): seq<Category> {
    Filter(cats, (c: Category) => c.isActive && contains(c.name, q))
  }

  /** The active ads whose name contains the query. */
  function MatchingAds(ads: seq<Ad>, q: string, contains: (string, string) -> bool): seq<Ad> {
    Filter(ads, (a: Ad) => a.status == Active && contains(a.name, q))
  }

  /** `CategoryProductSearchView.get_queryset`: nothing for a blank query;
      otherwise up to five matching active categories, then up to five
      matching active ads, each tagged with its kind. */
  function Search(cats: seq<Category>, ads: seq<Ad>, query: string, contains: (string, string) -> bool)
    : (r: seq<Hit>)
    ensures IsBlank(query) ==> r == []
    ensures |r| <= 10
    ensures !IsBlank(query) ==> var q := Strip(query);
      var nc := |Take(MatchingCategories(cats, q, contains), 5)|;
      && nc == (if |MatchingCategories(cats, q, contains)| < 5 then |MatchingCategories(cats, q, contains)| else 5)
      && |r| - nc == (if |MatchingAds(ads, q, contains)| < 5 then |MatchingAds(ads, q, contains)| else 5)
      && (forall k :: 0 <= k < nc ==>
            (exists c :: c in cats && c.isActive && contains(c.name, q) && r[k] == Hit(c.id, c.name, CategoryHit)))
      && (forall k :: nc <= k < |r| ==>
            (exists a :: a in ads && a.status == Active && contains(a.name, q) && r[k] == Hit(a.id, a.name, ProductHit)))
    ensures !IsBlank(query) ==>
      FirstHits(r, MatchingCategories(cats, Strip(query), contains), MatchingAds(ads, Strip(query), contains))
  {
    var q := Strip(query);
    if q == [] then []
    else
      var cs := Take(MatchingCategories(cats, q, contains), 5);
      var as_ := Take(MatchingAds(ads, q, contains), 5);
      SearchHitsFacts(cats, ads, q, contains);
      SearchHitsPositions(cats, ads, q, contains);
      CategoryHits(cs) + ProductHits(as_)
  }

  /** `r` holds, in order, the first (at most five) categories of `mc` and
      then the first ads of `ma`. */
  predicate FirstHits(r: seq<Hit>, mc: seq<Category>, ma: seq<Ad>) {
    var nc := if |mc| < 5 then |mc| else 5;
    && nc <= |r|
    && (forall k :: 0 <= k < nc ==> r[k] == Hit(mc[k].id, mc[k].name, CategoryHit))
    && (forall k :: nc <= k < |r| ==> k - nc < |ma| && r[k] == Hit(ma[k - nc].id, ma[k - nc].name, ProductHit))
  }

  /** The hits of a search are the first matching categories, then the
      first matching ads, position by position. */
  lemma SearchHitsPositions(cats: seq<Category>, ads: seq<Ad>, q: string, contains: (string, string) -> bool)
    ensures var mc := MatchingCategories(cats, q, contains);
      var ma := MatchingAds(ads, q, contains);
      FirstHits(CategoryHits(Take(mc, 5)) + ProductHits(Take(ma, 5)), mc, ma)
  {
    HitsConcat(CategoryHits(Take(MatchingCategories(cats, q, contains), 5)),
               ProductHits(Take(MatchingAds(ads, q, contains), 5)));
  }

  /** Indexing a concatenation of hit lists: the front, then the back. */
  lemma HitsConcat(front: seq<Hit>, back: seq<Hit>)
    ensures forall k :: 0 <= k < |front| ==> (front + back)[k] == front[k]
    ensures forall k :: |front| <= k < |front| + |back| ==> (front + back)[k] == back[k - |front|]
  {
  }

  /** Every hit of a search comes from a matching active category or ad,
      categories first. */
  lemma SearchHitsFacts(cats: seq<Category>, ads: seq<Ad>, q: string, contains: (string, string) -> bool)
    ensures var cs := Take(MatchingCategories(cats, q, contains), 5);
      var r := CategoryHits(cs) + ProductHits(Take(MatchingAds(ads, q, contains), 5));
      && (forall k :: 0 <= k < |cs| ==>
            (exists c :: c in cats && c.isActive && contains(c.name, q) && r[k] == Hit(c.id, c.name, CategoryHit)))
      && (forall k :: |cs| <= k < |r| ==>
            (exists a :: a in ads && a.status == Active && contains(a.name, q) && r[k] == Hit(a.id, a.name, ProductHit)))
  {
    var cs := Take(MatchingCategories(cats, q, contains), 5);
    var as_ := Take(MatchingAds(ads, q, contains), 5);
    var r := CategoryHits(cs) + ProductHits(as_);
    forall k | 0 <= k < |cs|
      ensures exists c :: c in cats && c.isActive && contains(c.name, q) && r[k] == Hit(c.id, c.name, CategoryHit)
    {
      assert cs[k] in MatchingCategories(cats, q, contains);
      assert r[k] == Hit(cs[k].id, cs[k].name, CategoryHit);
    }
    forall k | |cs| <= k < |r|
      ensures exists a :: a in ads && a.status == Active && contains(a.name, q) && r[k] == Hit(a.id, a.name, ProductHit)
    {
      assert as_[k - |cs|] in MatchingAds(ads, q, contains);
      assert r[k] == Hit(as_[k - |cs|].id, as_[k - |cs|].name, ProductHit);
    }
  }

  /** `AutoCompleteSearchView.get_queryset`: nothing for a blank query,
      otherwise up to ten matching active ads. This endpoint's items carry
      only `id`, `name` and an icon; the `ProductHit` kind is the model's
      tag and is not part of its output. */
  function Autocomplete(ads: seq<Ad>, query: string, contains: (string, string) -> bool): (r: seq<Hit>)
    ensures IsBlank(query) ==> r == []
    ensures |r| <= 10
    ensures !IsBlank(query) ==> var m := MatchingAds(ads, Strip(query), contains);
      |r| == (if |m| < 10 then |m| else 10) && forall k :: 0 <= k < |r| ==> r[k] == Hit(m[k].id, m[k].name, ProductHit)
  {
    var q := Strip(query);
    if q == [] then [] else ProductHits(Take(MatchingAds(ads, q, contains), 10))
  }

  // ---------------------------------------------------------------------
  // Favourites

  /** A request body value read with `request.data.get`: absent, or a JSON
      integer (falsy when 0). */
  predicate TruthyInt(v: Option<int>) {
    v.Some? && v.value != 0
  }

  predicate TruthyText(v: Option<string>) {
    v.Some? && v.value != ""
  }

  /** The body of a favourite request: the views read `product`, the
      serializer's writable foreign key is `ad`. */
  datatype FavoriteBody = FavoriteBody(product: Option<int>, ad: Option<int>, deviceId: Option<string>)

  /** The serializer's validation of the `ad` key: required, and an existing
      ad. */
  function ResolveAd(ads: seq<Ad>, ad: Option<int>): (r: Result<nat, ViewError>)
    ensures r.Success? <==> ad.Some? && exists k :: 0 <= k < |ads| && ads[k].id as int == ad.value
    ensures r.Success? ==> r.value as int == ad.value
  {
    match ad
    case None => Failure(BadRequest("ad"))
    case Some(v) =>
      if v < 0 then Failure(BadRequest("ad"))
      else match KeyIndex(ads, v as nat, AdKey)
        case None => Failure(BadRequest("ad"))
        case Some(k) => Success(v as nat)
  }

  /** Whether the user already has the ad among their favourites. */
  predicate HasFavorite(favorites: seq<Favorite>, user: nat, ad: int) {
    exists k :: 0 <= k < |favorites| && favorites[k].user == Some(user) && favorites[k].ad as int == ad
  }

  predicate DeviceHasFavorite(favorites: seq<Favorite>, device: string, ad: int) {
    exists k :: 0 <= k < |favorites| && favorites[k].deviceId == Some(device) && favorites[k].ad as int == ad
  }

  /** `FavoriteProductCreateView.create` as written: the guards read
      `product`, but the row is then created by the serializer from `ad`,
      which the body need not contain. */
  function FavoriteCreateAsWritten(favorites: seq<Favorite>, ads: seq<Ad>, user: nat, body: FavoriteBody)
    : (r: Result<seq<Favorite>, ViewError>)
    ensures !TruthyInt(body.product) ==> r.Failure?
    ensures body.ad.None? ==> r.Failure?
  {
    if !TruthyInt(body.product) then Failure(BadRequest("product"))
    else if HasFavorite(favorites, user, body.product.value) then Failure(BadRequest("duplicate"))
    else match ResolveAd(ads, body.ad)
      case Failure(e) => Failure(e)
      case Success(ad) =>
        match CreateFavorite(favorites, Member(user, false), ad, body.deviceId)
        case Failure(_) => Failure(BadRequest("duplicate"))
        case Success((favorites', _)) => Success(favorites')
  }

  /** The favourite-creation request of the store's own test suite (only
      `product` is sent) is refused as written, although the product exists
      and is not yet a favourite; read from `product`, it is created. */
  lemma FavoriteCreateDiscrepancy(user: nat)
    ensures var ads := [Ad(7, "Phone", "phone", "", 1, 100, 2, None, None, "", Active, false, 0)];
      var body := FavoriteBody(Some(7), None, None);
      && FavoriteCreateAsWritten([], ads, user, body).Failure?
      && FavoriteCreate([], ads, user, body).Success?
  {
    var ads := [Ad(7, "Phone", "phone", "", 1, 100, 2, None, None, "", Active, false, 0)];
    assert KeyIndex(ads, 7, AdKey) == Some(0);
  }

  /** `FavoriteProductCreateView.create` reading the ad from `product`, as
      its guards and the store's tests intend: a missing or zero product is
      refused, so is one already among the user's favourites or one that
      does not exist; otherwise exactly one favourite is added, owned by
      the user. */
  function FavoriteCreate(favorites: seq<Favorite>, ads: seq<Ad>, user: nat, body: FavoriteBody)
    : (r: Result<seq<Favorite>, ViewError>)
    ensures r.Success? <==>
      && TruthyInt(body.product)
      && !HasFavorite(favorites, user, body.product.value)
      && (exists k :: 0 <= k < |ads| && ads[k].id as int == body.product.value)
      && !FavoriteClash(favorites, Some(user), body.deviceId, body.product.value as nat)
    ensures r.Success? ==> exists f ::
      && r.value == favorites + [f]
      && f.user == Some(user) && f.ad as int == body.product.value && f.deviceId == body.deviceId
  {
    if !TruthyInt(body.product) then Failure(BadRequest("product"))
    else if HasFavorite(favorites, user, body.product.value) then Failure(BadRequest("duplicate"))
    else match ResolveAd(ads, body.product)
      case Failure(e) => Failure(e)
      case Success(ad) =>
        match CreateFavorite(favorites, Member(user, false), ad, body.deviceId)
        case Failure(_) => Failure(BadRequest("duplicate"))
        case Success((favorites', _)) => Success(favorites')
  }

  /** `FavoriteProductCreateByIdView.create` as written: both `device_id`
      and `product` are required, a duplicate (device, product) is refused,
      and the serializer again looks for `ad`. */
  function FavoriteCreateByDeviceAsWritten(favorites: seq<Favorite>, ads: seq<Ad>, requester: Requester, body: FavoriteBody)
    : (r: Result<seq<Favorite>, ViewError>)
    ensures !TruthyText(body.deviceId) || !TruthyInt(body.product) ==> r.Failure?
    ensures body.ad.None? ==> r.Failure?
  {
    if !TruthyText(body.deviceId) || !TruthyInt(body.product) then Failure(BadRequest("device_id, product"))
    else if DeviceHasFavorite(favorites, body.deviceId.value, body.product.value) then Failure(BadRequest("duplicate"))
    else match ResolveAd(ads, body.ad)
      case Failure(e) => Failure(e)
      case Success(ad) =>
        match CreateFavorite(favorites, requester, ad, body.deviceId)
        case Failure(_) => Failure(BadRequest("duplicate"))
        case Success((favorites', _)) => Success(favorites')
  }

  /** The by-device creation reading the ad from `product`: refused without
      a device id or a product, for a duplicate (device, product), or for an
      unknown product; otherwise one favourite for the device is added,
      owned by the requesting user when signed in. */
  function FavoriteCreateByDevice(favorites: seq<Favorite>, ads: seq<Ad>, requester: Requester, body: FavoriteBody)
    : (r: Result<seq<Favorite>, ViewError>)
    ensures !TruthyText(body.deviceId) || !TruthyInt(body.product) ==> r.Failure?
    ensures (TruthyText(body.deviceId) && TruthyInt(body.product)
             && DeviceHasFavorite(favorites, body.deviceId.value, body.product.value)) ==> r.Failure?
    ensures r.Success? <==>
      && TruthyText(body.deviceId) && TruthyInt(body.product)
      && !DeviceHasFavorite(favorites, body.deviceId.value, body.product.value)
      && (exists k :: 0 <= k < |ads| && ads[k].id as int == body.product.value)
      && !FavoriteClash(favorites, if requester.Member? then Some(requester.id) else None,
                        body.deviceId, body.product.value as nat)
    ensures r.Success? ==> exists f ::
      && r.value == favorites + [f]
      && f.deviceId == body.deviceId && f.ad as int == body.product.value
      && f.user == (if requester.Member? then Some(requester.id) else None)
  {
    if !TruthyText(body.deviceId) || !TruthyInt(body.product) then Failure(BadRequest("device_id, product"))
    else if DeviceHasFavorite(favorites, body.deviceId.value, body.product.value) then Failure(BadRequest("duplicate"))
    else match ResolveAd(ads, body.product)
      case Failure(e) => Failure(e)
      case Success(ad) =>
        match CreateFavorite(favorites, requester, ad, body.deviceId)
        case Failure(_) => Failure(BadRequest("duplicate"))
        case Success((favorites', _)) => Success(favorites')
  }

  /** Whether favourite `f` is the one with `id` owned by the caller: the
      signed-in user, or else the given device. */
  predicate OwnedMatch(f: Favorite, id: nat, requester: Requester, deviceId: Option<string>) {
    f.id == id
    && (if requester.Member? then f.user == Some(requester.id) else f.deviceId == deviceId)
  }

  function FindOwned(favorites: seq<Favorite>, id: nat, requester: Requester, deviceId: Option<string>): (r: Option<nat>)
    ensures r.Some? ==> r.value < |favorites| && OwnedMatch(favorites[r.value], id, requester, deviceId)
    ensures r.None? <==> forall k :: 0 <= k < |favorites| ==> !OwnedMatch(favorites[k], id, requester, deviceId)
  {
    if |favorites| == 0 then None
    else if OwnedMatch(favorites[0], id, requester, deviceId) then Some(0)
    else match FindOwned(favorites[1..], id, requester, deviceId)
      case None => None
      case Some(k) => Some(k + 1)
  }

  /** `FavoriteProductDeleteByIdView.delete`: a signed-in caller may delete
      only their own favourite; an anonymous caller must name a device
      (400 otherwise) and may delete only that device's favourite; no match
      is a 404. Exactly the matching row goes, and nothing else. */
  function DeleteFavorite(favorites: seq<Favorite>, id: nat, requester: Requester, deviceId: Option<string>)
    : (r: Result<seq<Favorite>, ViewError>)
    ensures requester == Anonymous && !TruthyText(deviceId) ==> r == Failure(BadRequest("device_id"))
    ensures (requester.Member? || TruthyText(deviceId)) ==>
      (r.Failure? <==> forall k :: 0 <= k < |favorites| ==> !OwnedMatch(favorites[k], id, requester, deviceId))
    ensures r.Failure? && (requester.Member? || TruthyText(deviceId)) ==> r.error == NotFound
    ensures r.Success? ==> exists k ::
      && 0 <= k < |favorites| && OwnedMatch(favorites[k], id, requester, deviceId)
      && r.value == favorites[..k] + favorites[k + 1..]
  {
    if requester == Anonymous && !TruthyText(deviceId) then Failure(BadRequest("device_id"))
    else match FindOwned(favorites, id, requester, deviceId)
      case None => Failure(NotFound)
      case Some(k) => Success(favorites[..k] + favorites[k + 1..])
  }

  /** Both intended create views write only through the serializer's
      create method, so they keep the favourite table's constraints. */
  lemma FavoriteCreateKeepsUnique(favorites: seq<Favorite>, ads: seq<Ad>, user: nat, requester: Requester, body: FavoriteBody)
    requires FavoritesUnique(favorites)
    ensures FavoriteCreate(favorites, ads, user, body).Success? ==>
      FavoritesUnique(FavoriteCreate(favorites, ads, user, body).value)
    ensures FavoriteCreateByDevice(favorites, ads, requester, body).Success? ==>
      FavoritesUnique(FavoriteCreateByDevice(favorites, ads, requester, body).value)
  {
    if TruthyInt(body.product) {
      match ResolveAd(ads, body.product)
      case Failure(_) =>
      case Success(ad) =>
        CreateFavoriteKeepsUnique(favorites, Member(user, false), ad, body.deviceId);
        CreateFavoriteKeepsUnique(favorites, requester, ad, body.deviceId);
    }
  }

  /** Deleting a favourite keeps the table's constraints. */
  lemma DeleteFavoriteKeepsUnique(favorites: seq<Favorite>, id: nat, requester: Requester, deviceId: Option<string>)
    requires FavoritesUnique(favorites)
    ensures DeleteFavorite(favorites, id, requester, deviceId).Success? ==>
      FavoritesUnique(DeleteFavorite(favorites, id, requester, deviceId).value)
  {
    if DeleteFavorite(favorites, id, requester, deviceId).Success? {
      var k := FindOwned(favorites, id, requester, deviceId).value;
      RemoveFavoriteKeepsUnique(favorites, k);
    }
  }

  /** Dropping row `k` keeps every pairwise constraint of the rows left. */
  lemma RemoveFavoriteKeepsUnique(favorites: seq<Favorite>, k: nat)
    requires FavoritesUnique(favorites) && k < |favorites|
    ensures FavoritesUnique(favorites[..k] + favorites[k + 1..])
  {
    var r := favorites[..k] + favorites[k + 1..];
    forall a | 0 <= a < |r| ensures r[a] == favorites[if a < k then a else a + 1] {
    }
  }

  // ---------------------------------------------------------------------
  // search_count_increase

  /** `search_count_increase`: 404 with no write for an unknown category;
      otherwise the category's counter is created at 0 when missing and
      then incremented, and no other counter changes. */
  function SearchCountIncrease(cats: seq<Category>, counts: map<nat, nat>, id: int)
    : (r: Result<(map<nat, nat>, nat), ViewError>)
    ensures r.Failure? <==> forall k :: 0 <= k < |cats| ==> cats[k].id as int != id
    ensures r.Failure? ==> r.error == NotFound
    ensures r.Success? ==> var (counts', n) := r.value;
      && id >= 0 && id as nat in counts'
      && counts'.Keys == counts.Keys + {id as nat}
      && n == counts'[id as nat]
      && n == (if id as nat in counts then counts[id as nat] else 0) + 1
      && forall c :: c in counts && c != id as nat ==> counts'[c] == counts[c]
  {
    if id < 0 then Failure(NotFound)
    else match KeyIndex(cats, id as nat, CategoryKey)
      case None => Failure(NotFound)
      case Some(_) =>
        var counts' := IncrementSearchCount(CreateSearchCount(counts, id as nat), id as nat);
        Success((counts', counts'[id as nat]))
  }

  /** Two hits on the same category add two. */
  lemma SearchCountIncreaseTwice(cats: seq<Category>, counts: map<nat, nat>, id: nat)
    requires exists k :: 0 <= k < |cats| && cats[k].id == id
    ensures var once := SearchCountIncrease(cats, counts, id);
      once.Success? && SearchCountIncrease(cats, once.value.0, id).Success?
      && SearchCountIncrease(cats, once.value.0, id).value.1 == (if id in counts then counts[id] else 0) + 2
  {
  }
}

=== FILE: tables.dfy ===
/**
  The few query-set primitives of the ORM that the marketplace logic uses,
  over a table modelled as a sequence of immutable rows in primary-key order:
  `filter(...)` (order-preserving selection), `filter(...).count()`,
  `filter(...).update(...)` (rewrite the selected rows, report how many were
  matched), slicing `[:n]`, and primary-key allocation.
 */
module Tables {
  import opened Wrappers

  /** `rows.filter(sel).count()`. */
  function Count<T>(rows: seq<T>, sel: T -> bool): (n: nat)
    ensures n <= |rows|
    ensures n == 0 <==> forall i :: 0 <= i < |rows| ==> !sel(rows[i])
  {
    if |rows| == 0 then 0
    else (if sel(rows[0]) then 1 else 0) + Count(rows[1..], sel)
  }

  /** Appending a row raises the count by that row's own contribution. */
  lemma {:induction false} CountSnoc<T>(rows: seq<T>, x: T, sel: T -> bool)
    ensures Count(rows + [x], sel) == Count(rows, sel) + (if sel(x) then 1 else 0)
  {
    if |rows| > 0 {
      assert (rows + [x])[1..] == rows[1..] + [x];
      CountSnoc(rows[1..], x, sel);
    } else {
      assert rows + [x] == [x];
    }
  }

  /** Two tables of the same length whose rows are selected alike have the
      same count. */
  lemma {:induction false} CountAgree<T>(a: seq<T>, b: seq<T>, sel: T -> bool)
    requires |a| == |b| && forall i :: 0 <= i < |a| ==> (sel(a[i]) <==> sel(b[i]))
    ensures Count(a, sel) == Count(b, sel)
  {
    if |a| > 0 {
      CountAgree(a[1..], b[1..], sel);
    }
  }

  /** `rows.filter(sel)`: the selected rows, in table order. */
  function Filter<T>(rows: seq<T>, sel: T -> bool): (r: seq<T>)
    ensures |r| == Count(rows, sel)
    ensures forall i :: 0 <= i < |r| ==> r[i] in rows && sel(r[i])
    ensures forall i :: 0 <= i < |rows| && sel(rows[i]) ==> rows[i] in r
  {
    if |rows| == 0 then []
    else if sel(rows[0]) then [rows[0]] + Filter(rows[1..], sel)
    else Filter(rows[1..], sel)
  }

  /** `rows.filter(sel).update(...)`: every selected row is replaced by its
      image under `f`, every other row is left as it was, and the table keeps
      its length and order. */
  function Update<T>(rows: seq<T>, sel: T -> bool, f: T -> T): (r: seq<T>)
    ensures |r| == |rows|
    ensures forall i :: 0 <= i < |rows| && sel(rows[i]) ==> r[i] == f(rows[i])
    ensures forall i :: 0 <= i < |rows| && !sel(rows[i]) ==> r[i] == rows[i]
  {
    if |rows| == 0 then []
    else [if sel(rows[0]) then f(rows[0]) else rows[0]] + Update(rows[1..], sel, f)
  }

  /** Position of the first row whose key is `k`, if any. */
  function KeyIndex<T>(rows: seq<T>, k: nat, key: T -> nat): (r: Option<nat>)
    ensures r.Some? ==> r.value < |rows| && key(rows[r.value]) == k
    ensures r.Some? ==> forall j :: 0 <= j < r.value ==> key(rows[j]) != k
    ensures r.None? <==> forall j :: 0 <= j < |rows| ==> key(rows[j]) != k
  {
    if |rows| == 0 then None
    else if key(rows[0]) == k then Some(0)
    else match KeyIndex(rows[1..], k, key)
      case None => None
      case Some(i) => Some(i + 1)
  }

  /** `row.save()`: an UPDATE of the row with the same primary key when there
      is one, an INSERT at the end of the table otherwise. */
  function Upsert<T>(rows: seq<T>, row: T, key: T -> nat): (r: seq<T>)
    ensures row in r
    ensures |r| == |rows| || (|r| == |rows| + 1 && r[|rows|] == row)
    ensures forall i :: 0 <= i < |rows| && key(rows[i]) != key(row) ==> r[i] == rows[i]
    ensures forall i :: 0 <= i < |r| ==> r[i] == row || (i < |rows| && r[i] == rows[i])
    ensures |r| == |rows| + 1 <==> forall i :: 0 <= i < |rows| ==> key(rows[i]) != key(row)
  {
    match KeyIndex(rows, key(row), key)
    case Some(i) =>
      var r := rows[i := row];
      assert r[i] == row;
      r
    case None =>
      var r := rows + [row];
      assert r[|rows|] == row;
      r
  }

  /** Saving a row under a key no row holds appends it. */
  lemma UpsertFresh<T>(rows: seq<T>, row: T, key: T -> nat)
    requires forall i :: 0 <= i < |rows| ==> key(rows[i]) != key(row)
    ensures Upsert(rows, row, key) == rows + [row]
  {
    var r := Upsert(rows, row, key);
    assert |r| == |rows| + 1;
    assert forall i :: 0 <= i < |r| ==> r[i] == (rows + [row])[i];
  }

  /** `queryset[:n]`. */
  function Take<T>(rows: seq<T>, n: nat): (r: seq<T>)
    ensures |r| == if |rows| < n then |rows| else n
    ensures forall i :: 0 <= i < |r| ==> r[i] == rows[i]
  {
    if |rows| <= n then rows else rows[..n]
  }

  /** The primary keys of a table, in table order. */
  function Keys<T>(rows: seq<T>, key: T -> nat): (ks: seq<nat>)
    ensures |ks| == |rows| && forall i :: 0 <= i < |rows| ==> ks[i] == key(rows[i])
  {
    seq(|rows|, i requires 0 <= i < |rows| => key(rows[i]))
  }

  /** No two rows share a key (a primary-key or unique column). */
  predicate UniqueKeys<T>(rows: seq<T>, key: T -> nat) {
    forall i, j :: 0 <= i < j < |rows| ==> key(rows[i]) != key(rows[j])
  }

  /** Appending a row under a key not in use keeps keys unique. */
  lemma AppendFreshKeepsUnique<T>(rows: seq<T>, x: T, key: T -> nat)
    requires UniqueKeys(rows, key) && key(x) !in Keys(rows, key)
    ensures UniqueKeys(rows + [x], key)
  {
    var r := rows + [x];
    forall i, j | 0 <= i < j < |r| ensures key(r[i]) != key(r[j]) {
      if j == |rows| {
        assert Keys(rows, key)[i] == key(rows[i]);
      }
    }
  }

  /** A primary key larger than every key in use (an auto-increment column). */
  function FreshKey(keys: seq<nat>): (k: nat)
    ensures k >= 1
    ensures forall i :: 0 <= i < |keys| ==> keys[i] < k
  {
    if |keys| == 0 then 1
    else
      var rest := FreshKey(keys[1..]);
      if keys[0] < rest then rest else keys[0] + 1
  }
}

=== FILE: text.dfy ===
/**
  The handful of Python string operations the marketplace logic relies on:
  `str.strip()`, `str.split(",")`, `", ".join(...)`, `int(...)` on request
  parameters, the `"{:,}"` thousands grouping used by the admin columns, and
  `str.upper()` on error codes.
 */
module Text {
  import opened Wrappers

  /** Characters for which Python's `str.isspace()` holds; `str.strip()` with
      no argument removes exactly these from both ends. */
  predicate IsSpace(c: char) {
    || c == ' '
    || ('\t' <= c <= '\r')
    || ('\U{1C}' <= c <= '\U{1F}')
    || c == '\U{85}' || c == '\U{A0}' || c == '\U{1680}'
    || ('\U{2000}' <= c <= '\U{200A}')
    || c == '\U{2028}' || c == '\U{2029}' || c == '\U{202F}'
    || c == '\U{205F}' || c == '\U{3000}'
  }

  predicate IsBlank(s: string) {
    forall k :: 0 <= k < |s| ==> IsSpace(s[k])
  }

  /** Number of whitespace characters at the front of `s`. */
  function LeadingSpaces(s: string): (n: nat)
    ensures n <= |s|
    ensures forall k :: 0 <= k < n ==> IsSpace(s[k])
    ensures n < |s| ==> !IsSpace(s[n])
  {
    if |s| == 0 || !IsSpace(s[0]) then 0 else 1 + LeadingSpaces(s[1..])
  }

  /** Number of whitespace characters at the back of `s`. */
  function TrailingSpaces(s: string): (n: nat)
    ensures n <= |s|
    ensures forall k :: |s| - n <= k < |s| ==> IsSpace(s[k])
    ensures n < |s| ==> !IsSpace(s[|s| - n - 1])
  {
    if |s| == 0 || !IsSpace(s[|s| - 1]) then 0 else 1 + TrailingSpaces(s[..|s| - 1])
  }

  /** Python's `s.strip()`: the longest middle slice of `s` that neither
      starts nor ends with whitespace. */
  function Strip(s: string): (r: string)
    ensures LeadingSpaces(s) + |r| <= |s|
    ensures r == s[LeadingSpaces(s)..LeadingSpaces(s) + |r|]
    ensures forall k :: LeadingSpaces(s) + |r| <= k < |s| ==> IsSpace(s[k])
    ensures r == [] || (!IsSpace(r[0]) && !IsSpace(r[|r| - 1]))
    ensures r == [] <==> IsBlank(s)
  {
    var t := s[LeadingSpaces(s)..];
    t[..|t| - TrailingSpaces(t)]
  }

  /** Stripping a string with no whitespace at either end leaves it alone. */
  lemma StripUnpadded(s: string)
    requires s == [] || (!IsSpace(s[0]) && !IsSpace(s[|s| - 1]))
    ensures Strip(s) == s
  {
  }

  /** Position of the first occurrence of `c` in `s`. */
  function IndexOf(s: string, c: char): (i: nat)
    requires c in s
    ensures i < |s| && s[i] == c && c !in s[..i]
  {
    if s[0] == c then 0 else 1 + IndexOf(s[1..], c)
  }

  /** `IndexOf` finds the first occurrence and no other. */
  lemma {:induction false} IndexOfAt(s: string, c: char, i: nat)
    requires i < |s| && s[i] == c && c !in s[..i]
    ensures IndexOf(s, c) == i
  {
    if i > 0 {
      assert s[0] == s[..i][0];
      assert s[1..][..i - 1] == s[..i][1..];
      IndexOfAt(s[1..], c, i - 1);
    }
  }

  /** Unfolds one step of `Split` at the first separator, position `i`. */
  lemma SplitAt(s: string, sep: char, i: nat)
    requires i < |s| && s[i] == sep && sep !in s[..i]
    ensures Split(s, sep) == [s[..i]] + Split(s[i + 1..], sep)
  {
    IndexOfAt(s, sep, i);
  }

  /** Splitting at a separator between two strings splits each side on its
      own. */
  lemma {:induction false} SplitConcat(x: string, y: string, sep: char)
    ensures Split(x + [sep] + y, sep) == Split(x, sep) + Split(y, sep)
    decreases |x|
  {
    if sep !in x {
      SplitConcatLast(x, y, sep);
    } else {
      var t := x[IndexOf(x, sep) + 1..];
      SplitConcat(t, y, sep);
      SplitConcatStep(x, y, sep);
    }
  }

  /** The inductive step of `SplitConcat`: the claim for `x` follows from
      the claim for what follows `x`'s first separator. */
  lemma SplitConcatStep(x: string, y: string, sep: char)
    requires sep in x
    requires var t := x[IndexOf(x, sep) + 1..];
      Split(t + [sep] + y, sep) == Split(t, sep) + Split(y, sep)
    ensures Split(x + [sep] + y, sep) == Split(x, sep) + Split(y, sep)
  {
    var i := IndexOf(x, sep);
    var t := x[i + 1..];
    SplitConcatFirst(x, y, sep);
    Regroup(Split(x + [sep] + y, sep), Split(x, sep), [x[..i]], Split(t, sep), Split(y, sep));
  }

  lemma Regroup<T>(whole: seq<T>, front: seq<T>, head: seq<T>, a: seq<T>, b: seq<T>)
    requires whole == head + (a + b) && front == head + a
    ensures whole == front + b
  {
  }

  /** `SplitConcat` when `x` holds no separator: `x` is the first piece. */
  lemma SplitConcatLast(x: string, y: string, sep: char)
    requires sep !in x
    ensures Split(x + [sep] + y, sep) == [x] + Split(y, sep)
  {
    var s := x + [sep] + y;
    assert s[..|x|] == x;
    SplitAt(s, sep, |x|);
    assert s[|x| + 1..] == y;
  }

  /** `SplitConcat` when `x` holds a separator: both splits start with the
      same first piece. */
  lemma SplitConcatFirst(x: string, y: string, sep: char)
    requires sep in x
    ensures var i := IndexOf(x, sep);
      && Split(x + [sep] + y, sep) == [x[..i]] + Split(x[i + 1..] + [sep] + y, sep)
      && Split(x, sep) == [x[..i]] + Split(x[i + 1..], sep)
  {
    var s := x + [sep] + y;
    var i := IndexOf(x, sep);
    assert s[..i] == x[..i];
    assert s[i + 1..] == x[i + 1..] + [sep] + y;
    SplitAt(s, sep, i);
  }

  /** A character absent from a string is absent from each of its slices. */
  lemma AbsentFromSlice(s: string, c: char, i: nat, j: nat)
    requires c !in s && i <= j <= |s|
    ensures c !in s[i..j]
  {
  }

  /** Python's `s.split(sep)` for a one-character separator. Like Python it
      never returns an empty list: `"".split(",")` is `[""]`. */
  function Split(s: string, sep: char): (parts: seq<string>)
    ensures |parts| >= 1
    ensures forall p :: p in parts ==> sep !in p
    decreases |s|
  {
    if sep !in s then [s]
    else
      var i := IndexOf(s, sep);
      [s[..i]] + Split(s[i + 1..], sep)
  }

  /** Python's `sep.join(parts)`. */
  function Join(parts: seq<string>, sep: string): string {
    if |parts| == 0 then ""
    else if |parts| == 1 then parts[0]
    else parts[0] + sep + Join(parts[1..], sep)
  }

  /** Joining the pieces of a split with the same separator gives back the
      original string. */
  lemma {:induction false} JoinSplit(s: string, sep: char)
    ensures Join(Split(s, sep), [sep]) == s
    decreases |s|
  {
    if sep in s {
      var i := IndexOf(s, sep);
      var rest := s[i + 1..];
      JoinSplit(rest, sep);
      var tail := Split(rest, sep);
      assert Split(s, sep) == [s[..i]] + tail;
      JoinCons(s[..i], tail, [sep]);
      assert s == s[..i] + [sep] + rest;
    }
  }

  /** Joining a piece in front of a non-empty list puts one separator
      between them. */
  lemma JoinCons(p: string, tail: seq<string>, sep: string)
    requires |tail| >= 1
    ensures Join([p] + tail, sep) == p + sep + Join(tail, sep)
  {
    assert ([p] + tail)[1..] == tail;
  }

  /** Splitting a join of separator-free pieces gives back the pieces. */
  lemma {:induction false} SplitJoin(parts: seq<string>, sep: char)
    requires |parts| >= 1
    requires forall p :: p in parts ==> sep !in p
    ensures Split(Join(parts, [sep]), sep) == parts
  {
    if |parts| > 1 {
      SplitJoinStep(parts, sep);
      SplitJoin(parts[1..], sep);
      assert parts == [parts[0]] + parts[1..];
    }
  }

  /** One step of `SplitJoin`: the split stops at the separator that follows
      the first piece. */
  lemma SplitJoinStep(parts: seq<string>, sep: char)
    requires |parts| > 1
    requires sep !in parts[0]
    ensures Split(Join(parts, [sep]), sep) == [parts[0]] + Split(Join(parts[1..], [sep]), sep)
  {
    var s := Join(parts, [sep]);
    var rest := Join(parts[1..], [sep]);
    assert s == parts[0] + [sep] + rest;
    assert s[|parts[0]|] == sep;
    assert s[..|parts[0]|] == parts[0];
    IndexOfAt(s, sep, |parts[0]|);
    assert s[|parts[0]| + 1..] == rest;
  }

  // ---------------------------------------------------------------------
  // Decimal integers

  predicate IsDigit(c: char) {
    '0' <= c <= '9'
  }

  predicate AllDigits(s: string) {
    forall k :: 0 <= k < |s| ==> IsDigit(s[k])
  }

  function DigitChar(d: nat): (c: char)
    requires d < 10
    ensures IsDigit(c)
  {
    ('0' as int + d) as char
  }

  function DigitValue(c: char): (d: nat)
    requires IsDigit(c)
    ensures d < 10
  {
    c as int - '0' as int
  }

  /** Python's `str(n)` for a non-negative integer: decimal digits, no
      leading zero. */
  function ShowNat(n: nat): (s: string)
    ensures |s| >= 1 && AllDigits(s)
    ensures |s| > 1 ==> s[0] != '0'
  {
    if n < 10 then [DigitChar(n)] else ShowNat(n / 10) + [DigitChar(n % 10)]
  }

  /** Value of a string of decimal digits (leading zeros allowed). */
  function DigitsValue(s: string): nat
    requires AllDigits(s)
  {
    if |s| == 0 then 0 else DigitsValue(s[..|s| - 1]) * 10 + DigitValue(s[|s| - 1])
  }

  lemma {:induction false} DigitsValueShowNat(n: nat)
    ensures DigitsValue(ShowNat(n)) == n
  {
    if n >= 10 {
      var s := ShowNat(n);
      assert s[..|s| - 1] == ShowNat(n / 10);
      DigitsValueShowNat(n / 10);
    }
  }

  /** Distinct numbers print differently. */
  lemma ShowNatInjective(a: nat, b: nat)
    requires a != b
    ensures ShowNat(a) != ShowNat(b)
  {
    DigitsValueShowNat(a);
    DigitsValueShowNat(b);
  }

  /** Python's `str(i)` for any integer. */
  function ShowInt(i: int): string {
    if i < 0 then "-" + ShowNat(-i) else ShowNat(i)
  }

  /** Python's `int(s)` on a string, restricted to ASCII: surrounding
      whitespace is ignored, then an optional sign and one or more decimal
      digits must make up the rest; anything else raises `ValueError`
      (here: `None`). */
  function ParseInt(s: string): (r: Option<int>)
    ensures r.Some? ==> Strip(s) != []
  {
    var t := Strip(s);
    if |t| > 0 && (t[0] == '+' || t[0] == '-') then
      var body := t[1..];
      if |body| > 0 && AllDigits(body) then
        var v: int := DigitsValue(body);
        Some(if t[0] == '-' then -v else v)
      else None
    else if |t| > 0 && AllDigits(t) then Some(DigitsValue(t))
    else None
  }

  /** `int(str(i)) == i`. */
  lemma ParseShowInt(i: int)
    ensures ParseInt(ShowInt(i)) == Some(i)
  {
    if i < 0 {
      ParseShowNegative(i);
    } else {
      ParseShowNat(i);
    }
  }

  lemma ParseShowNegative(i: int)
    requires i < 0
    ensures ParseInt(ShowInt(i)) == Some(i)
  {
    var n: nat := -i;
    var d := ShowNat(n);
    var s := ShowInt(i);
    assert s == ['-'] + d;
    assert s[1..] == d;
    assert IsDigit(s[|s| - 1]);
    StripUnpadded(s);
    ParseMinus(s);
    DigitsValueShowNat(n);
    SameDigitsValue(s[1..], d);
  }

  /** An unpadded minus sign followed by digits parses to the negated
      value of the digits. */
  lemma ParseMinus(t: string)
    requires Strip(t) == t && |t| > 1 && t[0] == '-' && AllDigits(t[1..])
    ensures ParseInt(t) == Some(-(DigitsValue(t[1..]) as int))
  {
  }

  lemma SameDigitsValue(a: string, b: string)
    requires a == b && AllDigits(a)
    ensures DigitsValue(a) == DigitsValue(b)
  {
  }

  lemma ParseShowNat(i: nat)
    ensures ParseInt(ShowInt(i)) == Some(i)
  {
    var s := ShowInt(i);
    DigitsValueShowNat(i);
    assert IsDigit(s[0]) && IsDigit(s[|s| - 1]);
    StripUnpadded(s);
  }

  // ---------------------------------------------------------------------
  // Thousands grouping

  /** Inserts a comma before every group of three digits counted from the
      right. */
  function GroupDigits(s: string): string
    decreases |s|
  {
    if |s| <= 3 then s else GroupDigits(s[..|s| - 3]) + "," + s[|s| - 3..]
  }

  /** Python's `f"{n:,}"` for a non-negative integer. */
  function WithCommas(n: nat): string {
    GroupDigits(ShowNat(n))
  }

  /** `s` with every occurrence of `c` deleted. */
  function Remove(s: string, c: char): (r: string)
    ensures c !in r
    ensures |r| <= |s|
  {
    if |s| == 0 then ""
    else if s[0] == c then Remove(s[1..], c)
    else [s[0]] + Remove(s[1..], c)
  }

  lemma {:induction false} RemoveAppend(a: string, b: string, c: char)
    ensures Remove(a + b, c) == Remove(a, c) + Remove(b, c)
    decreases |a|
  {
    if |a| > 0 {
      assert (a + b)[1..] == a[1..] + b;
      RemoveAppend(a[1..], b, c);
    } else {
      assert a + b == b;
    }
  }

  lemma {:induction false} RemoveAbsent(s: string, c: char)
    requires c !in s
    ensures Remove(s, c) == s
    decreases |s|
  {
    if |s| > 0 {
      RemoveAbsent(s[1..], c);
    }
  }

  /** Deleting the commas of a grouped number gives back its digits. */
  lemma {:induction false} GroupDigitsRemoveCommas(s: string)
    requires ',' !in s
    ensures Remove(GroupDigits(s), ',') == s
    decreases |s|
  {
    if |s| <= 3 {
      RemoveAbsent(s, ',');
    } else {
      var hi := s[..|s| - 3];
      AbsentFromSlice(s, ',', 0, |s| - 3);
      assert s[0..|s| - 3] == hi;
      GroupDigitsRemoveCommas(hi);
      RemoveCommasStep(s);
      assert hi + s[|s| - 3..] == s;
    }
  }

  /** One step of `GroupDigitsRemoveCommas`: the last group comes back
      whole and the comma before it goes. */
  lemma RemoveCommasStep(s: string)
    requires ',' !in s && |s| > 3
    ensures Remove(GroupDigits(s), ',') == Remove(GroupDigits(s[..|s| - 3]), ',') + s[|s| - 3..]
  {
    var hi := s[..|s| - 3];
    var lo := s[|s| - 3..];
    var g := GroupDigits(hi);
    AbsentFromSlice(s, ',', |s| - 3, |s|);
    assert s[|s| - 3..|s|] == lo;
    assert GroupDigits(s) == g + "," + lo;
    RemoveAppend(g + ",", lo, ',');
    RemoveAppend(g, ",", ',');
    RemoveAbsent(lo, ',');
    assert Remove(",", ',') == "";
    DropEmpty(Remove(g + "," + lo, ','), Remove(g + ",", ','), Remove(g, ','), Remove(",", ','), lo);
  }

  /** `w == (a + e) + b` with `e` empty is `a + b`. */
  lemma DropEmpty<T>(w: seq<T>, m: seq<T>, a: seq<T>, e: seq<T>, b: seq<T>)
    requires w == m + b && m == a + e && e == []
    ensures w == a + b
  {
  }

  /** The groups of three digits, counted from the right, that
      `GroupDigits` separates with commas. */
  function Groups(s: string): (gs: seq<string>)
    requires |s| >= 1
    ensures |gs| >= 1
    ensures 1 <= |gs[0]| <= 3
    ensures forall k :: 1 <= k < |gs| ==> |gs[k]| == 3
    decreases |s|
  {
    if |s| <= 3 then [s] else Groups(s[..|s| - 3]) + [s[|s| - 3..]]
  }

  lemma {:induction false} JoinSnoc(xs: seq<string>, y: string, sep: string)
    requires |xs| >= 1
    ensures Join(xs + [y], sep) == Join(xs, sep) + sep + y
  {
    if |xs| > 1 {
      assert (xs + [y])[1..] == xs[1..] + [y];
      JoinSnoc(xs[1..], y, sep);
    }
  }

  /** A grouped digit string is its groups joined by commas. */
  lemma {:induction false} GroupDigitsJoin(s: string)
    requires |s| >= 1
    ensures GroupDigits(s) == Join(Groups(s), ",")
    decreases |s|
  {
    if |s| > 3 {
      GroupDigitsJoin(s[..|s| - 3]);
      JoinSnoc(Groups(s[..|s| - 3]), s[|s| - 3..], ",");
    }
  }

  /** Splitting a grouped digit string at its commas gives back its groups:
      a leading group of one to three digits, then groups of exactly three. */
  lemma GroupDigitsShape(s: string)
    requires ',' !in s && |s| >= 1
    ensures Split(GroupDigits(s), ',') == Groups(s)
  {
    var gs := Groups(s);
    GroupDigitsJoin(s);
    forall g | g in gs
      ensures ',' !in g
    {
      GroupsAreSlices(s, g);
    }
    SplitJoin(gs, ',');
  }

  /** Every group is a slice of the digit string it came from. */
  lemma {:induction false} GroupsAreSlices(s: string, g: string)
    requires |s| >= 1 && g in Groups(s)
    ensures exists i, j :: 0 <= i <= j <= |s| && g == s[i..j]
    decreases |s|
  {
    if |s| > 3 {
      var hi := s[..|s| - 3];
      if g in Groups(hi) {
        GroupsAreSlices(hi, g);
        var i, j :| 0 <= i <= j <= |hi| && g == hi[i..j];
        assert g == s[i..j];
      } else {
        assert g == s[|s| - 3..|s|];
      }
    } else {
      assert g == s[0..|s|];
    }
  }

  lemma DigitsHaveNoComma(d: string)
    requires AllDigits(d)
    ensures ',' !in d
  {
  }

  /** Reading the digits of `WithCommas(n)` back, ignoring the commas, gives
      `n`. */
  lemma WithCommasValue(n: nat)
    ensures AllDigits(Remove(WithCommas(n), ','))
    ensures DigitsValue(Remove(WithCommas(n), ',')) == n
    ensures Remove(WithCommas(n), ',') == ShowNat(n)
  {
    var d := ShowNat(n);
    DigitsHaveNoComma(d);
    GroupDigitsRemoveCommas(d);
    DigitsValueShowNat(n);
  }

  /** A grouped digit string holds only digits and commas. */
  lemma {:induction false} GroupDigitsChars(s: string)
    requires AllDigits(s)
    ensures forall k :: 0 <= k < |GroupDigits(s)| ==> IsDigit(GroupDigits(s)[k]) || GroupDigits(s)[k] == ','
    decreases |s|
  {
    if |s| > 3 {
      var hi := s[..|s| - 3];
      GroupDigitsChars(hi);
      var g := GroupDigits(s);
      assert g == GroupDigits(hi) + "," + s[|s| - 3..];
      forall k | 0 <= k < |g| ensures IsDigit(g[k]) || g[k] == ',' {
        if k < |GroupDigits(hi)| {
          assert g[k] == GroupDigits(hi)[k];
        } else if k > |GroupDigits(hi)| {
          assert g[k] == s[|s| - 3 + (k - |GroupDigits(hi)| - 1)];
        }
      }
    }
  }

  /** `WithCommas(n)` holds only digits and commas, so no space. */
  lemma WithCommasChars(n: nat)
    ensures forall k :: 0 <= k < |WithCommas(n)| ==> IsDigit(WithCommas(n)[k]) || WithCommas(n)[k] == ','
    ensures ' ' !in WithCommas(n) && |WithCommas(n)| >= 1
  {
    GroupDigitsChars(ShowNat(n));
    assert |GroupDigits(ShowNat(n))| >= 1 by {
      GroupDigitsJoin(ShowNat(n));
      if |ShowNat(n)| > 3 {
        assert GroupDigits(ShowNat(n)) == GroupDigits(ShowNat(n)[..|ShowNat(n)| - 3]) + "," + ShowNat(n)[|ShowNat(n)| - 3..];
      }
    }
  }

  // ---------------------------------------------------------------------
  // Case

  function UpperChar(c: char): char {
    if 'a' <= c <= 'z' then (c as int - 32) as char else c
  }

  /** Python's `str.upper()` restricted to ASCII: each of `a`..`z` becomes
      its capital `A`..`Z`, and every other character is kept. */
  function Upper(s: string): (r: string)
    ensures |r| == |s|
    ensures forall k :: 0 <= k < |s| && 'a' <= s[k] <= 'z' ==> r[k] == (s[k] as int - 32) as char && 'A' <= r[k] <= 'Z'
    ensures forall k :: 0 <= k < |s| && !('a' <= s[k] <= 'z') ==> r[k] == s[k]
    ensures forall k :: 0 <= k < |s| ==> !('a' <= r[k] <= 'z')
  {
    seq(|s|, k requires 0 <= k < |s| => UpperChar(s[k]))
  }

  /** Upper-casing twice is upper-casing once. */
  lemma UpperIdempotent(s: string)
    ensures Upper(Upper(s)) == Upper(s)
  {
    var u := Upper(s);
    assert forall k :: 0 <= k < |u| ==> Upper(u)[k] == u[k];
  }
}

=== FILE: users.dfy ===
/**
  The account model (apps/accounts/models.py) and its manager
  (apps/accounts/managers.py): the phone-number validator, the field
  defaults, the string forms, and `create_user` / `create_superuser` over a
  user table kept in primary-key order.
 */
module Users {
  import opened Wrappers
  import opened Text
  import opened Tables

  datatype AccountStatus = Pending | Approved | Rejected

  /** A user. `role` is the stored text of the role column; `password` is
      the password set through `set_password`, `None` when none was set. */
  datatype User = User(
    id: nat, fullName: string, phone: string, password: Option<string>,
    role: string, status: AccountStatus, isActive: bool, isStaff: bool,
    isSuperuser: bool, projectName: Option<string>, category: Option<nat>)

  // ---------------------------------------------------------------------
  // The phone validator: `^\+998\d{9}$` and `max_length=13`

  /** One element of a regular expression without alternation or
      repetition: a literal character or `\d`. */
  datatype Atom = Lit(c: char) | Digit

  predicate AtomMatches(a: Atom, c: char) {
    match a
    case Lit(x) => c == x
    case Digit => IsDigit(c)
  }

  /** `\+998\d{9}` spelled out atom by atom. */
  const PhoneAtoms: seq<Atom> :=
    [Lit('+'), Lit('9'), Lit('9'), Lit('8'), Digit, Digit, Digit, Digit, Digit, Digit, Digit, Digit, Digit]

  /** Matches `atoms` at the start of `s`; the position where the match
      ends. */
  function MatchPrefix(atoms: seq<Atom>, s: string): (r: Option<nat>)
    ensures r.Some? <==> |atoms| <= |s| && forall i :: 0 <= i < |atoms| ==> AtomMatches(atoms[i], s[i])
    ensures r.Some? ==> r.value == |atoms|
  {
    if |atoms| == 0 then Some(0)
    else if |s| > 0 && AtomMatches(atoms[0], s[0]) then
      match MatchPrefix(atoms[1..], s[1..])
      case None => None
      case Some(n) => Some(n + 1)
    else None
  }

  /** Python's `$` without the MULTILINE flag: the end of the string, or
      just before a newline that ends it. */
  predicate AtEnd(s: string, pos: nat) {
    pos == |s| || (pos + 1 == |s| && s[pos] == '\n')
  }

  /** `RegexValidator(r"^\+998\d{9}$")`: `^` pins the match to the start. */
  predicate PhoneRegex(s: string) {
    var m := MatchPrefix(PhoneAtoms, s);
    m.Some? && AtEnd(s, m.value)
  }

  /** The validators of the `phone_number` column: the pattern and
      `max_length=13`. */
  predicate PhoneValid(s: string) {
    |s| <= 13 && PhoneRegex(s)
  }

  /** A phone number passes the column's validators exactly when it is
      "+998" followed by nine digits. */
  lemma PhoneValidIff(s: string)
    ensures PhoneValid(s) <==> |s| == 13 && s[..4] == "+998" && AllDigits(s[4..])
  {
    if |s| == 13 && s[..4] == "+998" && AllDigits(s[4..]) {
      assert forall i :: 4 <= i < 13 ==> s[i] == s[4..][i - 4];
      assert forall i :: 0 <= i < 4 ==> s[i] == "+998"[i];
    }
    if PhoneValid(s) {
      assert |s| == 13;
      assert forall i :: 0 <= i < 9 ==> s[4..][i] == s[i + 4] && AtomMatches(PhoneAtoms[i + 4], s[i + 4]);
    }
  }

  /** The pattern alone also accepts a trailing newline; the length limit
      is what rejects it. */
  lemma TrailingNewline()
    ensures PhoneRegex("+998901234567\n")
    ensures !PhoneValid("+998901234567\n")
  {
    var s := "+998901234567\n";
    assert forall i :: 0 <= i < |PhoneAtoms| ==> AtomMatches(PhoneAtoms[i], s[i]);
  }

  /** A seller's address, linked one-to-one to its user. Coordinates are
      stored without logic and are not modelled. */
  datatype Address = Address(user: nat, name: string)

  // ---------------------------------------------------------------------
  // Roles, defaults and string forms

  const DefaultRole := "customer"

  /** `ROLE_CHOICES` as written: the default role is not among them. */
  const RoleChoicesAsWritten: seq<string> := ["super_admin", "admin", "seller"]

  /** The role choices with the customer role the rest of the code assigns. */
  const RoleChoices: seq<string> := ["super_admin", "admin", "seller", "customer"]

  datatype ChoiceError = NotAValidChoice(value: string)

  /** Form and model validation of a choice field. */
  function CleanChoice(value: string, choices: seq<string>): (r: Result<string, ChoiceError>)
    ensures r.Success? <==> value in choices
    ensures r.Success? ==> r.value == value
  {
    if value in choices then Success(value) else Failure(NotAValidChoice(value))
  }

  /** The admin's user change form validating the role of `u` against the
      choices as written. */
  function ChangeFormRoleAsWritten(u: User): Result<string, ChoiceError> {
    CleanChoice(u.role, RoleChoicesAsWritten)
  }

  /** The same with the customer role among the choices. */
  function ChangeFormRole(u: User): Result<string, ChoiceError> {
    CleanChoice(u.role, RoleChoices)
  }

  /** As written, every user left with the default role (every registered
      customer) fails the change form's role check; with the customer
      role among the choices, every role the code assigns passes. */
  lemma DefaultRoleRejected(u: User)
    requires u.role == DefaultRole
    ensures ChangeFormRoleAsWritten(u).Failure?
    ensures ChangeFormRole(u) == Success(DefaultRole)
  {
  }

  lemma AssignedRolesAccepted(u: User)
    requires u.role in {"customer", "seller", "super_admin"}
    ensures ChangeFormRole(u).Success?
  {
  }

  /** The columns `create_user` may be given besides phone and name; a
      missing entry takes the column default. */
  datatype Extras = Extras(
    role: Option<string>, status: Option<AccountStatus>, isActive: Option<bool>,
    isStaff: Option<bool>, isSuperuser: Option<bool>,
    projectName: Option<string>, category: Option<nat>)

  const NoExtras := Extras(None, None, None, None, None, None, None)

  /** `User(phone_number=..., full_name=..., **extra)` with the column
      defaults: role "customer", status pending, active, not staff. */
  function NewUser(id: nat, phone: string, fullName: string, password: Option<string>, e: Extras): (u: User)
    ensures u.id == id && u.phone == phone && u.fullName == fullName && u.password == password
    ensures e.role.None? ==> u.role == DefaultRole
    ensures e.status.None? ==> u.status == Pending
    ensures e.isActive.None? ==> u.isActive
    ensures e.isStaff.None? ==> !u.isStaff
    ensures e.isSuperuser.None? ==> !u.isSuperuser
    ensures e.role.Some? ==> u.role == e.role.value
    ensures e.status.Some? ==> u.status == e.status.value
    ensures e.isActive.Some? ==> u.isActive == e.isActive.value
    ensures e.isStaff.Some? ==> u.isStaff == e.isStaff.value
    ensures e.isSuperuser.Some? ==> u.isSuperuser == e.isSuperuser.value
    ensures u.projectName == e.projectName && u.category == e.category
  {
    User(id, fullName, phone, password,
         e.role.GetOr(DefaultRole), e.status.GetOr(Pending), e.isActive.GetOr(true),
         e.isStaff.GetOr(false), e.isSuperuser.GetOr(false), e.projectName, e.category)
  }

  /** `User.is_seller`. */
  predicate IsSeller(u: User) {
    u.role == "seller"
  }

  /** `str(user)`: the name followed by the phone in parentheses. */
  function UserStr(u: User): string {
    u.fullName + " (" + u.phone + ")"
  }

  /** Phone numbers have a fixed length, so `str(user)` of users with valid
      phones tells both the name and the phone apart. */
  lemma UserStrInjective(u: User, v: User)
    requires PhoneValid(u.phone) && PhoneValid(v.phone)
    requires UserStr(u) == UserStr(v)
    ensures u.fullName == v.fullName && u.phone == v.phone
  {
    PhoneValidIff(u.phone);
    PhoneValidIff(v.phone);
    var s := UserStr(u);
    assert |u.fullName| == |v.fullName|;
    assert s[..|u.fullName|] == u.fullName;
    assert UserStr(v)[..|v.fullName|] == v.fullName;
    assert s[|u.fullName| + 2..|s| - 1] == u.phone;
    assert UserStr(v)[|v.fullName| + 2..|s| - 1] == v.phone;
  }

  /** `str(address)`: the address name, " - ", the owner's full name. */
  function AddressStr(name: string, ownerName: string): (r: string)
    ensures |r| == |name| + 3 + |ownerName|
    ensures r[..|name|] == name && r[|name|..|name| + 3] == " - " && r[|name| + 3..] == ownerName
  {
    name + " - " + ownerName
  }

  /** `s` holds the separator " - " at position `k`. */
  predicate SepAt(s: string, k: nat) {
    k + 3 <= |s| && s[k..k + 3] == " - "
  }

  /** The first position at or after `from` where `s` holds " - ". */
  function FindSep(s: string, from: nat): (r: Option<nat>)
    ensures r.Some? ==> from <= r.value && SepAt(s, r.value)
    ensures r.Some? ==> forall k :: from <= k < r.value ==> !SepAt(s, k)
    ensures r.None? ==> forall k :: from <= k ==> !SepAt(s, k)
    decreases |s| - from
  {
    if from + 3 > |s| then None
    else if SepAt(s, from) then Some(from)
    else FindSep(s, from + 1)
  }

  /** Reading an address string back: the text before the first " - " is
      the address name, the rest the owner's name. */
  function ReadAddressStr(s: string): Option<(string, string)> {
    match FindSep(s, 0)
    case None => None
    case Some(k) => Some((s[..k], s[k + 3..]))
  }

  /** The name is the only place a separator could start before the one
      `str(address)` adds: the name holds no " - " and does not end in " -". */
  predicate NoSepInName(name: string) {
    forall k :: 0 <= k < |name| ==> !SepAt(name + " - ", k)
  }

  /** `str(address)` reads back to the name and the owner's name whenever
      no separator starts inside the name. Without that condition it does
      not: see `AddressStrAmbiguous`. */
  lemma AddressStrReadsBack(name: string, ownerName: string)
    requires NoSepInName(name)
    ensures ReadAddressStr(AddressStr(name, ownerName)) == Some((name, ownerName))
  {
    var s := AddressStr(name, ownerName);
    assert SepAt(s, |name|);
    forall k | 0 <= k < |name| ensures !SepAt(s, k) {
      assert !SepAt(name + " - ", k);
      assert s[k..k + 3] == (name + " - ")[k..k + 3];
    }
    var r := FindSep(s, 0);
    assert r.Some? && r.value == |name|;
  }

  /** A name ending in " -" makes `str(address)` ambiguous. */
  lemma AddressStrAmbiguous()
    ensures AddressStr("a -", "b") == AddressStr("a", "- b")
    ensures !NoSepInName("a -")
  {
    assert SepAt("a -" + " - ", 1);
  }

  // ---------------------------------------------------------------------
  // The manager

  datatype ManagerError = MissingPhone | MissingFullName | StaffRequired | SuperuserRequired | IntegrityError

  /** No two users share a phone number (the column is unique). */
  predicate UniquePhones(users: seq<User>) {
    forall i, j :: 0 <= i < j < |users| ==> users[i].phone != users[j].phone
  }

  predicate PhoneTaken(users: seq<User>, phone: string) {
    exists i :: 0 <= i < |users| && users[i].phone == phone
  }

  function UserKey(u: User): nat { u.id }

  /** Inserting a user row: the unique phone column refuses a phone already
      held. */
  function InsertUser(users: seq<User>, u: User): (r: Result<seq<User>, ManagerError>)
    ensures r.Failure? <==> PhoneTaken(users, u.phone)
    ensures r.Failure? ==> r.error == IntegrityError
    ensures r.Success? ==> r.value == users + [u]
    ensures r.Success? && UniquePhones(users) ==> UniquePhones(r.value)
  {
    if PhoneTaken(users, u.phone) then Failure(IntegrityError) else Success(users + [u])
  }

  /** `UserManager.create_user`: an empty phone is refused first, then an
      empty name; otherwise the new row carries exactly the given phone,
      name, password and extra columns, under a fresh id. */
  function CreateUser(users: seq<User>, phone: string, fullName: string, password: Option<string>, e: Extras)
    : (r: Result<(seq<User>, User), ManagerError>)
    ensures phone == "" ==> r == Failure(MissingPhone)
    ensures phone != "" && fullName == "" ==> r == Failure(MissingFullName)
    ensures phone != "" && fullName != "" ==> (r.Failure? <==> PhoneTaken(users, phone))
    ensures r.Success? ==> var (users', u) := r.value;
      && users' == users + [u]
      && u == NewUser(u.id, phone, fullName, password, e)
      && forall i :: 0 <= i < |users| ==> users[i].id != u.id
    ensures r.Success? && UniquePhones(users) ==> UniquePhones(r.value.0)
  {
    if phone == "" then Failure(MissingPhone)
    else if fullName == "" then Failure(MissingFullName)
    else
      var u := NewUser(FreshKey(Keys(users, UserKey)), phone, fullName, password, e);
      match InsertUser(users, u)
      case Failure(err) => Failure(err)
      case Success(users') => Success((users', u))
  }

  /** The extras `create_superuser` passes on: staff, superuser and the
      super-admin role unless the caller chose otherwise. */
  function SuperuserExtras(e: Extras): (f: Extras)
    ensures f.isStaff == Some(e.isStaff.GetOr(true))
    ensures f.isSuperuser == Some(e.isSuperuser.GetOr(true))
    ensures f.role == Some(e.role.GetOr("super_admin"))
    ensures f.(isStaff := e.isStaff, isSuperuser := e.isSuperuser, role := e.role) == e
  {
    e.(isStaff := Some(e.isStaff.GetOr(true)),
       isSuperuser := Some(e.isSuperuser.GetOr(true)),
       role := Some(e.role.GetOr("super_admin")))
  }

  /** An optional flag defaulted to true is true unless it was false. */
  lemma DefaultTrue(b: Option<bool>)
    ensures Some(b.GetOr(true)) == Some(true) <==> b != Some(false)
  {
    match b
    case None =>
    case Some(v) =>
  }

  /** `UserManager.create_superuser`: refuses a caller-supplied `is_staff`
      or `is_superuser` that is not true (staff checked first), and
      otherwise creates a staff superuser. */
  function CreateSuperuser(users: seq<User>, phone: string, fullName: string, password: Option<string>, e: Extras)
    : (r: Result<(seq<User>, User), ManagerError>)
    ensures e.isStaff == Some(false) ==> r == Failure(StaffRequired)
    ensures e.isStaff != Some(false) && e.isSuperuser == Some(false) ==> r == Failure(SuperuserRequired)
    ensures r.Success? ==> var u := r.value.1;
      && u.isStaff && u.isSuperuser
      && u.role == e.role.GetOr("super_admin")
      && u.phone == phone && u.fullName == fullName
    ensures e.isStaff != Some(false) && e.isSuperuser != Some(false) ==>
      r == CreateUser(users, phone, fullName, password, SuperuserExtras(e))
  {
    var f := SuperuserExtras(e);
    DefaultTrue(e.isStaff);
    DefaultTrue(e.isSuperuser);
    if f.isStaff != Some(true) then Failure(StaffRequired)
    else if f.isSuperuser != Some(true) then Failure(SuperuserRequired)
    else CreateUser(users, phone, fullName, password, f)
  }
}

=== FILE: wrappers.dfy ===
/**
  Failure-carrying values shared by every module of the model: `Option` for
  values that may be absent (a nullable column, a missing request key) and
  `Result` for operations that either succeed or raise.
 */
module Wrappers {

  datatype Option<+T> = None | Some(value: T) {

    /** The value, or `default` when absent. */
    function GetOr(default: T): T {
      match this
      case Some(v) => v
      case None => default
    }
  }

  datatype Result<+R, +E> = Success(value: R) | Failure(error: E) {

    predicate IsFailure() {
      Failure?
    }

    function PropagateFailure<U>(): Result<U, E>
      requires Failure?
    {
      Failure(error)
    }

    function Extract(): R
      requires Success?
    {
      value
    }
  }
}
